=== FILE: README.md ===
# Ayame-Bot activity XP, security rules and recovery in Dafny

This project models the rule-bearing core of the Ayame-Bot Discord bot:

- **The activity-XP engine** (`backend/cogs/activity_xp.py`). Members earn XP for the time they spend playing, listening, streaming, watching or competing.
  - A presence update picks one activity by priority.
  - A new activity starts a streak with no award.
  - The same activity after the one-hour cooldown awards a random base XP times the streak length.
  - Every 100 XP is a level. Reaching a level can hand out the guild's reward role for it.
  - The read-only commands `/xp`, `/leaderboard`, `/rank` and `/top` present the stored data.
  - The admin commands `/setrewardrole`, `/editrewardrole` and `/setxpsystem` write the reward-role table. The first two sync the role to members on the leaderboard.
- **The SQLite store** behind it (`backend/database.py`). It has four tables: user XP, activity streaks, per-guild configuration, and the (guild, level) → role table.
- **The security cog** (`backend/cogs/security_commands.py`):
  - per-guild settings that are created with defaults on first lookup, and their setters;
  - the bad-word list;
  - the bad-word and sliding-window anti-spam checks on each message;
  - the anti-alt and sliding-window anti-raid checks on each join;
  - the gate in front of security logging.
- **Start-up recovery** (`backend/recovery.py`):
  - clears dangling log channels and deletes reward roles whose Discord role is gone;
  - notifies the log channels;
  - runs the health check that counts unresolved reward roles.

The model is functional:

- **Tables** are maps: `Store.Db` holds one map per table.
- **Discord state** is sets of ids. A member is the set of role ids it holds. A guild is the sets of channel and role ids that `get_channel`/`get_role` resolve. "Still in the guild" is a set of user ids.
- **Clock and randomness** are parameters. Time is an integer count of microseconds. `random.randint(lo, hi)` becomes a parameter `base` that is required to lie in the range.
- **Handlers** are step functions from state to state plus outcome. Each runs to completion before the next event is handled.

The modules, in dependency order:

- `Common`: ids, time units, Python id truthiness, ASCII lowercasing, substring, max/min of a set.
- `Ranking`: `ORDER BY key DESC LIMIT n` as a sort of a set plus a prefix.
- `Store`: the four tables and every `database.py` operation of the core.
- `Classifier`: the activity selection loop of `on_presence_update`.
- `Engine`: the presence handler's state machine.
- `Rewards`: reward thresholds, level-up role assignment, and the reward-role admin commands with their sync loops.
- `Board`: the command gate, `/xp`, `/leaderboard`, `/rank` and `/top`.
- `Security`: the security cog.
- `Recovery`: `backend/recovery.py`.

A few behaviours of the source are modelled exactly as written and pinned down by lemmas. They are surprising, though not evidently unintended:

- **Losing activity sets the XP range.** A `discord.Activity`/`discord.Game` sets the XP-range key before its priority test. So a game listed after a song keeps the label "Spotify" but draws XP from the playing range. See `Classifier.RangeFromLosingActivity`.
- **First award needs no wait.** The cooldown is measured from the last award. A member who has never earned XP is awarded on the next event with the same activity, with no wait. See `Engine.FirstAwardNeedsNoWait`.
- **Unreachable first-hour message.** When a member's presence events are handled one at a time, the "first hour" award message (streak 1) is unreachable: an award always comes with a streak of at least 2. See `Engine.AwardStreakAtLeastTwo`. Overlapping handlers can reach it (see "## Left out").
- **Trackers span guilds.** The spam tracker is keyed by user alone, and the join tracker is one list for every guild. Activity in other guilds counts towards spam and raids. See `Security.SpamCountsOtherGuilds` and `Security.RaidCountsOtherGuilds`.
- **Threshold 0 is falsy.** `get_role_for_level` tests the found threshold for truthiness, so a threshold of 0 reads as "no role". `setrewardrole` never stores 0. See `Rewards.ZeroThresholdReadsAsNone`.
- **Same-role edit strips the role.** With each member's roles taken as read when the command starts, `/editrewardrole` to the role the level already has takes that role away from the members holding it. See `Rewards.SameRoleEditStrips`. In the source the outcome depends on timing: `member.roles` is read again at `backend/cogs/activity_xp.py:328`, after the `remove_roles` await at line 325, and the role is added back if Discord's member update arrived during that await.

Two of these are easy to misread in the code itself. The first-hour message is written out as the `else` branch at `backend/cogs/activity_xp.py:928-934`, and the comment at line 905 lists a 1x multiplier, yet when events are handled one at a time the stored streak count is already at least 1 when an award is made. The spam tracker `self.message_tracker[user_id]` at `backend/cogs/security_commands.py:481` carries no guild in its key. The model follows the code in both cases.

## Model

| member | source | states |
|---|---|---|
| Common.InjectiveImageCard | backend/cogs/activity_xp.py:429-434 | mapping distinct rows to their user ids loses none of them when every user has one row |
| Common.LowerIsLower | backend/cogs/security_commands.py:406 | lowercasing yields a string with no upper-case ASCII letter, so a word added by `/badwords` is stored in the form messages are compared in |
| Ranking.Capped | backend/database.py:136-141 | `LIMIT n` never returns more rows than exist |
| Ranking.InsertDesc | backend/database.py:139 | inserting into a list sorted by descending key keeps it sorted, gains exactly the new element and loses none |
| Ranking.SortDesc | backend/database.py:139 | `ORDER BY key DESC` over a set of rows: every row exactly once, in non-increasing key order |
| Ranking.TopBy | backend/database.py:131-145 | `ORDER BY key DESC LIMIT n`: sorted, no repeats, only input rows, `min(n, count)` of them (all when n is negative), and no row left out outranks a row returned |
| Ranking.DistinctCard | backend/database.py:131-145 | rows listed without repeats are as many as the distinct rows they list |
| Ranking.ListsAll | backend/database.py:131-145 | a list without repeats that holds exactly a set of rows has that set's size |
| Ranking.PositionBounds | backend/cogs/activity_xp.py:458-463 | in a list sorted by descending key that holds every row once, the entry at position k + 1 has more than the rows keyed strictly above it before it and no more than the rows keyed at least as high |
| Store.GetUserXp | backend/database.py:83-102 | an unknown (guild, user) reads as xp 0, level 0, no award time; a stored row's level follows its XP when the store is level-consistent |
| Store.AddXp | backend/database.py:104-129 | XP grows by the amount, level becomes new XP // 100, the award time becomes now, `leveled_up` iff the new level exceeds the old; every other user's row and every other table is unchanged |
| Store.AddXpKeepsLevelConsistent | backend/database.py:104-129 | after `add_xp` every stored level is still its XP // 100 |
| Store.AddXpLevelMonotone | backend/database.py:104-129 | a non-negative award never lowers the level, and levels up exactly when XP % 100 plus the award reaches 100 |
| Store.GetLeaderboard | backend/database.py:131-145 | only the guild's users, each once, with their stored XP and level, non-increasing XP, `min(limit, users)` rows, none left out above any kept, and every user present when the limit does not bite |
| Store.UserRank | backend/database.py:147-161 | the rank is at least 1, and 1 for a user with no row |
| Store.RankOrder | backend/database.py:147-161 | strictly more XP gives a strictly smaller rank |
| Store.RankBounds | backend/database.py:147-161 | rank 1 iff nobody in the guild has more XP; the rank never exceeds the guild's user count |
| Store.GetStreak | backend/database.py:174-194 | no row reads as no activity, count 0, no time; a stored row reads back its activity |
| Store.UpdateStreak | backend/database.py:196-212 | reading the key back gives exactly the activity, count and time written; every other key and table is unchanged |
| Store.GetTopStreaks | backend/database.py:214-228 | only the guild's rows with a positive count, each user once, matching the stored count and activity, non-increasing count, `min(limit, rows)` of them, none left out above any kept, and every active row when the limit does not bite |
| Store.GetGuildConfig | backend/database.py:231-256 | an unknown guild reads as disabled with no log channel, no target role and auto roles off |
| Store.UpdateGuildConfig | backend/database.py:258-286 | no supplied key changes nothing; otherwise exactly the supplied fields take the given values (a new guild starts from the defaults) and every other guild and table is unchanged |
| Store.GetCustomRoles | backend/database.py:303-316 | the guild's map has exactly the guild's (level, role) entries |
| Store.AddCustomRole | backend/database.py:289-301 | upsert: the guild's map gains or overwrites the level with the role; every other (guild, level) entry and table is unchanged |
| Store.RemoveCustomRole | backend/database.py:318-329 | delete: the guild's map loses exactly the level; every other entry and table is unchanged |
| Store.RemoveLeavesOtherGuilds | backend/database.py:318-329 | deleting one guild's reward role leaves every other guild's map unchanged |
| Store.AddLeavesOtherGuilds | backend/database.py:289-301 | writing one guild's reward role leaves every other guild's map unchanged |
| Store.AddThenRemoveCustomRole | backend/database.py:289-329 | adding a level's role and removing it again leaves the guild's map as before, without that level |
| Classifier.XpRange | backend/cogs/activity_xp.py:95-102 | every hourly XP range is non-empty, with 3 <= low <= high <= 20 |
| Classifier.Priority | backend/cogs/activity_xp.py:767-838 | an activity can be selected iff it is a Spotify song, a stream or a generic activity; custom statuses and unknown classes never beat the starting priority 999 |
| Classifier.LastKeySetter | backend/cogs/activity_xp.py:806-832 | the last activity at or after the winner that assigns the range key: the winner itself, or a generic activity with no generic one after it |
| Classifier.ScanInvariant | backend/cogs/activity_xp.py:767-840 | after any prefix of the activities the loop has selected nothing iff none was eligible; otherwise it holds the priority winner (first seen on a tie), its label, and the key of the last key setter |
| Classifier.ClassifySpec | backend/cogs/activity_xp.py:767-844 | no activity is detected iff every activity is a custom status or unrecognised; otherwise the label is the priority winner's (first seen on a tie, never a custom status) and the range key is that of the last generic activity after it, or its own |
| Classifier.KeyIsWinnersWithoutLaterGeneric | backend/cogs/activity_xp.py:806-844 | when no generic activity follows the winner, label and range both come from the winner |
| Classifier.PriorityExamples | backend/cogs/activity_xp.py:767-840 | listening beats playing whatever the order, and a custom status alone is no activity |
| Classifier.RangeFromLosingActivity | backend/cogs/activity_xp.py:806-844 | a game listed after a song keeps the label "Spotify" but the playing XP range |
| Engine.Step | backend/cogs/activity_xp.py:904-915 | an award's streak is the stored count plus one and its XP is the base times that streak; any other outcome leaves every XP row as it was |
| Engine.StepIgnored | backend/cogs/activity_xp.py:725-754 | bots, disabled guilds, a missing or unresolved log channel, and a member lacking a resolving target role change nothing |
| Engine.StepNoActivity | backend/cogs/activity_xp.py:848-854 | with no eligible activity the current marker is cleared and the store is untouched |
| Engine.StepNewActivity | backend/cogs/activity_xp.py:856-896 | a label different from the marker becomes the marker and gets a streak of 1 with no award and no change to any XP row or award time |
| Engine.StepCooldown | backend/cogs/activity_xp.py:866-901 | the same label within an hour of the last award writes nothing |
| Engine.StepAward | backend/cogs/activity_xp.py:866-915 | the same label after the cooldown: streak = stored count + 1, award = base × streak within the range bounds × streak, XP grows by it, level recomputed, award time now, `leveled_up` iff the level rose |
| Engine.StepFrame | backend/cogs/activity_xp.py:759-915 | a presence event touches only its own (guild, user) marker, XP row and streak row |
| Engine.StepPreservesInv | backend/cogs/activity_xp.py:856-915 | stored levels keep matching stored XP, and each current marker keeps a stored streak row with the same label and a count of at least 1 |
| Engine.AwardStreakAtLeastTwo | backend/cogs/activity_xp.py:904-934 | under that invariant an award has a streak of at least 2 and at least twice the base, so with events handled one at a time the single-hour award message is never sent |
| Engine.SwitchingNeverAwards | backend/cogs/activity_xp.py:857-896 | an event whose label differs from the marker never awards XP |
| Engine.FirstAwardNeedsNoWait | backend/cogs/activity_xp.py:866-915 | a member with no XP row is awarded on the next event with the same label, even at the same instant, with a streak of 2 |
| Rewards.QualifyingLevel | backend/cogs/activity_xp.py:126-139 | the greatest threshold at or below the level, or none iff every threshold is above it |
| Rewards.NextRewardLevel | backend/cogs/activity_xp.py:554-558 | the least threshold above the level, or none iff no threshold is above it |
| Rewards.ScanQualifying | backend/cogs/activity_xp.py:130-135 | walking the thresholds from highest down and stopping at the first not above the level finds exactly the greatest threshold at or below it |
| Rewards.ScanNext | backend/cogs/activity_xp.py:554-558 | walking the thresholds from lowest up and stopping at the first above the level finds exactly the least threshold above it |
| Rewards.RoleForLevel | backend/cogs/activity_xp.py:126-139 | the role of the greatest threshold reached, with that threshold; none iff the level is below every threshold or that threshold is 0 |
| Rewards.RoleForLevelPositive | backend/cogs/activity_xp.py:126-139 | with thresholds of 1 or more, as `/setrewardrole` enforces, a level has no role iff it is below every threshold |
| Rewards.ZeroThresholdReadsAsNone | backend/cogs/activity_xp.py:137-139 | a lone threshold of 0 yields no role for any level |
| Rewards.AssignRoleForLevel | backend/cogs/activity_xp.py:946-982 | changes iff a role qualifies, resolves and is not held; then the member holds it, holds no other resolving reward role, gains nothing else and keeps all non-reward roles; otherwise nothing changes |
| Rewards.AssignIdempotent | backend/cogs/activity_xp.py:946-982 | assigning a second time changes nothing |
| Rewards.HandleLevelUp | backend/cogs/activity_xp.py:984-1020 | with no reward roles nothing happens; otherwise the level-up message is sent iff the assignment changed the member, names the level's role, and the member then holds it |
| Rewards.OnPresence | backend/cogs/activity_xp.py:942-982 | the member gains a role exactly when the award levels up and the new level's reward role resolves and is not held; the gained role is that role, it ends up held, nothing else is gained and every other resolving reward role is dropped; otherwise the roles are unchanged |
| Rewards.SyncNewRole | backend/cogs/activity_xp.py:250-266 | every member on a row at or above the level ends up with the role, counted as synced when it lacked it and skipped when it held it; every other member is unchanged |
| Rewards.Swap | backend/cogs/activity_xp.py:322-329 | the member gains the new role if it lacked it, loses the old one when it differs, and keeps every other role |
| Rewards.SameRoleSwapStrips | backend/cogs/activity_xp.py:322-329 | swapping a held role for itself removes it |
| Rewards.SyncEditedRole | backend/cogs/activity_xp.py:314-332 | every member on a row at or above the level has the old role swapped for the new one, counted as updated when it lacked the new role; every other member is unchanged |
| Rewards.SyncRows | backend/cogs/activity_xp.py:246-250 | the rows read are users with XP, and include every such user when the guild has at most 10000 |
| Rewards.LeaderboardTargets | backend/cogs/activity_xp.py:250-258 | the sync never targets a member without XP or whose stored level is below the threshold, and targets every member at or above the level when the read was complete |
| Rewards.NewRoleSynced | backend/cogs/activity_xp.py:250-266 | nobody gains anything but the role, members without XP or below the level are untouched, and after a complete read every member at or above the level holds the role |
| Rewards.EditedRoleSynced | backend/cogs/activity_xp.py:308-332 | nobody gains anything but the new role, members without XP or below the level are untouched, and after a complete read every member at or above the level holds the new role and not a different old one |
| Rewards.SetRewardRole | backend/cogs/activity_xp.py:227-278 | a level below 1 is refused, then an unmanageable role; otherwise the level's role is stored and nothing else in the store changes, members without XP or below the level are untouched, and the sync guarantees of `NewRoleSynced` hold |
| Rewards.EditRewardRole | backend/cogs/activity_xp.py:286-342 | a level with no reward role is refused, then an unmanageable role; otherwise the level's role is replaced and nothing else in the store changes, members without XP or below the level are untouched, and members at or above the level gain the new role and lose a different old one that still resolves |
| Rewards.SameRoleEditStrips | backend/cogs/activity_xp.py:314-332 | with member roles as read when the command starts, editing a level to the role it already has takes that role from the targeted members who hold it |
| Rewards.Created | backend/cogs/activity_xp.py:183-197 | the created theme roles are exactly the levels whose role creation succeeded |
| Rewards.CreatedLastWins | backend/cogs/activity_xp.py:183-197 | each level maps to the role created for it by the last successful creation at that level, and every stored role was created for its level |
| Rewards.AddThemeRoles | backend/cogs/activity_xp.py:183-197 | storing the created theme roles adds exactly them to the guild's reward map and changes no other table |
| Rewards.SetXpSystem | backend/cogs/activity_xp.py:155-219 | the guild becomes enabled with the log channel, no target role and the auto-roles flag; theme roles are added iff requested; other guilds and XP are unchanged |
| Board.CommandGate | backend/cogs/activity_xp.py:348-366 | a command runs iff the system is enabled and, when a log channel is set, it is used there; in another channel it is refused naming the log channel when that channel resolves, and raises when it does not; a disabled system is refused first |
| Board.PresentRows | backend/cogs/activity_xp.py:429-434 | the stored rows of the guild's users still present, one per such user |
| Board.PresentBoard | backend/cogs/activity_xp.py:428-441 | the present users' rows in XP order without repeats, at most 1000, all of them when the guild has at most 1000 XP rows, and no present row left out has more XP than a listed one |
| Board.NoneListed | backend/cogs/activity_xp.py:436-438 | a complete empty list means no user with XP is still in the guild |
| Board.ListedPositions | backend/cogs/activity_xp.py:444-463 | a complete list has one entry per present user with XP, and the entry at position k has more than the users with strictly more XP before it and at most the users with at least as much XP |
| Board.ListedRank | backend/cogs/activity_xp.py:532-546 | a position is found only for a listed user, at that user's stored row; in a complete list it is found iff the user is present with XP, and sits among the users with the same XP |
| Board.KeepPresent | backend/cogs/activity_xp.py:429-441 | keeps exactly the rows of members still in the guild, preserving XP order and the absence of repeats |
| Board.ListRank | backend/cogs/activity_xp.py:458-463 | the position from 1 of the first row of the user, or none iff the user is not listed |
| Board.ListRankOrder | backend/cogs/activity_xp.py:532-546 | in an XP-sorted list everyone with more XP comes before the user's position and everyone before it has at least as much |
| Board.XpOrderIsLevelOrder | backend/cogs/activity_xp.py:693-699 | a list sorted by XP whose levels follow from XP is sorted by level too |
| Board.TotalPages | backend/cogs/activity_xp.py:444-446 | `ceil(n / 10)`: zero iff there are no users, otherwise the least page count holding n entries of ten |
| Board.ClampPage | backend/cogs/activity_xp.py:447 | a page below 1 becomes 1, a page past the end becomes the last page (1 when there are none), and a page in range is kept |
| Board.PageSlice | backend/cogs/activity_xp.py:449-451 | at most ten entries, the i-th being entry (page - 1) × 10 + i of the list; a page that starts inside the list is full or holds the rest of the list |
| Board.EveryEntryHasAPage | backend/cogs/activity_xp.py:444-451 | entry i appears on page i // 10 + 1 at slot i % 10, numbered i + 1 |
| Board.ClampedPageNotEmpty | backend/cogs/activity_xp.py:444-451 | a clamped page of a non-empty list is never empty |
| Board.PageView | backend/cogs/activity_xp.py:444-463 | the page is the clamped one; it holds ten entries or the rest of the list, at least one, each numbered with its position in the list and holding the row at that position; the viewer's position is the list position |
| Board.NumberedSorted | backend/cogs/activity_xp.py:449-451 | every entry of a page comes from the list, and a page of an XP-sorted list is in XP order |
| Board.Leaderboard | backend/cogs/activity_xp.py:405-502 | a closed gate refuses; otherwise, with all rows read, "no users" iff no user with XP is still present; a shown page is the clamped page, full or the rest, of present users' stored rows in XP order numbered by position; with all rows read the total is the present users with XP, every entry's number is its XP rank, and the viewer's rank exists iff the viewer is present with XP |
| Board.PresentPage | backend/cogs/activity_xp.py:444-463 | a page of the present board holds present users' stored rows in XP order, numbered by position |
| Board.CompletePage | backend/cogs/activity_xp.py:444-463 | a page of a complete board counts every present user with XP, numbers each entry with its XP rank, and has a viewer rank iff the viewer is present with XP, placed by the viewer's XP |
| Board.PagePositions | backend/cogs/activity_xp.py:458-463 | every numbered entry of a page of a complete board is ranked by its XP among the present users |
| Board.ProgressOf | backend/cogs/activity_xp.py:560-570 | XP into the level is XP % 100, plus XP needed makes 100, and the bar has filled + empty = 10 with filled = (XP % 100) // 10 |
| Board.NextMatchesProgress | backend/cogs/activity_xp.py:560-563 | the "Next" of `/xp` equals the XP `/rank` says is still needed |
| Board.XpCardOf | backend/cogs/activity_xp.py:368-400 | shows the stored XP and level, the XP to the next level (1..100, reaching the next multiple of 100), and the role that `ShownRole` picks for the level; an unknown user shows 0, 0 and 100 |
| Board.NextLevelGap | backend/cogs/activity_xp.py:393 | the gap is 1..100 and lands XP exactly on the next level |
| Board.ShownRole | backend/cogs/activity_xp.py:396-399 | a shown role resolves and belongs to the greatest nonzero threshold at or below the level; none iff no role qualifies or it does not resolve |
| Board.RankCardOf | backend/cogs/activity_xp.py:527-611 | the stored XP and level with the progress section `ProgressOf` gives for the stored row; a rank only for a present user with XP, and with all rows read a rank iff the user is present with XP, placed among the users with the same XP; the shown role is that of `ShownRole` and the next role that of `NextRoleOf` |
| Board.PresentRank | backend/cogs/activity_xp.py:532-546 | a rank is found only for a present user with XP; with no row cut off one is found iff the user is present with XP, and it lies between one more than the users with more XP and the users with at least as much |
| Board.NextShownRole | backend/cogs/activity_xp.py:554-558 | the scan's result equals `NextRoleOf` |
| Board.NextRoleOf | backend/cogs/activity_xp.py:554-558 | the least threshold above the level with its role, given only when that role resolves; none iff there is no threshold above the level or the least one's role does not resolve |
| Board.ShownStreaks | backend/cogs/activity_xp.py:647-660 | keeps exactly the streaks of present members whose label has no "Custom:", preserving count order and the absence of repeats |
| Board.Take | backend/cogs/activity_xp.py:707 | the first n entries, or all when fewer |
| Board.Top | backend/cogs/activity_xp.py:622-717 | a closed gate refuses; otherwise the category decides the board; with all rows read, "empty" iff there is no candidate, and the board holds min(10, candidates) of them with no candidate left out above one shown, by XP and level for members or by count for streaks |
| Board.TopMemberBoard | backend/cogs/activity_xp.py:680-715 | up to ten present users in XP and level order; with all rows read, min(10, present users with XP) of them with none left out above a shown one, or "empty" iff there are none |
| Board.TopStreakBoard | backend/cogs/activity_xp.py:645-678 | up to ten positive non-custom streaks of present users in count order; with all active rows read, min(10, such streaks) of them with none left out above a shown one, or "empty" iff there are none |
| Board.ShownAreCandidates | backend/cogs/activity_xp.py:647-660 | every streak kept for `/top` is an active, non-custom streak of a present member, and when no active streak was cut off every such streak is kept |
| Security.GetSecConfig | backend/cogs/security_commands.py:34-57 | a known guild's entry is returned unchanged; an unknown guild gets the defaults, which are stored; the trackers are untouched |
| Security.FirstLookupDefaults | backend/cogs/security_commands.py:34-57 | a first lookup has spam, raid and alt protection on, the filter, verification and logging off, 5 messages per 5 seconds, 10 joins, no words; looking up again returns the same |
| Security.SetFlag | backend/cogs/security_commands.py:73-76 | exactly the chosen feature takes the value; every other feature and setting is kept |
| Security.Toggle | backend/cogs/security_commands.py:73-76 | `/security` sets one feature of the guild and keeps its other settings, every other guild and both trackers |
| Security.SetLog | backend/cogs/security_commands.py:108-112 | `/setlog` records the channel and turns logging on, keeps every other setting, every other guild and both trackers |
| Security.WithVerification | backend/cogs/security_commands.py:129-135 | sets the role and turns verification on, the channel only when one is given, nothing else |
| Security.SetVerify | backend/cogs/security_commands.py:129-135 | `/setverify` applies that edit to the guild's entry and keeps every other guild and both trackers |
| Security.SetAntiRaid | backend/cogs/security_commands.py:365-369 | `/antiraid` records the join threshold and the action, keeps every other setting, every other guild and both trackers |
| Security.RemoveFirst | backend/cogs/security_commands.py:414-420 | removes one occurrence of the word: the multiset loses exactly that word and the length drops by one |
| Security.RemoveFirstAt | backend/cogs/security_commands.py:416 | the occurrence removed is the first one, and the words before and after it keep their order |
| Security.EditWords | backend/cogs/security_commands.py:389-420 | list shows the words; a missing word is refused; add appends the lowercased word iff absent; remove drops it iff present, after which it is gone; a list without duplicates keeps none |
| Security.BadWords | backend/cogs/security_commands.py:389-420 | `/badwords` applies that edit to the guild's list and changes no other setting, no other guild and neither tracker |
| Security.RemoveFirstKeepsNoDuplicates | backend/cogs/security_commands.py:414-420 | removing from a list without duplicates leaves none and removes the word entirely |
| Security.AddThenRemove | backend/cogs/security_commands.py:407-420 | adding an absent word and removing it restores the list |
| Security.SetLogDelivers | backend/cogs/security_commands.py:422-434 | after `/setlog` with an existing channel, security events are delivered |
| Security.Window | backend/cogs/security_commands.py:480-485 | keeps exactly the times less than the width before now, each as often as it occurs, and all of them when all are that recent |
| Security.WindowAppend | backend/cogs/security_commands.py:480-485 | filtering a concatenation is filtering each part, so the kept times stay in their order |
| Security.WindowIdempotent | backend/cogs/security_commands.py:480-485 | filtering twice at the same instant is filtering once |
| Security.OnMessage | backend/cogs/security_commands.py:447-503 | bots and DMs are not checked, and every other message is; flagged iff the filter is on, the list non-empty and a word occurs in the lowercased text; otherwise spam iff anti-spam is on and the author's recent messages, this one included, exceed the maximum; the tracker is cleared only after spam whose actions succeeded; logged iff flagged or spam, actions succeeded and logging reaches a channel |
| Security.SpamCountsOtherGuilds | backend/cogs/security_commands.py:476-490 | enough recent messages by the author in any guild make a message spam |
| Security.OnMemberJoin | backend/cogs/security_commands.py:506-534 | an alt iff anti-alt is on and `now - createdAt`, as the source computes it, is under 7 days; with anti-raid on, the shared tracker keeps the last minute's joins and a raid iff they exceed the threshold; each finding is logged iff logging reaches a channel; settings of other guilds and the message tracker are unchanged |
| Security.RaidCountsOtherGuilds | backend/cogs/security_commands.py:522-528 | enough recent joins to any guild make one join a raid |
| Security.QuietMinuteResets | backend/cogs/security_commands.py:522-525 | after a minute without joins only the new join is tracked |
| Recovery.PruneRoles | backend/recovery.py:47-63 | exactly the entries whose role resolves remain, with their roles; no other guild or table changes |
| Recovery.RestoreGuild | backend/recovery.py:25-67 | a disabled guild is skipped; otherwise a dangling log channel is cleared, only resolving reward roles remain and every resolving one is kept, the guild counts as restored, and other guilds and the XP tables are unchanged |
| Recovery.CountEnabledSnoc | backend/recovery.py:67 | the restore count grows by one exactly for an enabled guild |
| Recovery.RestoreAll | backend/recovery.py:12-78 | the count is the number of enabled guilds, enabled flags never change, and for distinct guilds every enabled one ends with resolving reward roles and a log channel that is unset or resolves |
| Recovery.HealthIssues | backend/recovery.py:150-157 | no issues iff no guild has an issue |
| Recovery.VerifyBotHealth | backend/recovery.py:130-169 | passes iff the connection is open; a closed connection counts nothing; otherwise no issues iff every enabled guild's reward roles resolve |
| Recovery.RestoreThenCheck | backend/recovery.py:12-169 | right after a restore of distinct guilds the health check passes with no issues |
| Recovery.NotifyCount | backend/recovery.py:80-128 | notifications never exceed the enabled guilds with a log channel set |
| Recovery.CountLogged | backend/recovery.py:87-94 | the guilds with a log channel set never exceed the enabled guilds |
| Recovery.NotifyReachesAllLogged | backend/recovery.py:87-119 | when every set log channel resolves, every enabled guild with one is notified |
| Recovery.RestoreThenNotify | backend/recovery.py:12-128 | after the restore, every enabled guild that still has a log channel is notified |

## Left out

- Discord I/O is not modelled: embeds, replies, deferrals, logging calls, slash-command registration. Role changes are modelled only as their effect on sets of role ids.
- Failures of remote calls are not modelled, except that `Security.OnMessage` takes whether the timeout or deletion and the warning succeeded as the parameter `actionsOk`. Otherwise every `add_roles`, `remove_roles` and send is assumed to succeed.
- SQLite plumbing and the JSON files are not modelled: connections, schema creation, `backup_to_json`, `load_config`/`save_config`, and the server `backup` command. The tables are maps and the security configuration is a map.
- `random.randint` and `datetime.now()` are parameters. The ISO-format round trip of `last_xp_time` is not modelled. Its `try/except` is unreachable for values the code writes.
- `get_total_users` in `backend/database.py` is not modelled: no command of the core calls it.
- `backupxp`, `verify_panel`, `security_status`, `VerificationView`, `lockdown`, `unlock_server` and the `setup` functions are not modelled. They only render, export or loop over remote permission changes.
- The mention limit (`max_mentions`) is not modelled: it is stored but never checked. The raid action (kick, ban or alert) is stored by `/antiraid` but the join handler only logs, so the model only records it.
- Lowercasing covers ASCII letters only. Python's `str.lower()` also folds other scripts.
- Security entries written by older versions may lack keys, and the source then falls back to `config.get(..., default)`. The model assumes every stored entry is complete, as entries created by `get_guild_config` are.
- Board.ProgressOf: requires a row whose level is its XP // 100, as every row `add_xp` writes is. For other rows the source's floating-point bar can have a negative or more than ten cells.
- Board.XpCardOf: omits the next-role lookup of `/xp`, because its result is never displayed.
- Rewards.SetRewardRole: takes whether the bot can manage the role as a boolean parameter, instead of comparing role positions; so does `Rewards.EditRewardRole`. Members are looked up once, when the command starts. A member's roles during the loop are those read then.
- Rewards.SetRewardRole: does not state who is synced when the guild has more than 10000 XP rows, only that nobody gains anything but the role.
- Rewards.EditRewardRole: likewise does not state who is synced beyond the first 10000 XP rows.
- Board.Leaderboard: when the guild has more than 1000 XP rows, like the source it reads only the top 1000. The total, the numbering and the viewer's rank are then stated only relative to the rows read, which outrank every present row left out.
- Board.RankCardOf: likewise states the rank's existence and place only when the guild has at most 1000 XP rows. It models the card after the command gate, which is `Board.CommandGate` as in `Board.Leaderboard`.
- Board.PresentRank: likewise for more than 1000 XP rows.
- Board.XpCardOf: models the card after the command gate, which is `Board.CommandGate`.
- Board.Top: states count and top-ness only when the guild has at most 1000 XP rows (members) or at most 100 active streaks (streaks), the limits of the reads in the source.
- Security.OnMemberJoin: takes `now` and `createdAt` as the numbers the source subtracts. The source's `now` is the host's naive local time and `createdAt` the UTC creation time with its zone dropped, so away from UTC the seven-day test is off by the host's offset; time zones are not modelled.
- Event handlers are modelled as atomic steps that handle one event at a time. In the source each listener runs as its own task and can be interleaved at an `await`. `on_presence_update` writes the new marker at `backend/cogs/activity_xp.py:861`, awaits the log message at line 889, and writes streak 1 only at line 895. A second event with the same label arriving during that await reads the old streak row and can award at streak 1 with the first-hour message. `on_message` appends to the tracker at `backend/cogs/security_commands.py:481`, awaits at lines 490-495 and clears it at line 501, so two racing spam messages are both punished. The model does not represent these interleavings.
- Rewards.SameRoleEditStrips: follows from the snapshot of member roles taken when the command starts. The source reads `member.roles` again after an await, so whether the role is stripped depends on when Discord's member update arrives.
- Recovery.RestoreAll: does not state the post-restore guarantees when the bot lists the same guild twice. Discord never does this.
- Guild channel and role resolution is modelled as membership in sets of ids. The per-guild lookups of `get_channel`/`get_role` are taken as given.
- Status rotation, moderation, NSFW posting, the frontend and the web health server are not modelled. They are outside the XP, security and recovery core.

=== FILE: board.dfy ===
/**
 The read-only XP commands of the activity-XP cog
 (backend/cogs/activity_xp.py): the shared gate, `/xp`, `/leaderboard`
 with its pages and the caller's rank, `/rank` with its progress bar, and
 `/top` by XP, level or streak. Members who left the guild are the users
 `guild.get_member` cannot find, modelled as the set `present` of those it can.
 */
module Board {
  import opened Common
  import opened Ranking
  import opened Store
  import opened Rewards

  // ------------------------------------------------------------------ gate

  /**
   The outcome of the gate: the command runs, or replies that the system is
   not configured, or replies that it belongs in the log channel, or raises
   because that channel no longer exists and its mention cannot be formed.
   */
  datatype Gate = Open | NotConfigured | WrongChannel(logChannel: ChannelId) | Raises(logChannel: ChannelId)

  /**
   Every XP command first requires the system to be enabled and, when a log
   channel is configured, to be used in it. The refusal mentions the log
   channel as found among the guild's `channels`; a channel that is gone
   leaves `None` to mention, and the command raises without a reply.
   */
  function CommandGate(cfg: GuildConfig, channel: ChannelId, channels: set<ChannelId>): (r: Gate)
    ensures r == Open <==> cfg.enabled && (!IsSet(cfg.logChannel) || channel == cfg.logChannel.value)
    ensures r == NotConfigured <==> !cfg.enabled
    ensures r.WrongChannel? <==>
      cfg.enabled && IsSet(cfg.logChannel) && channel != cfg.logChannel.value && cfg.logChannel.value in channels
    ensures r.Raises? <==>
      cfg.enabled && IsSet(cfg.logChannel) && channel != cfg.logChannel.value && cfg.logChannel.value !in channels
    ensures r.WrongChannel? || r.Raises? ==> r.logChannel == cfg.logChannel.value
  {
    if !cfg.enabled then NotConfigured
    else if IsSet(cfg.logChannel) && channel != cfg.logChannel.value then
      if cfg.logChannel.value in channels then WrongChannel(cfg.logChannel.value) else Raises(cfg.logChannel.value)
    else Open
  }

  // ------------------------------------------------------------ member lists

  /** The guild's members who are still present and have an XP row. */
  function PresentMembers(db: Db, g: GuildId, present: set<UserId>): set<UserId>
  {
    set u | u in present && (g, u) in db.userXp
  }

  /** Their stored leaderboard rows, one per member. */
  function PresentRows(db: Db, g: GuildId, present: set<UserId>): (r: set<LeaderRow>)
    ensures forall x :: x in r ==> x.user in PresentMembers(db, g, present) && x == RowFor(db, g, x.user)
    ensures forall u :: u in PresentMembers(db, g, present) ==> RowFor(db, g, u) in r
    ensures |r| == |PresentMembers(db, g, present)|
  {
    var r := set u | u in present && (g, u) in db.userXp :: RowFor(db, g, u);
    assert |r| == |PresentMembers(db, g, present)| by {
      var user := (x: LeaderRow) => x.user;
      InjectiveImageCard(r, user);
      var users := Image(r, user);
      forall u | u in PresentMembers(db, g, present)
        ensures u in users
      {
        assert RowFor(db, g, u) in r && user(RowFor(db, g, u)) == u;
      }
      forall u | u in users
        ensures u in PresentMembers(db, g, present)
      {
        var x :| x in r && user(x) == u;
      }
      assert users == PresentMembers(db, g, present);
    }
    r
  }

  /** The leaderboard rows whose user is still in the guild, in the same order. */
  function KeepPresent(rows: seq<LeaderRow>, present: set<UserId>): (r: seq<LeaderRow>)
    ensures |r| <= |rows|
    ensures forall x :: x in r <==> x in rows && x.user in present
    ensures SortedDesc(rows, RowXp) ==> SortedDesc(r, RowXp)
    ensures Distinct(rows) ==> Distinct(r)
  {
    if |rows| == 0 then []
    else
      var rest := KeepPresent(rows[1..], present);
      assert forall x :: x in rows[1..] ==> x in rows;
      if rows[0].user in present then
        var r := [rows[0]] + rest;
        assert forall x :: x in r <==> x == rows[0] || x in rest;
        assert SortedDesc(rows, RowXp) ==> SortedDesc(r, RowXp) by {
          if SortedDesc(rows, RowXp) {
            assert SortedDesc(rows[1..], RowXp);
            forall i, j | 0 <= i < j < |r|
              ensures RowXp(r[i]) >= RowXp(r[j])
            {
              if i == 0 {
                assert r[j] in rows[1..];
              }
            }
          }
        }
        assert Distinct(rows) ==> Distinct(r) by {
          if Distinct(rows) {
            assert Distinct(rows[1..]);
            assert rows[0] !in rows[1..];
          }
        }
        r
      else
        assert Distinct(rows) ==> Distinct(rows[1..]);
        rest
  }

  /** Reads at most this many leaderboard rows for `/leaderboard`, `/rank` and `/top`. */
  const BOARD_LIMIT: int := 1000

  /**
   The member list every board command builds: the top 1000 leaderboard
   rows without those of departed members, in XP order, each once; when the
   guild has no more than 1000 rows, exactly the present members' rows.
   */
  method PresentBoard(db: Db, g: GuildId, present: set<UserId>) returns (users: seq<LeaderRow>)
    ensures SortedDesc(users, RowXp) && Distinct(users)
    ensures |users| <= BOARD_LIMIT
    ensures forall x :: x in users ==> x in PresentRows(db, g, present)
    ensures |GuildRows(db, g)| <= BOARD_LIMIT ==> forall x :: x in PresentRows(db, g, present) ==> x in users
    ensures forall x, i :: x in PresentRows(db, g, present) && x !in users && 0 <= i < |users| ==> x.xp <= users[i].xp
  {
    var rows := GetLeaderboard(db, g, BOARD_LIMIT);
    assert SortedDesc(rows, RowXp);
    assert Distinct(rows);
    users := KeepPresent(rows, present);
    forall x | x in users
      ensures x in PresentRows(db, g, present)
    {
      assert x in rows;
      assert x.user in PresentMembers(db, g, present);
    }
    if |GuildRows(db, g)| <= BOARD_LIMIT {
      forall x | x in PresentRows(db, g, present)
        ensures x in users
      {
        assert RowFor(db, g, x.user) in rows;
      }
    }
    forall x, i | x in PresentRows(db, g, present) && x !in users && 0 <= i < |users|
      ensures x.xp <= users[i].xp
    {
      assert x.user in GuildUsers(db, g);
      assert x in GuildRows(db, g) && x !in rows;
      assert users[i] in rows;
    }
  }

  /** An empty list that holds every present member's row means nobody present has XP. */
  lemma NoneListed(db: Db, g: GuildId, present: set<UserId>, users: seq<LeaderRow>)
    requires |users| == 0
    requires forall x :: x in PresentRows(db, g, present) ==> x in users
    ensures PresentMembers(db, g, present) == {}
  {
    ListsAll(users, PresentRows(db, g, present));
  }

  /** `users` holds exactly the present members' rows, in XP order, each once. */
  ghost predicate ListsPresent(db: Db, g: GuildId, present: set<UserId>, users: seq<LeaderRow>)
  {
    && SortedDesc(users, RowXp) && Distinct(users)
    && forall x :: x in users <==> x in PresentRows(db, g, present)
  }

  /**
   Position `pos` of a member with `xp` XP is consistent with the present
   members' XP: one more than those with more XP at least, and no more than
   those with at least as much. Without ties it is exactly one more than
   those above.
   */
  predicate Ranked(db: Db, g: GuildId, present: set<UserId>, xp: int, pos: int)
  {
    1 + |KeyAbove(PresentRows(db, g, present), RowXp, xp)| <= pos <= |KeyAtLeast(PresentRows(db, g, present), RowXp, xp)|
  }

  /**
   A complete list has one entry per present member with XP, and the entry
   at index `k` sits at a position consistent with its XP.
   */
  lemma ListedPositions(db: Db, g: GuildId, present: set<UserId>, users: seq<LeaderRow>)
    requires ListsPresent(db, g, present, users)
    ensures |users| == |PresentMembers(db, g, present)|
    ensures forall k :: 0 <= k < |users| ==> Ranked(db, g, present, users[k].xp, k + 1)
  {
    ListsAll(users, PresentRows(db, g, present));
    forall k | 0 <= k < |users|
      ensures Ranked(db, g, present, users[k].xp, k + 1)
    {
      PositionBounds(users, RowXp, PresentRows(db, g, present), k);
    }
  }

  /**
   The position the board reports for `u`: found only for a present member
   with XP, at that member's row; in a complete list found exactly for
   them, at a position consistent with the member's XP.
   */
  lemma ListedRank(db: Db, g: GuildId, present: set<UserId>, users: seq<LeaderRow>, u: UserId)
    requires forall x :: x in users ==> x in PresentRows(db, g, present)
    ensures ListRank(users, u).Some? ==>
      u in PresentMembers(db, g, present) && users[ListRank(users, u).value - 1] == RowFor(db, g, u)
    ensures ListsPresent(db, g, present, users) ==>
      && (ListRank(users, u).Some? <==> u in PresentMembers(db, g, present))
      && (ListRank(users, u).Some? ==> Ranked(db, g, present, db.userXp[(g, u)].xp, ListRank(users, u).value))
  {
    var rank := ListRank(users, u);
    if rank.Some? {
      assert users[rank.value - 1] in users;
    }
    if ListsPresent(db, g, present, users) {
      if u in PresentMembers(db, g, present) {
        assert RowFor(db, g, u) in users;
      }
      if rank.Some? {
        ListedPositions(db, g, present, users);
      }
    }
  }

  /**
   Position (from 1) of the first row of user `u`, as the source's
   `enumerate(..., 1)` search finds it, or `None`.
   */
  function ListRank(users: seq<LeaderRow>, u: UserId): (r: Option<nat>)
    ensures r.None? <==> forall i :: 0 <= i < |users| ==> users[i].user != u
    ensures r.Some? ==>
      && 1 <= r.value <= |users|
      && users[r.value - 1].user == u
      && forall j :: 0 <= j < r.value - 1 ==> users[j].user != u
  {
    if |users| == 0 then None
    else if users[0].user == u then Some(1)
    else
      var rest := ListRank(users[1..], u);
      if rest.None? then None else Some(rest.value + 1)
  }

  /**
   In a list sorted by XP, everyone with strictly more XP than the user
   found at position `k` comes before it, and everyone before it has at
   least as much: the position counts those above, plus any ties placed first.
   */
  lemma ListRankOrder(users: seq<LeaderRow>, u: UserId)
    requires SortedDesc(users, RowXp)
    requires ListRank(users, u).Some?
    ensures var k := ListRank(users, u).value;
      && (forall j :: 0 <= j < |users| && users[j].xp > users[k - 1].xp ==> j < k - 1)
      && (forall j :: 0 <= j < k - 1 ==> users[j].xp >= users[k - 1].xp)
  {
    var k := ListRank(users, u).value;
    forall j | k - 1 < j < |users|
      ensures users[j].xp <= users[k - 1].xp
    {
      assert RowXp(users[k - 1]) >= RowXp(users[j]);
    }
    forall j | 0 <= j < k - 1
      ensures users[j].xp >= users[k - 1].xp
    {
      assert RowXp(users[j]) >= RowXp(users[k - 1]);
    }
  }

  /** A list whose levels follow from its XP and which is sorted by XP is sorted by level as well. */
  lemma XpOrderIsLevelOrder(users: seq<LeaderRow>)
    requires SortedDesc(users, RowXp)
    requires forall i :: 0 <= i < |users| ==> users[i].level == LevelOf(users[i].xp)
    ensures SortedDesc(users, RowLevel)
  {
    forall i, j | 0 <= i < j < |users|
      ensures RowLevel(users[i]) >= RowLevel(users[j])
    {
      assert RowXp(users[i]) >= RowXp(users[j]);
      DivMonotone(users[j].xp, users[i].xp);
    }
  }

  lemma DivMonotone(a: int, b: int)
    requires a <= b
    ensures a / 100 <= b / 100
  {
  }

  function RowLevel(r: LeaderRow): int
  {
    r.level
  }

  // ------------------------------------------------------------ pagination

  const PER_PAGE: int := 10

  /** `(n + per_page - 1) // per_page`. */
  function TotalPages(n: nat): (r: nat)
    ensures n == 0 <==> r == 0
    ensures (r - 1) * PER_PAGE < n <= r * PER_PAGE || n == 0
  {
    (n + PER_PAGE - 1) / PER_PAGE
  }

  /** `max(1, min(page, total_pages))`. */
  function ClampPage(page: int, total: nat): (r: int)
    ensures r >= 1
    ensures total >= 1 ==> r <= total
    ensures 1 <= page <= total ==> r == page
    ensures page < 1 ==> r == 1
    ensures page > total ==> r == (if total < 1 then 1 else total)
  {
    if page < total then (if page < 1 then 1 else page) else (if total < 1 then 1 else total)
  }

  /** The slice `users[(page - 1) * 10 : page * 10]`, clamped as Python slices are. */
  function PageSlice<T>(users: seq<T>, page: int): (r: seq<T>)
    requires page >= 1
    ensures |r| <= PER_PAGE
    ensures forall i :: 0 <= i < |r| ==> (page - 1) * PER_PAGE + i < |users| && r[i] == users[(page - 1) * PER_PAGE + i]
    ensures (page - 1) * PER_PAGE < |users| ==> |r| == FullOrRest(|users|, page)
  {
    var start := (page - 1) * PER_PAGE;
    var end := page * PER_PAGE;
    if start >= |users| then []
    else if end >= |users| then users[start..]
    else users[start..end]
  }

  /** How many of `n` entries page `page` holds when it starts inside them: ten, or what is left for the last page. */
  function FullOrRest(n: int, page: int): int
  {
    var left := n - (page - 1) * PER_PAGE;
    if left < PER_PAGE then left else PER_PAGE
  }

  /**
   The pages partition the list: the entry at index `i` is shown on page
   `i / 10 + 1`, which the clamp keeps, at position `i % 10`, and is
   numbered `i + 1`.
   */
  lemma EveryEntryHasAPage<T>(users: seq<T>, i: int)
    requires 0 <= i < |users|
    ensures var p := i / PER_PAGE + 1;
      && ClampPage(p, TotalPages(|users|)) == p
      && i % PER_PAGE < |PageSlice(users, p)|
      && PageSlice(users, p)[i % PER_PAGE] == users[i]
      && (p - 1) * PER_PAGE + i % PER_PAGE + 1 == i + 1
  {
    var p := i / PER_PAGE + 1;
    assert i == (p - 1) * PER_PAGE + i % PER_PAGE;
    assert p <= TotalPages(|users|);
  }

  /** A clamped page of a non-empty list is never empty. */
  lemma ClampedPageNotEmpty<T>(users: seq<T>, page: int)
    requires |users| >= 1
    ensures |PageSlice(users, ClampPage(page, TotalPages(|users|)))| >= 1
  {
    var p := ClampPage(page, TotalPages(|users|));
    assert (p - 1) * PER_PAGE < |users|;
  }

  datatype BoardEntry = BoardEntry(position: int, row: LeaderRow)

  datatype BoardView =
    | Refused(gate: Gate)
    | NoUsers
    | Shown(entries: seq<BoardEntry>, page: int, totalPages: nat, total: nat, viewerRank: Option<nat>)

  /** The numbered entries of one page. */
  function Numbered(users: seq<LeaderRow>, page: int): (r: seq<BoardEntry>)
    requires page >= 1
    ensures |r| == |PageSlice(users, page)|
    ensures forall i :: 0 <= i < |r| ==>
      r[i] == BoardEntry((page - 1) * PER_PAGE + i + 1, users[(page - 1) * PER_PAGE + i])
  {
    var slice := PageSlice(users, page);
    seq(|slice|, i requires 0 <= i < |slice| => BoardEntry((page - 1) * PER_PAGE + i + 1, slice[i]))
  }

  /**
   One page of a non-empty member list: the requested page clamped into
   range, its entries the list's from the page's start, numbered from
   there, and the viewer's position in the whole list.
   */
  function PageView(users: seq<LeaderRow>, page: int, viewer: UserId): (r: BoardView)
    requires |users| >= 1
    ensures r.Shown? && r.total == |users| && r.totalPages == TotalPages(|users|)
    ensures r.page == ClampPage(page, r.totalPages) && 1 <= r.page <= r.totalPages
    ensures 1 <= |r.entries| == FullOrRest(|users|, r.page) <= PER_PAGE
    ensures forall i :: 0 <= i < |r.entries| ==>
      && r.entries[i].position == (r.page - 1) * PER_PAGE + i + 1
      && r.entries[i].row == users[r.entries[i].position - 1]
      && r.entries[i].row in users
    ensures SortedDesc(users, RowXp) ==>
      forall i, j :: 0 <= i < j < |r.entries| ==> r.entries[i].row.xp >= r.entries[j].row.xp
    ensures r.viewerRank == ListRank(users, viewer)
  {
    var total := TotalPages(|users|);
    var p := ClampPage(page, total);
    ClampedPageNotEmpty(users, p);
    var entries := Numbered(users, p);
    NumberedSorted(users, p);
    Shown(entries, p, total, |users|, ListRank(users, viewer))
  }

  /** A page of an XP-sorted list is in XP order, and every entry on it comes from the list. */
  lemma NumberedSorted(users: seq<LeaderRow>, page: int)
    requires page >= 1
    ensures forall i :: 0 <= i < |Numbered(users, page)| ==> Numbered(users, page)[i].row in users
    ensures SortedDesc(users, RowXp) ==>
      forall i, j :: 0 <= i < j < |Numbered(users, page)| ==> Numbered(users, page)[i].row.xp >= Numbered(users, page)[j].row.xp
  {
    var entries := Numbered(users, page);
    if SortedDesc(users, RowXp) {
      forall i, j | 0 <= i < j < |entries|
        ensures entries[i].row.xp >= entries[j].row.xp
      {
        assert RowXp(users[(page - 1) * PER_PAGE + i]) >= RowXp(users[(page - 1) * PER_PAGE + j]);
      }
    }
  }

  /**
   `/leaderboard`: past the gate, the guild's present members with XP (from
   the top 1000 rows) in XP order, one page of ten numbered from the page's
   start, the clamped page number, the page count, the member count and the
   caller's position. When no row was cut off the count is that of all
   present members with XP, and every position shown is consistent with the
   member's XP.
   */
  method Leaderboard(db: Db, g: GuildId, channel: ChannelId, channels: set<ChannelId>, present: set<UserId>, viewer: UserId, page: int)
    returns (r: BoardView)
    ensures var gate := CommandGate(GetGuildConfig(db, g), channel, channels);
      && (gate != Open ==> r == Refused(gate))
      && (gate == Open ==> !r.Refused?)
    ensures |GuildRows(db, g)| <= BOARD_LIMIT && CommandGate(GetGuildConfig(db, g), channel, channels) == Open ==>
      (r.NoUsers? <==> PresentMembers(db, g, present) == {})
    ensures r.Shown? ==>
      && r.totalPages == TotalPages(r.total)
      && r.page == ClampPage(page, r.totalPages) && 1 <= r.page <= r.totalPages
      && 1 <= |r.entries| == FullOrRest(r.total, r.page) <= PER_PAGE
      && (forall i :: 0 <= i < |r.entries| ==>
            && r.entries[i].position == (r.page - 1) * PER_PAGE + i + 1
            && r.entries[i].row.user in present
            && (g, r.entries[i].row.user) in db.userXp
            && r.entries[i].row == RowFor(db, g, r.entries[i].row.user))
      && (forall i, j :: 0 <= i < j < |r.entries| ==> r.entries[i].row.xp >= r.entries[j].row.xp)
      && (r.viewerRank.Some? ==> 1 <= r.viewerRank.value <= r.total && viewer in present && (g, viewer) in db.userXp)
    ensures r.Shown? && |GuildRows(db, g)| <= BOARD_LIMIT ==>
      && r.total == |PresentMembers(db, g, present)|
      && (forall i :: 0 <= i < |r.entries| ==> Ranked(db, g, present, r.entries[i].row.xp, r.entries[i].position))
      && (r.viewerRank.Some? <==> viewer in PresentMembers(db, g, present))
      && (r.viewerRank.Some? ==> Ranked(db, g, present, db.userXp[(g, viewer)].xp, r.viewerRank.value))
  {
    var gate := CommandGate(GetGuildConfig(db, g), channel, channels);
    if gate != Open {
      return Refused(gate);
    }
    var users := PresentBoard(db, g, present);
    if |users| == 0 {
      if |GuildRows(db, g)| <= BOARD_LIMIT {
        NoneListed(db, g, present, users);
      }
      return NoUsers;
    }
    r := PageView(users, page, viewer);
    PresentPage(db, g, present, users, page, viewer);
    if |GuildRows(db, g)| <= BOARD_LIMIT {
      CompletePage(db, g, present, users, page, viewer);
    }
  }

  /** The leaderboard page of a present-member list holds present members' stored rows. */
  lemma PresentPage(db: Db, g: GuildId, present: set<UserId>, users: seq<LeaderRow>, page: int, viewer: UserId)
    requires |users| >= 1
    requires forall x :: x in users ==> x in PresentRows(db, g, present)
    ensures var r := PageView(users, page, viewer);
      && PresentMembers(db, g, present) != {}
      && (forall i :: 0 <= i < |r.entries| ==>
            && r.entries[i].row.user in present
            && (g, r.entries[i].row.user) in db.userXp
            && r.entries[i].row == RowFor(db, g, r.entries[i].row.user))
      && (r.viewerRank.Some? ==> viewer in present && (g, viewer) in db.userXp)
  {
    assert users[0] in users;
    ListedRank(db, g, present, users, viewer);
  }

  /** The leaderboard page of a complete present-member list, stated about all present members. */
  lemma CompletePage(db: Db, g: GuildId, present: set<UserId>, users: seq<LeaderRow>, page: int, viewer: UserId)
    requires |users| >= 1
    requires ListsPresent(db, g, present, users)
    ensures var r := PageView(users, page, viewer);
      && r.total == |PresentMembers(db, g, present)|
      && (forall i :: 0 <= i < |r.entries| ==> Ranked(db, g, present, r.entries[i].row.xp, r.entries[i].position))
      && (r.viewerRank.Some? <==> viewer in PresentMembers(db, g, present))
      && (r.viewerRank.Some? ==> Ranked(db, g, present, db.userXp[(g, viewer)].xp, r.viewerRank.value))
  {
    ListedRank(db, g, present, users, viewer);
    ListedPositions(db, g, present, users);
    PagePositions(db, g, present, users, page, viewer);
  }

  /** Each entry of a page sits at its own position in the list. */
  lemma PagePositions(db: Db, g: GuildId, present: set<UserId>, users: seq<LeaderRow>, page: int, viewer: UserId)
    requires |users| >= 1
    requires forall k :: 0 <= k < |users| ==> Ranked(db, g, present, users[k].xp, k + 1)
    ensures var r := PageView(users, page, viewer);
      forall i :: 0 <= i < |r.entries| ==> Ranked(db, g, present, r.entries[i].row.xp, r.entries[i].position)
  {
    var r := PageView(users, page, viewer);
    forall i | 0 <= i < |r.entries|
      ensures Ranked(db, g, present, r.entries[i].row.xp, r.entries[i].position)
    {
      var k := r.entries[i].position - 1;
      assert r.entries[i].row == users[k];
    }
  }

  // ----------------------------------------------------------------- cards

  datatype Progress = Progress(xpInLevel: int, xpNeeded: int, filled: int, empty: int)

  /**
   The progress section of `/rank`: XP into the level, XP to the next
   level, and a ten-cell bar. The source computes the filled cells as
   `int((xp_in_level / 100 * 100) / 10)` in floating point; for the values
   0..99 a stored row can produce, that is `xp_in_level // 10`.
   */
  function ProgressOf(row: XpRow): (r: Progress)
    requires row.level == LevelOf(row.xp)
    ensures 0 <= r.xpInLevel < 100 && r.xpInLevel == row.xp % 100
    ensures r.xpInLevel + r.xpNeeded == 100
    ensures 0 <= r.filled <= 9 && r.filled + r.empty == 10 && r.filled == row.xp % 100 / 10
    ensures r.filled * 10 <= r.xpInLevel < (r.filled + 1) * 10
  {
    var xpIn := row.xp - row.level * 100;
    var needed := (row.level + 1) * 100 - row.xp;
    var filled := xpIn / 10;
    Progress(xpIn, needed, filled, 10 - filled)
  }

  /** The "Next" field of `/xp`, `100 - xp % 100`, is the XP `/rank` says is still needed. */
  lemma NextMatchesProgress(row: XpRow)
    requires row.level == LevelOf(row.xp)
    ensures 100 - row.xp % 100 == ProgressOf(row).xpNeeded
  {
  }

  datatype XpCard = XpCard(level: int, xp: int, next: int, role: Option<RoleId>)

  /**
   `/xp` for user `u`: level, XP, XP to the next level, and the reward role
   of the level when it still resolves in the guild.
   */
  function XpCardOf(db: Db, g: GuildId, u: UserId, guildRoles: set<RoleId>): (r: XpCard)
    ensures r.xp == GetUserXp(db, g, u).xp && r.level == GetUserXp(db, g, u).level
    ensures 1 <= r.next <= 100
    ensures LevelConsistent(db) ==> r.xp + r.next == (r.level + 1) * 100
    ensures r.role.Some? ==>
      && r.role.value in guildRoles
      && exists l :: l in GetCustomRoles(db, g) && l <= r.level && GetCustomRoles(db, g)[l] == r.role.value
    ensures r.role == ShownRole(GetCustomRoles(db, g), r.level, guildRoles)
    ensures (g, u) !in db.userXp ==> r.xp == 0 && r.level == 0 && r.next == 100
  {
    var data := GetUserXp(db, g, u);
    assert LevelConsistent(db) ==> data.level == LevelOf(data.xp);
    assert NextLevelGap(0) == 100 by {
      assert LevelOf(0) == 0;
    }
    XpCard(data.level, data.xp, NextLevelGap(data.xp), ShownRole(GetCustomRoles(db, g), data.level, guildRoles))
  }

  /** `100 - xp % 100`: the XP still missing to the next level. */
  function NextLevelGap(xp: int): (r: int)
    ensures 1 <= r <= 100
    ensures xp + r == (LevelOf(xp) + 1) * 100
  {
    assert xp == (xp / 100) * 100 + xp % 100;
    100 - xp % 100
  }

  /** The reward role of `level` when it still resolves among `guildRoles`. */
  function ShownRole(custom: RoleMap, level: int, guildRoles: set<RoleId>): (r: Option<RoleId>)
    ensures r.Some? ==>
      && r.value in guildRoles
      && exists q :: q in custom && q <= level && q != 0 && custom[q] == r.value
           && forall l :: l in custom && l <= level ==> l <= q
    ensures r.None? <==> RoleForLevel(custom, level).None? || RoleForLevel(custom, level).value.1 !in guildRoles
  {
    var current := RoleForLevel(custom, level);
    if current.Some? && current.value.1 in guildRoles then Some(current.value.1) else None
  }

  datatype RankCard = RankCard(rank: Option<nat>, level: int, xp: int, progress: Progress, role: Option<RoleId>, next: Option<(int, RoleId)>)

  /**
   `/rank` for user `u`: the position among present members by XP (as the
   leaderboard numbers them), the progress bar, the current reward role and
   the next one, each shown only when it still resolves.
   */
  method RankCardOf(db: Db, g: GuildId, u: UserId, present: set<UserId>, guildRoles: set<RoleId>) returns (r: RankCard)
    requires LevelConsistent(db)
    ensures r.xp == GetUserXp(db, g, u).xp && r.level == GetUserXp(db, g, u).level
    ensures r.progress == UserProgress(db, g, u)
    ensures r.rank.Some? ==> r.rank.value >= 1 && u in present && (g, u) in db.userXp
    ensures |GuildRows(db, g)| <= BOARD_LIMIT ==>
      && (r.rank.Some? <==> u in PresentMembers(db, g, present))
      && (r.rank.Some? ==> Ranked(db, g, present, r.xp, r.rank.value))
    ensures r.role == ShownRole(GetCustomRoles(db, g), r.level, guildRoles)
    ensures r.next == NextRoleOf(GetCustomRoles(db, g), r.level, guildRoles)
  {
    var data := GetUserXp(db, g, u);
    var rank := PresentRank(db, g, u, present);
    var custom := GetCustomRoles(db, g);
    var next := NextShownRole(custom, data.level, guildRoles);
    r := Assemble(data, rank, custom, guildRoles, next);
  }

  /** The progress section of `u`'s stored row. */
  function UserProgress(db: Db, g: GuildId, u: UserId): Progress
    requires LevelConsistent(db)
  {
    ProgressOf(GetUserXp(db, g, u))
  }

  /** The `/rank` card of a user's row, given the rank and the next role. */
  function Assemble(data: XpRow, rank: Option<nat>, custom: RoleMap, guildRoles: set<RoleId>, next: Option<(int, RoleId)>): (r: RankCard)
    requires data.level == LevelOf(data.xp)
    ensures r == RankCard(rank, data.level, data.xp, ProgressOf(data), ShownRole(custom, data.level, guildRoles), next)
  {
    RankCard(rank, data.level, data.xp, ProgressOf(data), ShownRole(custom, data.level, guildRoles), next)
  }

  /**
   The rank of `/rank`: the position of `u` among the present members of
   the top 1000 leaderboard rows. It is found only for a present member
   with XP; when no row was cut off it is found exactly for them, at a
   position consistent with their XP.
   */
  method PresentRank(db: Db, g: GuildId, u: UserId, present: set<UserId>) returns (rank: Option<nat>)
    ensures rank.Some? ==> rank.value >= 1 && u in present && (g, u) in db.userXp
    ensures |GuildRows(db, g)| <= BOARD_LIMIT ==>
      && (rank.Some? <==> u in PresentMembers(db, g, present))
      && (rank.Some? ==> Ranked(db, g, present, db.userXp[(g, u)].xp, rank.value))
  {
    var users := PresentBoard(db, g, present);
    rank := ListRank(users, u);
    ListedRank(db, g, present, users, u);
  }

  /**
   The next reward role of `/rank`: the least threshold above the level with
   its role, shown only when that role resolves among `guildRoles`.
   */
  function NextRoleOf(custom: RoleMap, level: int, guildRoles: set<RoleId>): (next: Option<(int, RoleId)>)
    ensures next.Some? ==>
      && next.value.1 in guildRoles
      && next.value.0 in custom
      && next.value.1 == custom[next.value.0]
      && next.value.0 > level
      && forall l :: l in custom && l > level ==> next.value.0 <= l
    ensures next.None? <==>
      || (forall l :: l in custom ==> l <= level)
      || exists q :: q in custom && q > level && custom[q] !in guildRoles && forall l :: l in custom && l > level ==> q <= l
  {
    var n := NextRewardLevel(custom, level);
    if n.Some? && custom[n.value] in guildRoles then Some((n.value, custom[n.value])) else None
  }

  /** The scan over the sorted thresholds that `/rank` runs finds that role. */
  method NextShownRole(custom: RoleMap, level: int, guildRoles: set<RoleId>) returns (next: Option<(int, RoleId)>)
    ensures next == NextRoleOf(custom, level, guildRoles)
  {
    var nextLevel := ScanNext(custom, level);
    next := if nextLevel.Some? && custom[nextLevel.value] in guildRoles then Some((nextLevel.value, custom[nextLevel.value])) else None;
  }

  // ------------------------------------------------------------------- top

  /** How many streak rows `/top streak` reads, and how many entries any `/top` shows. */
  const STREAK_LIMIT: int := 100
  const TOP_SHOWN: nat := 10

  /** The streak rows `/top streak` keeps: labels without "Custom:", users still in the guild. */
  function ShownStreaks(rows: seq<StreakEntry>, present: set<UserId>): (r: seq<StreakEntry>)
    ensures forall x :: x in r <==> x in rows && !IsSubstring("Custom:", x.activity) && x.user in present
    ensures SortedDesc(rows, EntryCount) ==> SortedDesc(r, EntryCount)
    ensures Distinct(rows) ==> Distinct(r)
  {
    if |rows| == 0 then []
    else
      var rest := ShownStreaks(rows[1..], present);
      assert forall x :: x in rows[1..] ==> x in rows;
      if !IsSubstring("Custom:", rows[0].activity) && rows[0].user in present then
        var r := [rows[0]] + rest;
        assert forall x :: x in r <==> x == rows[0] || x in rest;
        assert SortedDesc(rows, EntryCount) ==> SortedDesc(r, EntryCount) by {
          if SortedDesc(rows, EntryCount) {
            assert SortedDesc(rows[1..], EntryCount);
            forall i, j | 0 <= i < j < |r|
              ensures EntryCount(r[i]) >= EntryCount(r[j])
            {
              if i == 0 {
                assert r[j] in rows[1..];
              }
            }
          }
        }
        assert Distinct(rows) ==> Distinct(r) by {
          if Distinct(rows) {
            assert Distinct(rows[1..]);
            assert rows[0] !in rows[1..];
          }
        }
        r
      else
        assert Distinct(rows) ==> Distinct(rows[1..]);
        rest
  }

  /** The streaks `/top streak` may show: active, not a custom status, of a present member. */
  function StreakCandidates(db: Db, g: GuildId, present: set<UserId>): set<StreakEntry>
  {
    set e | e in ActiveStreaks(db, g) && !IsSubstring("Custom:", e.activity) && e.user in present
  }

  function Take<T>(s: seq<T>, n: nat): (r: seq<T>)
    ensures |r| <= n && |r| <= |s|
    ensures forall i :: 0 <= i < |r| ==> r[i] == s[i]
    ensures |s| <= n ==> r == s
  {
    if |s| <= n then s else s[..n]
  }

  datatype TopCategory = ByXp | ByLevel | ByStreak

  datatype TopView = TopRefused(gate: Gate) | TopEmpty | TopRows(rows: seq<LeaderRow>) | TopStreaks(streaks: seq<StreakEntry>)

  /**
   `/top`: past the gate, at most ten present members by XP or by level, or
   at most ten streaks with custom-status labels left out, in order. Sorting
   the XP-ordered list by level (Python's sort is stable) leaves it as it is,
   because stored levels follow stored XP.
   */
  method Top(db: Db, g: GuildId, channel: ChannelId, channels: set<ChannelId>, present: set<UserId>, category: TopCategory)
    returns (r: TopView)
    requires LevelConsistent(db)
    ensures var gate := CommandGate(GetGuildConfig(db, g), channel, channels);
      && (gate != Open ==> r == TopRefused(gate))
      && (gate == Open ==> !r.TopRefused?)
    ensures r.TopRows? ==> category != ByStreak
    ensures r.TopStreaks? ==> category == ByStreak
    ensures r.TopRows? ==>
      && 1 <= |r.rows| <= TOP_SHOWN
      && SortedDesc(r.rows, RowXp) && SortedDesc(r.rows, RowLevel)
      && forall i :: 0 <= i < |r.rows| ==> r.rows[i].user in present && (g, r.rows[i].user) in db.userXp && r.rows[i] == RowFor(db, g, r.rows[i].user)
    ensures r.TopStreaks? ==>
      && 1 <= |r.streaks| <= TOP_SHOWN
      && SortedDesc(r.streaks, EntryCount)
      && forall i :: 0 <= i < |r.streaks| ==>
           && r.streaks[i].user in present
           && !IsSubstring("Custom:", r.streaks[i].activity)
           && r.streaks[i].count > 0
           && (g, r.streaks[i].user) in db.streaks
           && db.streaks[(g, r.streaks[i].user)].count == r.streaks[i].count
    ensures CommandGate(GetGuildConfig(db, g), channel, channels) == Open && category != ByStreak && |GuildRows(db, g)| <= BOARD_LIMIT ==>
      && (r.TopEmpty? <==> PresentMembers(db, g, present) == {})
      && (r.TopRows? ==> TopOfMembers(db, g, present, r.rows))
    ensures CommandGate(GetGuildConfig(db, g), channel, channels) == Open && category == ByStreak && |ActiveStreaks(db, g)| <= STREAK_LIMIT ==>
      && (r.TopEmpty? <==> StreakCandidates(db, g, present) == {})
      && (r.TopStreaks? ==> TopOfStreaks(db, g, present, r.streaks))
  {
    var gate := CommandGate(GetGuildConfig(db, g), channel, channels);
    if gate != Open {
      return TopRefused(gate);
    }
    if category == ByStreak {
      r := TopStreakBoard(db, g, present);
    } else {
      r := TopMemberBoard(db, g, present);
    }
  }

  /**
   `rows` are the leading present members: as many as ten allows, and no
   present member left out has more XP or a higher level than one shown.
   */
  predicate TopOfMembers(db: Db, g: GuildId, present: set<UserId>, rows: seq<LeaderRow>)
  {
    && |rows| == (if |PresentMembers(db, g, present)| < TOP_SHOWN then |PresentMembers(db, g, present)| else TOP_SHOWN)
    && forall x, i :: x in PresentRows(db, g, present) && x !in rows && 0 <= i < |rows| ==>
         x.xp <= rows[i].xp && x.level <= rows[i].level
  }

  /**
   `streaks` are the leading candidates: as many as ten allows, and no
   candidate left out has a longer streak than one shown.
   */
  predicate TopOfStreaks(db: Db, g: GuildId, present: set<UserId>, streaks: seq<StreakEntry>)
  {
    && |streaks| == (if |StreakCandidates(db, g, present)| < TOP_SHOWN then |StreakCandidates(db, g, present)| else TOP_SHOWN)
    && forall e, i :: e in StreakCandidates(db, g, present) && e !in streaks && 0 <= i < |streaks| ==> e.count <= streaks[i].count
  }

  /** `/top xp` and `/top level` past the gate. */
  method TopMemberBoard(db: Db, g: GuildId, present: set<UserId>) returns (r: TopView)
    requires LevelConsistent(db)
    ensures r.TopEmpty? || r.TopRows?
    ensures r.TopRows? ==>
      && 1 <= |r.rows| <= TOP_SHOWN
      && SortedDesc(r.rows, RowXp) && SortedDesc(r.rows, RowLevel)
      && forall i :: 0 <= i < |r.rows| ==> r.rows[i].user in present && (g, r.rows[i].user) in db.userXp && r.rows[i] == RowFor(db, g, r.rows[i].user)
    ensures |GuildRows(db, g)| <= BOARD_LIMIT ==>
      && (r.TopEmpty? <==> PresentMembers(db, g, present) == {})
      && (r.TopRows? ==> TopOfMembers(db, g, present, r.rows))
  {
    var users := PresentBoard(db, g, present);
    if |users| == 0 {
      if |GuildRows(db, g)| <= BOARD_LIMIT {
        NoneListed(db, g, present, users);
      }
      return TopEmpty;
    }
    var top := Take(users, TOP_SHOWN);
    assert top == users[..|top|];
    forall i | 0 <= i < |top|
      ensures top[i] in PresentRows(db, g, present) && top[i].level == LevelOf(top[i].xp)
    {
      assert top[i] == users[i];
    }
    XpOrderIsLevelOrder(top);
    assert users[0] in PresentRows(db, g, present);
    if |GuildRows(db, g)| <= BOARD_LIMIT {
      ListsAll(users, PresentRows(db, g, present));
      PrefixIsTop(users, RowXp, |top|);
      forall x, i | x in PresentRows(db, g, present) && x !in top && 0 <= i < |top|
        ensures x.xp <= top[i].xp && x.level <= top[i].level
      {
        assert RowXp(x) <= RowXp(top[i]);
        DivMonotone(x.xp, top[i].xp);
      }
    }
    return TopRows(top);
  }

  /** `/top streak` past the gate. */
  method TopStreakBoard(db: Db, g: GuildId, present: set<UserId>) returns (r: TopView)
    ensures r.TopEmpty? || r.TopStreaks?
    ensures r.TopStreaks? ==>
      && 1 <= |r.streaks| <= TOP_SHOWN
      && SortedDesc(r.streaks, EntryCount)
      && forall i :: 0 <= i < |r.streaks| ==>
           && r.streaks[i].user in present
           && !IsSubstring("Custom:", r.streaks[i].activity)
           && r.streaks[i].count > 0
           && (g, r.streaks[i].user) in db.streaks
           && db.streaks[(g, r.streaks[i].user)].count == r.streaks[i].count
    ensures |ActiveStreaks(db, g)| <= STREAK_LIMIT ==>
      && (r.TopEmpty? <==> StreakCandidates(db, g, present) == {})
      && (r.TopStreaks? ==> TopOfStreaks(db, g, present, r.streaks))
  {
    var rows := GetTopStreaks(db, g, STREAK_LIMIT);
    assert SortedDesc(rows, EntryCount);
    assert Distinct(rows);
    var shown := ShownStreaks(rows, present);
    ShownAreCandidates(db, g, present, rows);
    if |shown| == 0 {
      return TopEmpty;
    }
    var top := Take(shown, TOP_SHOWN);
    assert top == shown[..|top|];
    forall i | 0 <= i < |top|
      ensures top[i] in rows
    {
      assert top[i] == shown[i];
    }
    if |ActiveStreaks(db, g)| <= STREAK_LIMIT {
      ListsAll(shown, StreakCandidates(db, g, present));
      PrefixIsTop(shown, EntryCount, |top|);
    }
    return TopStreaks(top);
  }

  /** The shown streaks are candidates, and every candidate is shown when no active streak was cut off. */
  lemma ShownAreCandidates(db: Db, g: GuildId, present: set<UserId>, rows: seq<StreakEntry>)
    requires forall i :: 0 <= i < |rows| ==>
      && rows[i].count > 0
      && (g, rows[i].user) in db.streaks
      && db.streaks[(g, rows[i].user)].count == rows[i].count
      && db.streaks[(g, rows[i].user)].activity == rows[i].activity
    requires |ActiveStreaks(db, g)| <= STREAK_LIMIT ==> forall y :: y in ActiveStreaks(db, g) ==> y in rows
    ensures forall e :: e in ShownStreaks(rows, present) ==> e in StreakCandidates(db, g, present)
    ensures |ActiveStreaks(db, g)| <= STREAK_LIMIT ==>
      forall e :: e in StreakCandidates(db, g, present) ==> e in ShownStreaks(rows, present)
  {
    forall e | e in ShownStreaks(rows, present)
      ensures e in StreakCandidates(db, g, present)
    {
      var i :| 0 <= i < |rows| && rows[i] == e;
      var k := (g, e.user);
      assert e == StreakEntry(k.1, db.streaks[k].activity, db.streaks[k].count);
    }
  }
}

=== FILE: classifier.dfy ===
/**
 The activity classifier of the presence handler
 (backend/cogs/activity_xp.py, `on_presence_update`): one left-to-right pass
 over the member's activities that keeps the one with the smallest priority
 number, skipping custom statuses, and yields the streak label of that
 activity and the key of the XP range to draw from.
 */
module Classifier {
  import opened Common

  /** `discord.ActivityType` values the handler distinguishes; every other value is `OtherType`. */
  datatype ActivityType = Playing | Watching | Listening | Competing | OtherType

  /** The activity classes the handler tests for, in the order it tests them. */
  datatype Activity =
    | Spotify(title: string, artist: string)
    | Streaming(name: string)
    | CustomStatus(name: string)
    /** `discord.Activity` or `discord.Game`; `kind` is `None` when the object has no `type`. */
    | Generic(kind: Option<ActivityType>, name: string)
    /** An activity of a class none of the branches recognises. */
    | Unrecognised

  /** The keys of `ACTIVITY_XP_RANGES`. */
  datatype RangeKey = ListeningKey | PlayingKey | StreamingKey | WatchingKey | CompetingKey | UnknownKey

  /** `ACTIVITY_XP_RANGES`: inclusive bounds of the hourly base XP per kind. */
  function XpRange(k: RangeKey): (r: (int, int))
    ensures 3 <= r.0 <= r.1 <= 20
  {
    match k
    case ListeningKey => (3, 8)
    case PlayingKey => (8, 15)
    case StreamingKey => (12, 20)
    case WatchingKey => (5, 10)
    case CompetingKey => (10, 18)
    case UnknownKey => (3, 7)
  }

  /** The priority the handler starts from; no activity can lose to it. */
  const NO_PRIORITY: int := 999

  /** `str.title()` of a range key used in a generic activity's label. */
  function Title(k: RangeKey): string
  {
    match k
    case ListeningKey => "Listening"
    case PlayingKey => "Playing"
    case StreamingKey => "Streaming"
    case WatchingKey => "Watching"
    case CompetingKey => "Competing"
    case UnknownKey => "Unknown"
  }

  /** Priority and range key of a `discord.Activity`/`discord.Game` by its type. */
  function GenericKind(t: Option<ActivityType>): (int, RangeKey)
  {
    match t
    case None => (3, PlayingKey)
    case Some(Playing) => (3, PlayingKey)
    case Some(Watching) => (5, WatchingKey)
    case Some(Listening) => (2, ListeningKey)
    case Some(Competing) => (4, CompetingKey)
    case Some(OtherType) => (7, UnknownKey)
  }

  /** Activities the handler can select: everything but custom statuses and unrecognised classes. */
  predicate Eligible(a: Activity)
  {
    a.Spotify? || a.Streaming? || a.Generic?
  }

  /** Streaming 1, listening 2, playing 3, competing 4, watching 5, other 7; ineligible ones never win. */
  function Priority(a: Activity): (p: int)
    ensures Eligible(a) <==> p < NO_PRIORITY
  {
    match a
    case Spotify(_, _) => 2
    case Streaming(_) => 1
    case Generic(t, _) => GenericKind(t).0
    case _ => NO_PRIORITY
  }

  function KeyOf(a: Activity): RangeKey
    requires Eligible(a)
  {
    match a
    case Spotify(_, _) => ListeningKey
    case Streaming(_) => StreamingKey
    case Generic(t, _) => GenericKind(t).1
  }

  /** The streak label: one generic "Spotify" for every song, otherwise kind and name. */
  function LabelOf(a: Activity): string
    requires Eligible(a)
  {
    match a
    case Spotify(_, _) => "Spotify"
    case Streaming(n) => "Streaming: " + n
    case Generic(t, n) => Title(GenericKind(t).1) + ": " + n
  }

  /**
   The handler's loop variables: the best priority so far, the selected
   activity (as its index), the label of the selection and the range key.
   */
  datatype Scan = Scan(priority: int, selected: Option<nat>, name: Option<string>, key: Option<RangeKey>)

  const Start: Scan := Scan(NO_PRIORITY, None, None, None)

  /**
   One iteration of the loop at index `i`. Spotify and streaming activities
   set the range key only when they win; a generic activity sets it before
   the priority test, so a losing generic activity still overwrites it.
   */
  function Visit(s: Scan, a: Activity, i: nat): Scan
  {
    match a
    case Spotify(_, _) =>
      if 2 < s.priority then Scan(2, Some(i), Some("Spotify"), Some(ListeningKey)) else s
    case Streaming(n) =>
      if 1 < s.priority then Scan(1, Some(i), Some("Streaming: " + n), Some(StreamingKey)) else s
    case CustomStatus(_) => s
    case Generic(t, n) =>
      var (p, k) := GenericKind(t);
      if p < s.priority then Scan(p, Some(i), Some(Title(k) + ": " + n), Some(k))
      else s.(key := Some(k))
    case Unrecognised => s
  }

  /** The loop state after the first `n` activities. */
  function ScanPrefix(acts: seq<Activity>, n: nat): Scan
    requires n <= |acts|
  {
    if n == 0 then Start else Visit(ScanPrefix(acts, n - 1), acts[n - 1], n - 1)
  }

  datatype Classification = NoActivity | Detected(streakLabel: string, key: RangeKey)

  /** What the handler acts on: nothing, or a label and the key of its XP range. */
  function Classify(acts: seq<Activity>): Classification
  {
    var s := ScanPrefix(acts, |acts|);
    if s.name.None? || s.key.None? then NoActivity else Detected(s.name.value, s.key.value)
  }

  // ------------------------------------------------------------ reference

  /**
   `w` is the activity a priority order with first-seen tie-break picks
   among the first `n`: eligible, no eligible one has a smaller number, and
   every eligible one before it has a larger number.
   */
  ghost predicate WinnerIn(acts: seq<Activity>, n: nat, w: nat)
    requires n <= |acts|
  {
    && w < n
    && Eligible(acts[w])
    && (forall j :: 0 <= j < n && Eligible(acts[j]) ==> Priority(acts[w]) <= Priority(acts[j]))
    && (forall j :: 0 <= j < w && Eligible(acts[j]) ==> Priority(acts[w]) < Priority(acts[j]))
  }

  /** The last index below `n` that set the range key once `w` had won: the last later generic activity, or `w` itself. */
  function LastKeySetter(acts: seq<Activity>, w: nat, n: nat): (j: nat)
    requires w < n <= |acts|
    ensures w <= j < n
    ensures j == w || acts[j].Generic?
    ensures forall m :: j < m < n ==> !acts[m].Generic?
  {
    if n == w + 1 then w
    else if acts[n - 1].Generic? then n - 1
    else LastKeySetter(acts, w, n - 1)
  }

  /** What the loop state after the first `n` activities says about them. */
  ghost predicate ScanInv(acts: seq<Activity>, n: nat, s: Scan)
    requires n <= |acts|
  {
    && (s.selected.None? <==> forall i :: 0 <= i < n ==> !Eligible(acts[i]))
    && (s.selected.None? ==> s.priority == NO_PRIORITY && s.name.None? && s.key.None?)
    && (s.selected.Some? ==>
          && WinnerIn(acts, n, s.selected.value)
          && s.priority == Priority(acts[s.selected.value])
          && s.name == Some(LabelOf(acts[s.selected.value]))
          && s.key == Some(KeyOf(acts[LastKeySetter(acts, s.selected.value, n)])))
  }

  /** One iteration keeps the loop state's meaning. */
  lemma VisitKeepsInv(acts: seq<Activity>, n: nat)
    requires 0 < n <= |acts|
    requires ScanInv(acts, n - 1, ScanPrefix(acts, n - 1))
    ensures ScanInv(acts, n, ScanPrefix(acts, n))
  {
    var s := ScanPrefix(acts, n - 1);
    var a := acts[n - 1];
    if !Eligible(a) {
      VisitIneligible(acts, n);
    } else if s.selected.None? || Priority(a) < s.priority {
      VisitTakesLead(acts, n);
    } else {
      VisitLoses(acts, n);
    }
  }

  /** A custom status or unrecognised activity leaves the state as it was. */
  lemma VisitIneligible(acts: seq<Activity>, n: nat)
    requires 0 < n <= |acts| && !Eligible(acts[n - 1])
    requires ScanInv(acts, n - 1, ScanPrefix(acts, n - 1))
    ensures ScanInv(acts, n, ScanPrefix(acts, n))
  {
    var s := ScanPrefix(acts, n - 1);
    assert ScanPrefix(acts, n) == s;
    if s.selected.Some? {
      var w := s.selected.value;
      assert LastKeySetter(acts, w, n) == LastKeySetter(acts, w, n - 1);
      assert WinnerIn(acts, n, w);
    }
  }

  /** An activity with a smaller number than everything before it becomes the selection. */
  lemma VisitTakesLead(acts: seq<Activity>, n: nat)
    requires 0 < n <= |acts| && Eligible(acts[n - 1])
    requires ScanInv(acts, n - 1, ScanPrefix(acts, n - 1))
    requires ScanPrefix(acts, n - 1).selected.None? || Priority(acts[n - 1]) < ScanPrefix(acts, n - 1).priority
    ensures ScanInv(acts, n, ScanPrefix(acts, n))
  {
    var a := acts[n - 1];
    assert ScanPrefix(acts, n) == Scan(Priority(a), Some(n - 1), Some(LabelOf(a)), Some(KeyOf(a)));
    assert LastKeySetter(acts, n - 1, n) == n - 1;
    assert WinnerIn(acts, n, n - 1);
  }

  /** An activity that does not beat the selection keeps it, though a generic one still sets the key. */
  lemma VisitLoses(acts: seq<Activity>, n: nat)
    requires 0 < n <= |acts| && Eligible(acts[n - 1])
    requires ScanInv(acts, n - 1, ScanPrefix(acts, n - 1))
    requires ScanPrefix(acts, n - 1).selected.Some? && Priority(acts[n - 1]) >= ScanPrefix(acts, n - 1).priority
    ensures ScanInv(acts, n, ScanPrefix(acts, n))
  {
    var s := ScanPrefix(acts, n - 1);
    var a := acts[n - 1];
    var w := s.selected.value;
    assert ScanPrefix(acts, n) == s.(key := if a.Generic? then Some(KeyOf(a)) else s.key);
    assert WinnerIn(acts, n, w);
    if a.Generic? {
      assert LastKeySetter(acts, w, n) == n - 1;
    } else {
      assert LastKeySetter(acts, w, n) == LastKeySetter(acts, w, n - 1);
    }
  }

  lemma {:induction false} ScanInvariant(acts: seq<Activity>, n: nat)
    requires n <= |acts|
    ensures var s := ScanPrefix(acts, n);
      && (s.selected.None? <==> forall i :: 0 <= i < n ==> !Eligible(acts[i]))
      && (s.selected.None? ==> s.priority == NO_PRIORITY && s.name.None? && s.key.None?)
      && (s.selected.Some? ==>
            && WinnerIn(acts, n, s.selected.value)
            && s.priority == Priority(acts[s.selected.value])
            && s.name == Some(LabelOf(acts[s.selected.value]))
            && s.key == Some(KeyOf(acts[LastKeySetter(acts, s.selected.value, n)])))
  {
    if n > 0 {
      ScanInvariant(acts, n - 1);
      VisitKeepsInv(acts, n);
    }
  }

  /**
   The classifier's contract: it finds nothing exactly when every activity
   is a custom status or unrecognised; otherwise its label is that of the
   winner by priority (first seen on a tie), which is never a custom status,
   and its range key is that of the last generic activity after the winner,
   or the winner's own when there is none.
   */
  lemma ClassifySpec(acts: seq<Activity>)
    ensures Classify(acts).NoActivity? <==> forall i :: 0 <= i < |acts| ==> !Eligible(acts[i])
    ensures Classify(acts).Detected? ==>
      exists w :: 0 <= w < |acts| && WinnerIn(acts, |acts|, w)
        && !acts[w].CustomStatus?
        && Classify(acts).streakLabel == LabelOf(acts[w])
        && Classify(acts).key == KeyOf(acts[LastKeySetter(acts, w, |acts|)])
  {
    ScanInvariant(acts, |acts|);
  }

  /** When no generic activity follows the winner, the range key is the winner's own. */
  lemma KeyIsWinnersWithoutLaterGeneric(acts: seq<Activity>, w: nat)
    requires w < |acts| && WinnerIn(acts, |acts|, w)
    requires forall m :: w < m < |acts| ==> !acts[m].Generic?
    ensures Classify(acts) == Detected(LabelOf(acts[w]), KeyOf(acts[w]))
  {
    ScanInvariant(acts, |acts|);
    var s := ScanPrefix(acts, |acts|);
    var v := s.selected.value;
    var pv, pw := Priority(acts[v]), Priority(acts[w]);
    assert pv == pw;
  }

  /** Listening beats playing whatever the order, and a custom status alone is no activity. */
  lemma PriorityExamples(song: string, artist: string, game: string, status: string)
    ensures Classify([Generic(Some(Playing), game), Spotify(song, artist)]) == Detected("Spotify", ListeningKey)
    ensures Classify([CustomStatus(status)]) == NoActivity
  {
    var acts := [Generic(Some(Playing), game), Spotify(song, artist)];
    assert Visit(Start, acts[0], 0) == Scan(3, Some(0), Some(Title(PlayingKey) + ": " + game), Some(PlayingKey));
    assert ScanPrefix(acts, 1) == Scan(3, Some(0), Some(Title(PlayingKey) + ": " + game), Some(PlayingKey));
    assert ScanPrefix(acts, 2) == Scan(2, Some(1), Some("Spotify"), Some(ListeningKey));
    assert ScanPrefix([CustomStatus(status)], 1) == Start;
  }

  /**
   A game listed after a song: the label stays "Spotify" but the range key
   becomes the game's, so the award is drawn from the playing range.
   */
  lemma RangeFromLosingActivity(song: string, artist: string, game: string)
    ensures Classify([Spotify(song, artist), Generic(Some(Playing), game)]) == Detected("Spotify", PlayingKey)
  {
    var acts := [Spotify(song, artist), Generic(Some(Playing), game)];
    assert ScanPrefix(acts, 1) == Scan(2, Some(0), Some("Spotify"), Some(ListeningKey));
    assert ScanPrefix(acts, 2) == Scan(2, Some(0), Some("Spotify"), Some(PlayingKey));
  }
}

=== FILE: common.dfy ===
/**
 Shared vocabulary of the bot model: optional values, the identifier and
 clock types, the small string predicates used by the security filter and
 the streak board, and extrema of finite integer sets (the source finds
 them by sorting the keys of a dictionary).
 */
module Common {

  datatype Option<+T> = None | Some(value: T)

  /** Discord snowflake identifiers. */
  type GuildId = int
  type UserId = int
  type RoleId = int
  type ChannelId = int

  /** A (guild, user) pair: the key of the per-user tables. */
  type Key = (GuildId, UserId)

  /** Wall-clock instants in microseconds, the resolution of a Python datetime. */
  type Time = int

  const SECOND: int := 1_000_000
  const MINUTE: int := 60 * SECOND
  const HOUR: int := 60 * MINUTE
  const DAY: int := 24 * HOUR

  /** Python's `if x_id:` on an optional id: present and not zero. */
  predicate IsSet(o: Option<int>)
  {
    o.Some? && o.value != 0
  }

  /** `needle in haystack` on Python strings. */
  predicate IsSubstring(needle: string, haystack: string)
  {
    exists i | 0 <= i <= |haystack| - |needle| :: OccursAt(needle, haystack, i)
  }

  /** `needle` occurs in `haystack` starting at index `i`. */
  predicate OccursAt(needle: string, haystack: string, i: int)
  {
    0 <= i <= |haystack| - |needle| && haystack[i..i + |needle|] == needle
  }

  function LowerChar(c: char): char
  {
    if 'A' <= c <= 'Z' then (c as int + 32) as char else c
  }

  /** `str.lower()` on the ASCII range; other characters are kept. */
  function Lower(s: string): (r: string)
    ensures |r| == |s|
    ensures forall i :: 0 <= i < |s| ==> r[i] == LowerChar(s[i])
  {
    if |s| == 0 then [] else [LowerChar(s[0])] + Lower(s[1..])
  }

  predicate IsLower(s: string)
  {
    forall i :: 0 <= i < |s| ==> !('A' <= s[i] <= 'Z')
  }

  lemma LowerIsLower(s: string)
    ensures IsLower(Lower(s))
    ensures IsLower(s) ==> Lower(s) == s
  {
  }

  /** Some element of a non-empty set. */
  ghost function PickOf(s: set<int>): (x: int)
    requires s != {}
    ensures x in s
  {
    if forall y :: y !in s then
      assert false; 0
    else
      var x :| x in s; x
  }

  lemma {:induction false} MaxExists(s: set<int>)
    requires s != {}
    ensures exists m :: m in s && forall y :: y in s ==> y <= m
  {
    var x := PickOf(s);
    var rest := s - {x};
    if rest == {} {
      assert forall y :: y in s ==> y == x || y in rest;
    } else {
      MaxExists(rest);
      var m :| m in rest && forall y :: y in rest ==> y <= m;
      var best := if x > m then x else m;
      forall y | y in s
        ensures y <= best
      {
        if y != x {
          assert y in rest;
        }
      }
      assert best in s;
    }
  }

  lemma {:induction false} MinExists(s: set<int>)
    requires s != {}
    ensures exists m :: m in s && forall y :: y in s ==> m <= y
  {
    var x := PickOf(s);
    var rest := s - {x};
    if rest == {} {
      assert forall y :: y in s ==> y == x || y in rest;
    } else {
      MinExists(rest);
      var m :| m in rest && forall y :: y in rest ==> m <= y;
      var least := if x < m then x else m;
      forall y | y in s
        ensures least <= y
      {
        if y != x {
          assert y in rest;
        }
      }
      assert least in s;
    }
  }

  /** The greatest element of a non-empty finite set. */
  function MaxOf(s: set<int>): (m: int)
    requires s != {}
    ensures m in s
    ensures forall y :: y in s ==> y <= m
  {
    MaxExists(s);
    var m :| m in s && forall y :: y in s ==> y <= m;
    m
  }

  /** The least element of a non-empty finite set. */
  function MinOf(s: set<int>): (m: int)
    requires s != {}
    ensures m in s
    ensures forall y :: y in s ==> m <= y
  {
    MinExists(s);
    var m :| m in s && forall y :: y in s ==> m <= y;
    m
  }

  /** The image of `xs` under `f`. */
  function Image<A, B>(xs: set<A>, f: A -> B): set<B>
  {
    set a | a in xs :: f(a)
  }

  /** An injective image of a finite set is as large as the set. */
  lemma {:induction false} InjectiveImageCard<A, B>(xs: set<A>, f: A -> B)
    requires forall a, b :: a in xs && b in xs && f(a) == f(b) ==> a == b
    ensures |Image(xs, f)| == |xs|
    decreases |xs|
  {
    if xs != {} {
      var a :| a in xs;
      var rest := xs - {a};
      InjectiveImageCard(rest, f);
      assert Image(xs, f) == Image(rest, f) + {f(a)};
    }
  }

  lemma SubsetCard<T>(a: set<T>, b: set<T>)
    requires a <= b
    ensures |a| <= |b|
  {
    assert b == a + (b - a);
    assert a * (b - a) == {};
  }

  /** Two maps with the same keys and the same value at each key are equal. */
  lemma SameEntries<K, V>(a: map<K, V>, b: map<K, V>)
    requires forall k :: k in a <==> k in b
    requires forall k :: k in a ==> a[k] == b[k]
    ensures a == b
  {
    assert a.Keys == b.Keys;
  }
}

=== FILE: engine.dfy ===
/**
 The presence handler of the activity-XP cog
 (backend/cogs/activity_xp.py, `on_presence_update`) as a step function:
 given the in-memory "current activity" markers, the store, one presence
 event, the clock and the random base XP, it returns the new markers and
 store and what happened. The random draw and the clock are parameters.
 */
module Engine {
  import opened Common
  import opened Store
  import opened Classifier

  /** One presence event: who, whether a bot, the member's roles and activities. */
  datatype Presence = Presence(
    guild: GuildId,
    user: UserId,
    isBot: bool,
    roles: set<RoleId>,
    activities: seq<Activity>)

  /** What `guild.get_channel` and `guild.get_role` can find in the event's guild. */
  datatype GuildView = GuildView(channels: set<ChannelId>, roles: set<RoleId>)

  /** The cog's `last_activity[...]["current"]` markers (absent = None) and the store. */
  datatype Tracker = Tracker(current: map<Key, string>, db: Db)

  datatype Outcome =
    | Ignored
    | Stopped
    | FirstSighting(activity: string)
    | OnCooldown
    | Awarded(xp: int, streakHours: int, leveledUp: bool, newLevel: int)

  datatype StepResult = StepResult(tracker: Tracker, outcome: Outcome)

  /**
   The guards in front of the classifier: not a bot, XP enabled, a log
   channel configured and present, and the target role (when configured and
   present in the guild) held by the member.
   */
  predicate Tracked(db: Db, p: Presence, view: GuildView)
  {
    var cfg := GetGuildConfig(db, p.guild);
    && !p.isBot
    && cfg.enabled
    && IsSet(cfg.logChannel)
    && cfg.logChannel.value in view.channels
    && !(IsSet(cfg.targetRole) && cfg.targetRole.value in view.roles && cfg.targetRole.value !in p.roles)
  }

  /** `random.randint(lo, hi)` for the range the classifier picked: inclusive on both ends. */
  predicate BaseFits(acts: seq<Activity>, base: int)
  {
    match Classify(acts)
    case NoActivity => true
    case Detected(_, k) => XpRange(k).0 <= base <= XpRange(k).1
  }

  /** The one-hour cooldown: no award yet, or at least an hour since the last one. */
  predicate CanEarn(row: XpRow, now: Time)
  {
    row.lastXpTime.None? || now - row.lastXpTime.value >= HOUR
  }

  /** `on_presence_update` for one event. */
  function Step(t: Tracker, p: Presence, view: GuildView, now: Time, base: int): (r: StepResult)
    requires BaseFits(p.activities, base)
    ensures r.outcome.Awarded? ==>
      && r.outcome.streakHours == GetStreak(t.db, p.guild, p.user).count + 1
      && r.outcome.xp == base * r.outcome.streakHours
    ensures !r.outcome.Awarded? ==> r.tracker.db.userXp == t.db.userXp
    ensures r.tracker.db.customRoles == t.db.customRoles && r.tracker.db.configs == t.db.configs
  {
    if !Tracked(t.db, p, view) then StepResult(t, Ignored)
    else
      var k := (p.guild, p.user);
      match Classify(p.activities)
      case NoActivity => StepResult(Tracker(t.current - {k}, t.db), Stopped)
      case Detected(act, _) =>
        var isNew := k !in t.current || t.current[k] != act;
        var current := t.current[k := act];
        if isNew then
          StepResult(Tracker(current, UpdateStreak(t.db, p.guild, p.user, act, 1, now)), FirstSighting(act))
        else if !CanEarn(GetUserXp(t.db, p.guild, p.user), now) then
          StepResult(Tracker(current, t.db), OnCooldown)
        else
          var hours := GetStreak(t.db, p.guild, p.user).count + 1;
          var award := base * hours;
          var added := AddXp(UpdateStreak(t.db, p.guild, p.user, act, hours, now), p.guild, p.user, award, now);
          StepResult(Tracker(current, added.db), Awarded(award, hours, added.leveledUp, added.newLevel))
  }

  // ------------------------------------------------------------- branches

  /** Events the guards reject change nothing. */
  lemma StepIgnored(t: Tracker, p: Presence, view: GuildView, now: Time, base: int)
    requires BaseFits(p.activities, base)
    requires !Tracked(t.db, p, view)
    ensures Step(t, p, view, now, base) == StepResult(t, Ignored)
  {
  }

  /** With no eligible activity the marker is cleared; XP and the stored streak are untouched. */
  lemma StepNoActivity(t: Tracker, p: Presence, view: GuildView, now: Time, base: int)
    requires Tracked(t.db, p, view)
    requires forall i :: 0 <= i < |p.activities| ==> !Eligible(p.activities[i])
    ensures BaseFits(p.activities, base)
    ensures var r := Step(t, p, view, now, base);
      && r.outcome == Stopped
      && (p.guild, p.user) !in r.tracker.current
      && r.tracker.db == t.db
  {
    ClassifySpec(p.activities);
  }

  /**
   A label other than the marker starts a streak of 1 for it without an
   award and without touching the XP row or its award time.
   */
  lemma StepNewActivity(t: Tracker, p: Presence, view: GuildView, now: Time, base: int, act: string, key: RangeKey)
    requires Classify(p.activities) == Detected(act, key)
    requires XpRange(key).0 <= base <= XpRange(key).1
    requires Tracked(t.db, p, view)
    requires (p.guild, p.user) !in t.current || t.current[(p.guild, p.user)] != act
    ensures var r := Step(t, p, view, now, base);
      && r.outcome == FirstSighting(act)
      && r.tracker.current == t.current[(p.guild, p.user) := act]
      && GetStreak(r.tracker.db, p.guild, p.user) == StreakInfo(Some(act), 1, Some(now))
      && r.tracker.db.userXp == t.db.userXp
  {
  }

  /** The same label within the hour writes nothing. */
  lemma StepCooldown(t: Tracker, p: Presence, view: GuildView, now: Time, base: int, act: string, key: RangeKey)
    requires Classify(p.activities) == Detected(act, key)
    requires XpRange(key).0 <= base <= XpRange(key).1
    requires Tracked(t.db, p, view)
    requires (p.guild, p.user) in t.current && t.current[(p.guild, p.user)] == act
    requires GetUserXp(t.db, p.guild, p.user).lastXpTime.Some?
    requires now - GetUserXp(t.db, p.guild, p.user).lastXpTime.value < HOUR
    ensures Step(t, p, view, now, base) == StepResult(t, OnCooldown)
  {
  }

  /**
   The same label after the cooldown: the streak becomes the stored count
   plus one, the award is the base times that streak (so it lies between
   the range bounds times the streak), XP grows by the award, the level is
   recomputed and the award time becomes now.
   */
  lemma StepAward(t: Tracker, p: Presence, view: GuildView, now: Time, base: int, act: string, key: RangeKey)
    requires Classify(p.activities) == Detected(act, key)
    requires XpRange(key).0 <= base <= XpRange(key).1
    requires Tracked(t.db, p, view)
    requires (p.guild, p.user) in t.current && t.current[(p.guild, p.user)] == act
    requires CanEarn(GetUserXp(t.db, p.guild, p.user), now)
    ensures var r := Step(t, p, view, now, base);
      var n := GetStreak(t.db, p.guild, p.user).count + 1;
      var before := GetUserXp(t.db, p.guild, p.user);
      var after := GetUserXp(r.tracker.db, p.guild, p.user);
      && r.outcome.Awarded?
      && r.outcome.streakHours == n
      && r.outcome.xp == base * n
      && (n >= 0 ==> XpRange(key).0 * n <= r.outcome.xp <= XpRange(key).1 * n)
      && GetStreak(r.tracker.db, p.guild, p.user) == StreakInfo(Some(act), n, Some(now))
      && after.xp == before.xp + base * n
      && after.level == r.outcome.newLevel == LevelOf(after.xp)
      && after.lastXpTime == Some(now)
      && (r.outcome.leveledUp <==> after.level > before.level)
      && r.tracker.current == t.current
  {
    var n := GetStreak(t.db, p.guild, p.user).count + 1;
    if n >= 0 {
      MulBounds(XpRange(key).0, base, XpRange(key).1, n);
    }
  }

  lemma MulBounds(lo: int, x: int, hi: int, n: int)
    requires lo <= x <= hi && n >= 0
    ensures lo * n <= x * n <= hi * n
  {
  }

  /** Only the event's own (guild, user) key is touched. */
  lemma StepFrame(t: Tracker, p: Presence, view: GuildView, now: Time, base: int, k: Key)
    requires BaseFits(p.activities, base)
    requires k != (p.guild, p.user)
    ensures var r := Step(t, p, view, now, base);
      && (k in r.tracker.current <==> k in t.current)
      && (k in t.current ==> r.tracker.current[k] == t.current[k])
      && (k in r.tracker.db.userXp <==> k in t.db.userXp)
      && (k in t.db.userXp ==> r.tracker.db.userXp[k] == t.db.userXp[k])
      && (k in r.tracker.db.streaks <==> k in t.db.streaks)
      && (k in t.db.streaks ==> r.tracker.db.streaks[k] == t.db.streaks[k])
      && r.tracker.db.configs == t.db.configs
      && r.tracker.db.customRoles == t.db.customRoles
  {
  }

  // ------------------------------------------------------------ invariant

  /**
   Stored levels match stored XP, and every current marker has a stored
   streak row for the same label with a count of at least 1.
   */
  ghost predicate TrackerInv(t: Tracker)
  {
    && LevelConsistent(t.db)
    && forall k :: k in t.current ==>
         k in t.db.streaks && t.db.streaks[k].activity == t.current[k] && t.db.streaks[k].count >= 1
  }

  lemma StepPreservesInv(t: Tracker, p: Presence, view: GuildView, now: Time, base: int)
    requires BaseFits(p.activities, base)
    requires TrackerInv(t)
    ensures TrackerInv(Step(t, p, view, now, base).tracker)
  {
    var r := Step(t, p, view, now, base);
    if Tracked(t.db, p, view) && Classify(p.activities).Detected? {
      var k := (p.guild, p.user);
      var act := Classify(p.activities).streakLabel;
      if k in t.current && t.current[k] == act && CanEarn(GetUserXp(t.db, p.guild, p.user), now) {
        var n := GetStreak(t.db, p.guild, p.user).count + 1;
        var db1 := UpdateStreak(t.db, p.guild, p.user, act, n, now);
        AddXpKeepsLevelConsistent(db1, p.guild, p.user, base * n, now);
      }
    }
  }

  /**
   Under the invariant an award always comes with a streak of at least 2,
   so it is at least twice the base: when a member's presence events are
   handled one at a time, the first-hour message of the source (streak 1
   with an award) cannot be reached. Two overlapping handlers can still
   reach it, because the source writes streak 1 only after awaiting the
   log message.
   */
  lemma AwardStreakAtLeastTwo(t: Tracker, p: Presence, view: GuildView, now: Time, base: int)
    requires BaseFits(p.activities, base)
    requires TrackerInv(t)
    requires Step(t, p, view, now, base).outcome.Awarded?
    ensures Step(t, p, view, now, base).outcome.streakHours >= 2
    ensures base >= 0 ==> Step(t, p, view, now, base).outcome.xp >= 2 * base
  {
    var k := (p.guild, p.user);
    assert k in t.current;
    var n := Step(t, p, view, now, base).outcome.streakHours;
    if base >= 0 {
      MulBounds(2, n, n, base);
    }
  }

  /**
   Alternating between two labels never earns XP: whenever the label differs
   from the marker, the step awards nothing.
   */
  lemma SwitchingNeverAwards(t: Tracker, p: Presence, view: GuildView, now: Time, base: int)
    requires BaseFits(p.activities, base)
    requires Classify(p.activities).Detected?
    requires var k := (p.guild, p.user);
      k !in t.current || t.current[k] != Classify(p.activities).streakLabel
    ensures !Step(t, p, view, now, base).outcome.Awarded?
    ensures Step(t, p, view, now, base).tracker.db.userXp == t.db.userXp
  {
  }

  /**
   A member who has never been awarded XP is awarded on the very next event
   with the same label, at the same instant as the first sighting: the
   cooldown is measured from the last award, and there is none yet.
   */
  lemma FirstAwardNeedsNoWait(t: Tracker, p: Presence, view: GuildView, now: Time, base: int)
    requires BaseFits(p.activities, base)
    requires Tracked(t.db, p, view)
    requires Classify(p.activities).Detected?
    requires (p.guild, p.user) !in t.current
    requires (p.guild, p.user) !in t.db.userXp
    ensures var first := Step(t, p, view, now, base);
      var second := Step(first.tracker, p, view, now, base);
      && first.outcome.FirstSighting?
      && second.outcome.Awarded?
      && second.outcome.streakHours == 2
  {
    var first := Step(t, p, view, now, base);
    assert GetUserXp(first.tracker.db, p.guild, p.user) == XpRow(0, 0, None);
    assert GetStreak(first.tracker.db, p.guild, p.user).count == 1;
    assert Tracked(first.tracker.db, p, view);
  }
}

=== FILE: ranking.dfy ===
/**
 Ordered "top N" queries: the shape of `ORDER BY <column> DESC LIMIT n`
 shared by the XP leaderboard and the streak board. SQLite leaves the order
 of equal keys unspecified, so nothing here fixes a tie-break.
 */
module Ranking {
  import opened Common

  /** Non-increasing by `key`. */
  predicate SortedDesc<T>(s: seq<T>, key: T -> int)
  {
    forall i, j :: 0 <= i < j < |s| ==> key(s[i]) >= key(s[j])
  }

  predicate Distinct<T(==)>(s: seq<T>)
  {
    forall i, j :: 0 <= i < j < |s| ==> s[i] != s[j]
  }

  /** A sequence without repeats has as many distinct elements as entries. */
  lemma {:induction false} DistinctCard<T>(s: seq<T>)
    requires Distinct(s)
    ensures |set x | x in s| == |s|
  {
    if |s| > 0 {
      var init := s[..|s| - 1];
      assert Distinct(init);
      DistinctCard(init);
      assert (set x | x in s) == (set x | x in init) + {s[|s| - 1]};
      assert s[|s| - 1] !in init;
    }
  }

  /** The items whose key exceeds `c`. */
  function KeyAbove<T(==)>(items: set<T>, key: T -> int, c: int): set<T>
  {
    set x | x in items && key(x) > c
  }

  /** The items whose key is at least `c`. */
  function KeyAtLeast<T(==)>(items: set<T>, key: T -> int, c: int): set<T>
  {
    set x | x in items && key(x) >= c
  }

  /**
   In a sorted sequence that lists `items` once each, the entry at index `k`
   comes after every item with a greater key and after only items with at
   least its key: its position `k + 1` is at least one more than the number
   of items above it and at most the number of items at least as high.
   */
  lemma PositionBounds<T>(s: seq<T>, key: T -> int, items: set<T>, k: nat)
    requires SortedDesc(s, key) && Distinct(s)
    requires forall x :: x in s <==> x in items
    requires k < |s|
    ensures 1 + |KeyAbove(items, key, key(s[k]))| <= k + 1 <= |KeyAtLeast(items, key, key(s[k]))|
  {
    var head, upToK := s[..k], s[..k + 1];
    var before := set x | x in head;
    var upTo := set x | x in upToK;
    assert Distinct(head) && Distinct(upToK);
    DistinctCard(head);
    DistinctCard(upToK);
    forall x | x in KeyAbove(items, key, key(s[k]))
      ensures x in before
    {
      var j :| 0 <= j < |s| && s[j] == x;
      assert head[j] == x;
    }
    forall x | x in upTo
      ensures x in KeyAtLeast(items, key, key(s[k]))
    {
      var j :| 0 <= j < k + 1 && upToK[j] == x;
      assert s[j] == x;
    }
    SubsetCard(KeyAbove(items, key, key(s[k])), before);
    SubsetCard(upTo, KeyAtLeast(items, key, key(s[k])));
  }

  /** A sequence without repeats that lists exactly `items` has one entry per item. */
  lemma ListsAll<T>(s: seq<T>, items: set<T>)
    requires Distinct(s)
    requires forall x :: x in s <==> x in items
    ensures |s| == |items|
  {
    DistinctCard(s);
    assert (set x | x in s) == items;
  }

  /** How many rows `LIMIT limit` lets through out of `n`; SQLite reads a negative limit as no limit. */
  function Capped(n: nat, limit: int): (r: nat)
    ensures r <= n
  {
    if limit < 0 || n <= limit then n else limit
  }

  /** Inserts `x` after every element whose key is at least its own. */
  function InsertDesc<T>(s: seq<T>, x: T, key: T -> int): (r: seq<T>)
    requires SortedDesc(s, key)
    ensures |r| == |s| + 1
    ensures x in r
    ensures forall i :: 0 <= i < |s| ==> s[i] in r
    ensures forall i :: 0 <= i < |r| ==> r[i] in s || r[i] == x
    ensures SortedDesc(r, key)
  {
    if |s| == 0 then [x]
    else if key(s[0]) >= key(x) then [s[0]] + InsertDesc(s[1..], x, key)
    else [x] + s
  }

  lemma {:induction false} InsertKeepsDistinct<T>(s: seq<T>, x: T, key: T -> int)
    requires SortedDesc(s, key)
    requires Distinct(s)
    requires x !in s
    ensures Distinct(InsertDesc(s, x, key))
  {
    if |s| > 0 && key(s[0]) >= key(x) {
      assert Distinct(s[1..]);
      assert x !in s[1..];
      InsertKeepsDistinct(s[1..], x, key);
      assert s[0] !in s[1..];
    }
  }

  /** Every element of `items`, once each, in non-increasing key order. */
  method SortDesc<T(==)>(items: set<T>, key: T -> int) returns (all: seq<T>)
    ensures SortedDesc(all, key)
    ensures Distinct(all)
    ensures forall y :: y in all <==> y in items
    ensures |all| == |items|
  {
    all := [];
    var todo := items;
    while todo != {}
      invariant todo <= items
      invariant SortedDesc(all, key)
      invariant Distinct(all)
      invariant forall y :: y in all <==> y in items && y !in todo
      invariant |all| == |items - todo|
      decreases |todo|
    {
      if forall y :: y !in todo {
        assert false;
      }
      var x :| x in todo;
      assert x !in all && x !in items - todo;
      InsertKeepsDistinct(all, x, key);
      all := InsertDesc(all, x, key);
      assert items - (todo - {x}) == (items - todo) + {x};
      assert |(items - todo) + {x}| == |items - todo| + 1;
      todo := todo - {x};
    }
    assert items - todo == items;
  }

  /** A prefix of a sorted sequence without repeats ranks above everything it leaves out. */
  lemma PrefixIsTop<T>(all: seq<T>, key: T -> int, n: nat)
    requires n <= |all|
    requires SortedDesc(all, key)
    requires Distinct(all)
    ensures forall y, i :: y in all && y !in all[..n] && 0 <= i < n ==> key(y) <= key(all[i])
  {
    forall y, i | y in all && y !in all[..n] && 0 <= i < n
      ensures key(y) <= key(all[i])
    {
      var j :| 0 <= j < |all| && all[j] == y;
      if j < n {
        assert false;
      }
    }
  }

  /**
   The first `limit` of `items` in non-increasing key order: sorted, free of
   repeats, drawn from `items`, as many as the limit allows, and no item left
   out has a greater key than any item kept.
   */
  method TopBy<T(==)>(items: set<T>, key: T -> int, limit: int) returns (r: seq<T>)
    ensures SortedDesc(r, key)
    ensures Distinct(r)
    ensures forall y :: y in r ==> y in items
    ensures |r| == Capped(|items|, limit)
    ensures forall y, i :: y in items && y !in r && 0 <= i < |r| ==> key(y) <= key(r[i])
    ensures limit < 0 || |items| <= limit ==> forall y :: y in items ==> y in r
  {
    var all := SortDesc(items, key);
    var n := Capped(|all|, limit);
    PrefixIsTop(all, key, n);
    r := all[..n];
    if limit < 0 || |items| <= limit {
      assert r == all;
    }
  }
}

=== FILE: recovery.dfy ===
/**
 Start-up recovery and the health check (backend/recovery.py): for every
 guild with the XP system enabled, a log channel that no longer exists is
 cleared and reward roles whose role no longer exists are deleted; the
 health check counts the reward roles that do not resolve.
 */
module Recovery {
  import opened Common
  import opened Store

  /** A guild as the bot sees it: its id and the channel and role ids that resolve. */
  datatype Guild = Guild(id: GuildId, channels: set<ChannelId>, roles: set<RoleId>)

  /** The levels of guild `g` whose role does not resolve. */
  function InvalidLevels(db: Db, g: GuildId, roles: set<RoleId>): set<int>
  {
    set l | l in GetCustomRoles(db, g) && GetCustomRoles(db, g)[l] !in roles
  }

  /** Every reward role of guild `g` resolves. */
  predicate AllRolesValid(db: Db, g: GuildId, roles: set<RoleId>)
  {
    forall l :: l in GetCustomRoles(db, g) ==> GetCustomRoles(db, g)[l] in roles
  }

  /**
   The pruning loop of `restore_guild_configs`: `remove_custom_role` for
   each level whose role does not resolve. Exactly the valid entries remain,
   with their roles; no other guild's entries and no other table change.
   */
  method PruneRoles(db: Db, g: GuildId, roles: set<RoleId>) returns (r: Db)
    ensures forall l :: l in GetCustomRoles(r, g) <==> l in GetCustomRoles(db, g) && GetCustomRoles(db, g)[l] in roles
    ensures forall l :: l in GetCustomRoles(r, g) ==> GetCustomRoles(r, g)[l] == GetCustomRoles(db, g)[l]
    ensures forall h :: h != g ==> GetCustomRoles(r, h) == GetCustomRoles(db, h)
    ensures r.userXp == db.userXp && r.streaks == db.streaks && r.configs == db.configs
  {
    var custom := GetCustomRoles(db, g);
    var todo := InvalidLevels(db, g, roles);
    r := db;
    while todo != {}
      invariant todo <= InvalidLevels(db, g, roles)
      invariant forall l :: l in GetCustomRoles(r, g) <==> l in custom && (custom[l] in roles || l in todo)
      invariant forall l :: l in GetCustomRoles(r, g) ==> GetCustomRoles(r, g)[l] == custom[l]
      invariant forall h :: h != g ==> GetCustomRoles(r, h) == GetCustomRoles(db, h)
      invariant r.userXp == db.userXp && r.streaks == db.streaks && r.configs == db.configs
      decreases |todo|
    {
      if forall l :: l !in todo {
        assert false;
      }
      var l :| l in todo;
      forall h | h != g
        ensures GetCustomRoles(RemoveCustomRole(r, g, l), h) == GetCustomRoles(r, h)
      {
        RemoveLeavesOtherGuilds(r, g, l, h);
      }
      r := RemoveCustomRole(r, g, l);
      todo := todo - {l};
    }
  }

  /**
   `restore_guild_configs` for one guild. A disabled guild is skipped and
   not counted. Otherwise a log channel that is set but missing is cleared
   through `update_guild_config`, the reward roles are pruned, and the guild
   counts as restored.
   */
  method RestoreGuild(db: Db, guild: Guild) returns (r: Db, restored: bool)
    ensures restored <==> GetGuildConfig(db, guild.id).enabled
    ensures !restored ==> r == db
    ensures restored ==>
      var before := GetGuildConfig(db, guild.id);
      var dangling := IsSet(before.logChannel) && before.logChannel.value !in guild.channels;
      GetGuildConfig(r, guild.id) == before.(logChannel := if dangling then None else before.logChannel)
    ensures restored ==> AllRolesValid(r, guild.id, guild.roles)
    ensures restored ==> forall l :: l in GetCustomRoles(db, guild.id) && GetCustomRoles(db, guild.id)[l] in guild.roles ==>
      l in GetCustomRoles(r, guild.id) && GetCustomRoles(r, guild.id)[l] == GetCustomRoles(db, guild.id)[l]
    ensures forall h :: h != guild.id ==> GetGuildConfig(r, h) == GetGuildConfig(db, h)
    ensures forall h :: h != guild.id ==> GetCustomRoles(r, h) == GetCustomRoles(db, h)
    ensures r.userXp == db.userXp && r.streaks == db.streaks
  {
    var cfg := GetGuildConfig(db, guild.id);
    if !cfg.enabled {
      return db, false;
    }
    var db1 := db;
    if IsSet(cfg.logChannel) && cfg.logChannel.value !in guild.channels {
      db1 := UpdateGuildConfig(db, guild.id, ConfigPatch(None, Some(None), None, None));
    }
    assert GetCustomRoles(db1, guild.id) == GetCustomRoles(db, guild.id);
    r := PruneRoles(db1, guild.id, guild.roles);
    restored := true;
  }

  predicate DistinctIds(guilds: seq<Guild>)
  {
    forall i, j :: 0 <= i < j < |guilds| ==> guilds[i].id != guilds[j].id
  }

  /** How many of `guilds` have the XP system enabled. */
  function CountEnabled(db: Db, guilds: seq<Guild>): nat
  {
    if |guilds| == 0 then 0
    else (if GetGuildConfig(db, guilds[0].id).enabled then 1 else 0) + CountEnabled(db, guilds[1..])
  }

  lemma CountEnabledSnoc(db: Db, guilds: seq<Guild>, i: nat)
    requires i < |guilds|
    ensures CountEnabled(db, guilds[..i + 1]) == CountEnabled(db, guilds[..i]) + (if GetGuildConfig(db, guilds[i].id).enabled then 1 else 0)
  {
    if i > 0 {
      assert guilds[..i + 1][1..] == guilds[1..][..i];
      assert guilds[..i][1..] == guilds[1..][..i - 1];
      CountEnabledSnoc(db, guilds[1..], i - 1);
    }
  }

  /**
   The whole of `restore_guild_configs`: every guild in turn, counting those
   restored. Enabled flags never change, and, when no guild appears twice,
   every enabled guild ends with only reward roles that resolve and with a
   log channel that is unset or resolves.
   */
  method RestoreAll(db: Db, guilds: seq<Guild>) returns (r: Db, restoredCount: nat)
    ensures restoredCount == CountEnabled(db, guilds)
    ensures forall h :: GetGuildConfig(r, h).enabled == GetGuildConfig(db, h).enabled
    ensures DistinctIds(guilds) ==> forall i :: 0 <= i < |guilds| && GetGuildConfig(db, guilds[i].id).enabled ==>
      && AllRolesValid(r, guilds[i].id, guilds[i].roles)
      && (IsSet(GetGuildConfig(r, guilds[i].id).logChannel) ==> GetGuildConfig(r, guilds[i].id).logChannel.value in guilds[i].channels)
    ensures r.userXp == db.userXp && r.streaks == db.streaks
  {
    r := db;
    restoredCount := 0;
    var i := 0;
    while i < |guilds|
      invariant 0 <= i <= |guilds|
      invariant restoredCount == CountEnabled(db, guilds[..i])
      invariant forall h :: GetGuildConfig(r, h).enabled == GetGuildConfig(db, h).enabled
      invariant DistinctIds(guilds) ==> forall j :: 0 <= j < i && GetGuildConfig(db, guilds[j].id).enabled ==>
        && AllRolesValid(r, guilds[j].id, guilds[j].roles)
        && (IsSet(GetGuildConfig(r, guilds[j].id).logChannel) ==> GetGuildConfig(r, guilds[j].id).logChannel.value in guilds[j].channels)
      invariant r.userXp == db.userXp && r.streaks == db.streaks
    {
      var before := r;
      var restored;
      r, restored := RestoreGuild(r, guilds[i]);
      CountEnabledSnoc(db, guilds, i);
      if restored {
        restoredCount := restoredCount + 1;
      }
      if DistinctIds(guilds) {
        forall j | 0 <= j < i && GetGuildConfig(db, guilds[j].id).enabled
          ensures AllRolesValid(r, guilds[j].id, guilds[j].roles)
          ensures IsSet(GetGuildConfig(r, guilds[j].id).logChannel) ==> GetGuildConfig(r, guilds[j].id).logChannel.value in guilds[j].channels
        {
          var h := guilds[j].id;
          assert h != guilds[i].id;
          assert GetCustomRoles(r, h) == GetCustomRoles(before, h);
        }
      }
      i := i + 1;
    }
    assert guilds[..i] == guilds;
  }

  // ------------------------------------------------------------ health

  /** The reward roles of one guild that do not resolve, when the guild is enabled. */
  function GuildIssues(db: Db, guild: Guild): nat
  {
    if GetGuildConfig(db, guild.id).enabled then |InvalidLevels(db, guild.id, guild.roles)| else 0
  }

  /** `issues_found` of `verify_bot_health`: unresolved reward roles over the enabled guilds. */
  function HealthIssues(db: Db, guilds: seq<Guild>): (r: nat)
    ensures r == 0 <==> forall i :: 0 <= i < |guilds| ==> GuildIssues(db, guilds[i]) == 0
  {
    if |guilds| == 0 then 0
    else
      var rest := HealthIssues(db, guilds[1..]);
      assert forall i :: 1 <= i < |guilds| ==> guilds[1..][i - 1] == guilds[i];
      GuildIssues(db, guilds[0]) + rest
  }

  datatype Health = Health(passed: bool, issues: nat)

  /**
   `verify_bot_health`: a closed connection fails the check before anything
   is counted; otherwise the check passes whatever the issue count, which
   only goes to the log.
   */
  function VerifyBotHealth(db: Db, guilds: seq<Guild>, closed: bool): (r: Health)
    ensures r.passed <==> !closed
    ensures closed ==> r.issues == 0
    ensures !closed ==> (r.issues == 0 <==> forall i :: 0 <= i < |guilds| ==>
      !GetGuildConfig(db, guilds[i].id).enabled || AllRolesValid(db, guilds[i].id, guilds[i].roles))
  {
    if closed then Health(false, 0)
    else
      var n := HealthIssues(db, guilds);
      assert forall i :: 0 <= i < |guilds| ==>
        (GuildIssues(db, guilds[i]) == 0 <==>
          !GetGuildConfig(db, guilds[i].id).enabled || AllRolesValid(db, guilds[i].id, guilds[i].roles)) by {
        forall i | 0 <= i < |guilds|
          ensures GuildIssues(db, guilds[i]) == 0 <==>
            !GetGuildConfig(db, guilds[i].id).enabled || AllRolesValid(db, guilds[i].id, guilds[i].roles)
        {
          var g := guilds[i];
          if GetGuildConfig(db, g.id).enabled && !AllRolesValid(db, g.id, g.roles) {
            var l :| l in GetCustomRoles(db, g.id) && GetCustomRoles(db, g.id)[l] !in g.roles;
            assert l in InvalidLevels(db, g.id, g.roles);
            assert InvalidLevels(db, g.id, g.roles) != {};
          } else if GetGuildConfig(db, g.id).enabled {
            assert forall l :: l !in InvalidLevels(db, g.id, g.roles);
            assert InvalidLevels(db, g.id, g.roles) == {};
          }
        }
      }
      Health(true, n)
  }

  /** Right after a restore of distinct guilds, the health check finds no unresolved reward role. */
  method RestoreThenCheck(db: Db, guilds: seq<Guild>) returns (h: Health)
    requires DistinctIds(guilds)
    ensures h.passed && h.issues == 0
  {
    var r, restored := RestoreAll(db, guilds);
    h := VerifyBotHealth(r, guilds, false);
  }

  // ------------------------------------------------------------ notify

  /** `notify_recovery` sends to an enabled guild whose log channel is set and resolves. */
  predicate Notified(db: Db, guild: Guild)
  {
    var cfg := GetGuildConfig(db, guild.id);
    cfg.enabled && IsSet(cfg.logChannel) && cfg.logChannel.value in guild.channels
  }

  /** The number of log channels `notify_recovery` sends to. */
  function NotifyCount(db: Db, guilds: seq<Guild>): (r: nat)
    ensures r <= CountLogged(db, guilds) <= CountEnabled(db, guilds)
  {
    if |guilds| == 0 then 0
    else (if Notified(db, guilds[0]) then 1 else 0) + NotifyCount(db, guilds[1..])
  }

  /** How many of `guilds` are enabled with a log channel set, resolving or not. */
  function CountLogged(db: Db, guilds: seq<Guild>): (r: nat)
    ensures r <= CountEnabled(db, guilds)
  {
    if |guilds| == 0 then 0
    else
      var cfg := GetGuildConfig(db, guilds[0].id);
      (if cfg.enabled && IsSet(cfg.logChannel) then 1 else 0) + CountLogged(db, guilds[1..])
  }

  /** When every enabled guild's log channel resolves, every such guild is notified. */
  lemma {:induction false} NotifyReachesAllLogged(db: Db, guilds: seq<Guild>)
    requires forall i :: 0 <= i < |guilds| && GetGuildConfig(db, guilds[i].id).enabled && IsSet(GetGuildConfig(db, guilds[i].id).logChannel) ==>
      GetGuildConfig(db, guilds[i].id).logChannel.value in guilds[i].channels
    ensures NotifyCount(db, guilds) == CountLogged(db, guilds)
  {
    if |guilds| > 0 {
      assert forall i :: 1 <= i < |guilds| ==> guilds[1..][i - 1] == guilds[i];
      NotifyReachesAllLogged(db, guilds[1..]);
    }
  }

  /**
   `restore_guild_configs` followed by `notify_recovery`: once the restore of
   distinct guilds has cleared the dangling log channels, every enabled guild
   that still has one is notified.
   */
  method RestoreThenNotify(db: Db, guilds: seq<Guild>) returns (r: Db, restored: nat, notified: nat)
    requires DistinctIds(guilds)
    ensures restored == CountEnabled(db, guilds)
    ensures notified == CountLogged(r, guilds)
  {
    r, restored := RestoreAll(db, guilds);
    notified := NotifyCount(r, guilds);
    NotifyReachesAllLogged(r, guilds);
  }
}

=== FILE: rewards.dfy ===
/**
 Reward roles of the activity-XP cog (backend/cogs/activity_xp.py): which
 role a level earns, the role the next level unlocks, handing out a role on
 level-up, and the two admin commands that add or replace a reward role and
 sync it to the members on the leaderboard. A member is modelled by the set
 of role ids Discord reports for it when it is looked up; the guild's roles
 are the set of ids `guild.get_role` can resolve.
 */
module Rewards {
  import opened Common
  import opened Ranking
  import opened Store
  import opened Engine

  /** A guild's reward thresholds: level -> role id. */
  type RoleMap = map<int, RoleId>

  /** The members `guild.get_member` can find, with the roles each holds. */
  type Members = map<UserId, set<RoleId>>

  // ------------------------------------------------------------ thresholds

  /** Thresholds at or below `level`. */
  function Reached(custom: RoleMap, level: int): set<int>
  {
    set l | l in custom && l <= level
  }

  /** Thresholds above `level`. */
  function Ahead(custom: RoleMap, level: int): set<int>
  {
    set l | l in custom && l > level
  }

  /** The greatest threshold at or below `level`, if any. */
  function QualifyingLevel(custom: RoleMap, level: int): (r: Option<int>)
    ensures r.None? <==> forall l :: l in custom ==> l > level
    ensures r.Some? ==> r.value in custom && r.value <= level
    ensures r.Some? ==> forall l :: l in custom && l <= level ==> l <= r.value
  {
    var s := Reached(custom, level);
    assert forall l :: l in custom && l <= level ==> l in s;
    if s == {} then None
    else
      var m := MaxOf(s);
      assert m in s;
      Some(m)
  }

  /** The least threshold above `level`, if any. */
  function NextRewardLevel(custom: RoleMap, level: int): (r: Option<int>)
    ensures r.None? <==> forall l :: l in custom ==> l <= level
    ensures r.Some? ==> r.value in custom && r.value > level
    ensures r.Some? ==> forall l :: l in custom && l > level ==> r.value <= l
  {
    var s := Ahead(custom, level);
    assert forall l :: l in custom && l > level ==> l in s;
    if s == {} then None
    else
      var m := MinOf(s);
      assert m in s;
      Some(m)
  }

  function Identity(l: int): int
  {
    l
  }

  function Negate(l: int): int
  {
    -l
  }

  /**
   The source's search for the qualifying threshold: walk the thresholds
   from highest to lowest and stop at the first one not above the level. It
   finds exactly the greatest threshold at or below the level.
   */
  method ScanQualifying(custom: RoleMap, level: int) returns (r: Option<int>)
    ensures r == QualifyingLevel(custom, level)
  {
    var keys := SortDesc(custom.Keys, Identity);
    var i := 0;
    while i < |keys|
      invariant 0 <= i <= |keys|
      invariant forall j :: 0 <= j < i ==> keys[j] > level
      decreases |keys| - i
    {
      if level >= keys[i] {
        assert keys[i] in custom;
        forall l | l in custom && l <= level
          ensures l <= keys[i]
        {
          var j :| 0 <= j < |keys| && keys[j] == l;
          assert Identity(keys[i]) >= Identity(keys[j]) || j < i;
        }
        return Some(keys[i]);
      }
      i := i + 1;
    }
    forall l | l in custom
      ensures l > level
    {
      var j :| 0 <= j < |keys| && keys[j] == l;
    }
    return None;
  }

  /**
   The source's search for the next reward: walk the thresholds from lowest
   to highest and stop at the first one above the level. It finds exactly
   the least threshold above the level.
   */
  method ScanNext(custom: RoleMap, level: int) returns (r: Option<int>)
    ensures r == NextRewardLevel(custom, level)
  {
    var keys := SortDesc(custom.Keys, Negate);
    var i := 0;
    while i < |keys|
      invariant 0 <= i <= |keys|
      invariant forall j :: 0 <= j < i ==> keys[j] <= level
      decreases |keys| - i
    {
      if keys[i] > level {
        assert keys[i] in custom;
        forall l | l in custom && l > level
          ensures keys[i] <= l
        {
          var j :| 0 <= j < |keys| && keys[j] == l;
          assert Negate(keys[i]) >= Negate(keys[j]) || j < i;
        }
        return Some(keys[i]);
      }
      i := i + 1;
    }
    forall l | l in custom
      ensures l <= level
    {
      var j :| 0 <= j < |keys| && keys[j] == l;
    }
    return None;
  }

  /**
   `get_role_for_level`: the threshold and role of the greatest threshold
   reached. The source tests the threshold for truthiness, so a threshold of
   0 reads as "no role".
   */
  function RoleForLevel(custom: RoleMap, level: int): (r: Option<(int, RoleId)>)
    ensures r.Some? ==>
      && r.value.0 in custom && r.value.1 == custom[r.value.0]
      && r.value.0 <= level && r.value.0 != 0
      && forall l :: l in custom && l <= level ==> l <= r.value.0
    ensures r.None? <==> (forall l :: l in custom ==> l > level) || QualifyingLevel(custom, level) == Some(0)
  {
    var q := QualifyingLevel(custom, level);
    if q.Some? && q.value != 0 then Some((q.value, custom[q.value])) else None
  }

  /** With thresholds of 1 or more, as `setrewardrole` enforces, a level earns no role exactly when it is below them all. */
  lemma RoleForLevelPositive(custom: RoleMap, level: int)
    requires forall l :: l in custom ==> l >= 1
    ensures RoleForLevel(custom, level).None? <==> forall l :: l in custom ==> level < l
  {
  }

  /** A threshold of 0 hides the role from every level that reaches no other threshold. */
  lemma ZeroThresholdReadsAsNone(role: RoleId, level: int)
    requires level >= 0
    ensures RoleForLevel(map[0 := role], level) == None
  {
    assert Reached(map[0 := role], level) == {0};
  }

  // ------------------------------------------------------------ level-up

  datatype Assignment = Assignment(changed: bool, roles: set<RoleId>)

  /** The roles of other thresholds that `get_role` resolves. */
  function OtherRewardRoles(custom: RoleMap, q: int, guildRoles: set<RoleId>): set<RoleId>
  {
    set l | l in custom && l != q && custom[l] in guildRoles :: custom[l]
  }

  /**
   `assign_role_for_level`: when the level earns a role that exists and the
   member lacks, the member loses the other thresholds' roles and gains this
   one; otherwise nothing changes.
   */
  function AssignRoleForLevel(memberRoles: set<RoleId>, level: int, custom: RoleMap, guildRoles: set<RoleId>): (r: Assignment)
    ensures r.changed <==>
      var rl := RoleForLevel(custom, level);
      rl.Some? && rl.value.1 in guildRoles && rl.value.1 !in memberRoles
    ensures !r.changed ==> r.roles == memberRoles
    ensures r.changed ==>
      var (q, role) := RoleForLevel(custom, level).value;
      && role in r.roles
      && r.roles <= memberRoles + {role}
      && (forall l :: l in custom && custom[l] in guildRoles && custom[l] != role ==> custom[l] !in r.roles)
      && (forall x :: x in memberRoles && x !in OtherRewardRoles(custom, q, guildRoles) ==> x in r.roles)
  {
    var rl := RoleForLevel(custom, level);
    if rl.None? then Assignment(false, memberRoles)
    else
      var (q, role) := rl.value;
      if role !in guildRoles || role in memberRoles then Assignment(false, memberRoles)
      else
        var others := OtherRewardRoles(custom, q, guildRoles);
        assert forall l :: l in custom && custom[l] in guildRoles && custom[l] != role ==> custom[l] in others;
        Assignment(true, (memberRoles - others) + {role})
  }

  /** Assigning twice is assigning once: the second call finds the role held and changes nothing. */
  lemma AssignIdempotent(memberRoles: set<RoleId>, level: int, custom: RoleMap, guildRoles: set<RoleId>)
    ensures var once := AssignRoleForLevel(memberRoles, level, custom, guildRoles);
      var twice := AssignRoleForLevel(once.roles, level, custom, guildRoles);
      !twice.changed && twice.roles == once.roles
  {
  }

  datatype LevelUp = LevelUp(roles: set<RoleId>, announced: Option<RoleId>)

  /**
   `handle_level_up`: with no reward roles nothing happens; otherwise the
   role is assigned, and the level-up message naming the role is sent
   exactly when the assignment changed the member.
   */
  function HandleLevelUp(memberRoles: set<RoleId>, newLevel: int, custom: RoleMap, guildRoles: set<RoleId>): (r: LevelUp)
    ensures |custom| == 0 ==> r == LevelUp(memberRoles, None)
    ensures r.announced.Some? <==> AssignRoleForLevel(memberRoles, newLevel, custom, guildRoles).changed
    ensures r.announced.Some? ==>
      && RoleForLevel(custom, newLevel).Some?
      && r.announced.value == RoleForLevel(custom, newLevel).value.1
      && r.announced.value in r.roles
    ensures r.announced.None? ==> r.roles == memberRoles
  {
    if |custom| == 0 then LevelUp(memberRoles, None)
    else
      var a := AssignRoleForLevel(memberRoles, newLevel, custom, guildRoles);
      if a.changed then LevelUp(a.roles, Some(RoleForLevel(custom, newLevel).value.1))
      else LevelUp(memberRoles, None)
  }

  /**
   The presence handler followed by `handle_level_up` when the award crossed
   a level boundary. The member gains a reward role, and is announced, only
   on a level-up award whose new level reaches a threshold with a role that
   resolves and that the member lacks; the member then holds that role and
   no other resolving reward role, and loses nothing else. Otherwise the
   member's roles stay as they were.
   */
  function OnPresence(t: Tracker, p: Presence, view: GuildView, now: Time, base: int): (r: (StepResult, LevelUp))
    requires BaseFits(p.activities, base)
    ensures r.0 == Step(t, p, view, now, base)
    ensures var custom := GetCustomRoles(t.db, p.guild);
      r.1.announced.Some? <==>
        && r.0.outcome.Awarded? && r.0.outcome.leveledUp
        && RoleForLevel(custom, r.0.outcome.newLevel).Some?
        && RoleForLevel(custom, r.0.outcome.newLevel).value.1 in view.roles
        && RoleForLevel(custom, r.0.outcome.newLevel).value.1 !in p.roles
    ensures r.1.announced.None? ==> r.1.roles == p.roles
    ensures var custom := GetCustomRoles(t.db, p.guild);
      r.1.announced.Some? ==>
        && r.1.announced.value == RoleForLevel(custom, r.0.outcome.newLevel).value.1
        && r.1.announced.value in r.1.roles
        && r.1.roles <= p.roles + {r.1.announced.value}
        && forall l :: l in custom && custom[l] in view.roles && custom[l] != r.1.announced.value ==> custom[l] !in r.1.roles
  {
    var s := Step(t, p, view, now, base);
    if s.outcome.Awarded? && s.outcome.leveledUp then
      (s, HandleLevelUp(p.roles, s.outcome.newLevel, GetCustomRoles(s.tracker.db, p.guild), view.roles))
    else (s, LevelUp(p.roles, None))
  }

  // ------------------------------------------------------------ admin commands

  datatype CommandError = LevelTooLow | CannotManage | NoSuchLevel

  datatype Result<T> = Ok(value: T) | Err(error: CommandError)

  /** A leaderboard row the sync acts on: at or above the level, and still a member. */
  predicate Targets(row: LeaderRow, level: int, members: set<UserId>)
  {
    row.level >= level && row.user in members
  }

  /** Some row of `rows` targets user `u`. */
  predicate Targeted(rows: seq<LeaderRow>, level: int, members: set<UserId>, u: UserId)
  {
    exists i :: 0 <= i < |rows| && rows[i].user == u && Targets(rows[i], level, members)
  }

  /** The targeted rows whose member, as first looked up, lacks `role`. */
  function CountLacking(rows: seq<LeaderRow>, level: int, snap: Members, role: RoleId): nat
  {
    if |rows| == 0 then 0
    else
      (if Targets(rows[0], level, snap.Keys) && role !in snap[rows[0].user] then 1 else 0)
      + CountLacking(rows[1..], level, snap, role)
  }

  /** The targeted rows whose member, as first looked up, holds `role`. */
  function CountHolding(rows: seq<LeaderRow>, level: int, snap: Members, role: RoleId): nat
  {
    if |rows| == 0 then 0
    else
      (if Targets(rows[0], level, snap.Keys) && role in snap[rows[0].user] then 1 else 0)
      + CountHolding(rows[1..], level, snap, role)
  }

  datatype Sync = Sync(members: Members, changed: nat, skipped: nat)

  /**
   The sync loop of `setrewardrole`. Each member's roles are those looked up
   when the command started (`snap`); `acc` collects the roles after the
   calls made so far. Every targeted member ends with the role, counted as
   synced when it was missing and skipped when already held; every other
   member keeps what `acc` says.
   */
  function SyncNewRole(rows: seq<LeaderRow>, snap: Members, acc: Members, level: int, role: RoleId): (r: Sync)
    requires acc.Keys == snap.Keys
    ensures r.members.Keys == acc.Keys
    ensures forall u :: u in acc ==>
      r.members[u] == if Targeted(rows, level, snap.Keys, u) then snap[u] + {role} else acc[u]
    ensures r.changed == CountLacking(rows, level, snap, role)
    ensures r.skipped == CountHolding(rows, level, snap, role)
    decreases |rows|
  {
    if |rows| == 0 then Sync(acc, 0, 0)
    else
      var row := rows[0];
      var rest := rows[1..];
      assert forall u :: Targeted(rows, level, snap.Keys, u) <==>
        (row.user == u && Targets(row, level, snap.Keys)) || Targeted(rest, level, snap.Keys, u) by {
        forall u ensures Targeted(rows, level, snap.Keys, u) ==>
          (row.user == u && Targets(row, level, snap.Keys)) || Targeted(rest, level, snap.Keys, u)
        {
          if Targeted(rows, level, snap.Keys, u) {
            var i :| 0 <= i < |rows| && rows[i].user == u && Targets(rows[i], level, snap.Keys);
            if i > 0 {
              assert rest[i - 1] == rows[i];
            }
          }
        }
        forall u | Targeted(rest, level, snap.Keys, u)
          ensures Targeted(rows, level, snap.Keys, u)
        {
          var i :| 0 <= i < |rest| && rest[i].user == u && Targets(rest[i], level, snap.Keys);
          assert rows[i + 1] == rest[i];
        }
      }
      if !Targets(row, level, snap.Keys) then
        SyncNewRole(rest, snap, acc, level, role)
      else if role in snap[row.user] then
        var r := SyncNewRole(rest, snap, acc[row.user := snap[row.user] + {role}], level, role);
        r.(skipped := r.skipped + 1)
      else
        var r := SyncNewRole(rest, snap, acc[row.user := snap[row.user] + {role}], level, role);
        r.(changed := r.changed + 1)
  }

  /** A member's roles after one step of the `editrewardrole` loop. */
  function Swap(held: set<RoleId>, oldRole: Option<RoleId>, newRole: RoleId): (r: set<RoleId>)
    ensures newRole !in held ==> newRole in r
    ensures oldRole.Some? && oldRole.value != newRole ==> oldRole.value !in r
    ensures r - {newRole} == held - {newRole} - (if oldRole.Some? then {oldRole.value} else {})
  {
    var without := if oldRole.Some? && oldRole.value in held then held - {oldRole.value} else held;
    if newRole !in held then without + {newRole} else without
  }

  /**
   Replacing a level's role with the role it already has takes it away from a
   member holding it: the old role is removed because it is held, and the
   new one is not added back because it was held.
   */
  lemma SameRoleSwapStrips(held: set<RoleId>, role: RoleId)
    requires role in held
    ensures Swap(held, Some(role), role) == held - {role}
  {
  }

  /**
   The sync loop of `editrewardrole`, with the roles of each member read when
   the command started: each targeted member loses the old role (when it
   still resolves) and gains the new one, and counts as updated when it
   lacked the new role.
   */
  function SyncEditedRole(rows: seq<LeaderRow>, snap: Members, acc: Members, level: int, oldRole: Option<RoleId>, newRole: RoleId): (r: Sync)
    requires acc.Keys == snap.Keys
    ensures r.members.Keys == acc.Keys
    ensures forall u :: u in acc ==>
      r.members[u] == if Targeted(rows, level, snap.Keys, u) then Swap(snap[u], oldRole, newRole) else acc[u]
    ensures r.changed == CountLacking(rows, level, snap, newRole)
    ensures r.skipped == 0
    decreases |rows|
  {
    if |rows| == 0 then Sync(acc, 0, 0)
    else
      var row := rows[0];
      var rest := rows[1..];
      assert forall u :: Targeted(rows, level, snap.Keys, u) <==>
        (row.user == u && Targets(row, level, snap.Keys)) || Targeted(rest, level, snap.Keys, u) by {
        forall u ensures Targeted(rows, level, snap.Keys, u) ==>
          (row.user == u && Targets(row, level, snap.Keys)) || Targeted(rest, level, snap.Keys, u)
        {
          if Targeted(rows, level, snap.Keys, u) {
            var i :| 0 <= i < |rows| && rows[i].user == u && Targets(rows[i], level, snap.Keys);
            if i > 0 {
              assert rest[i - 1] == rows[i];
            }
          }
        }
        forall u | Targeted(rest, level, snap.Keys, u)
          ensures Targeted(rows, level, snap.Keys, u)
        {
          var i :| 0 <= i < |rest| && rest[i].user == u && Targets(rest[i], level, snap.Keys);
          assert rows[i + 1] == rest[i];
        }
      }
      if !Targets(row, level, snap.Keys) then
        SyncEditedRole(rest, snap, acc, level, oldRole, newRole)
      else
        var r := SyncEditedRole(rest, snap, acc[row.user := Swap(snap[row.user], oldRole, newRole)], level, oldRole, newRole);
        if newRole !in snap[row.user] then r.(changed := r.changed + 1) else r
  }

  /** How many leaderboard rows the reward commands read. */
  const SYNC_LIMIT: int := 10000

  /** Writing reward roles does not change the leaderboard's rows. */
  lemma SameRows(db: Db, db1: Db, g: GuildId)
    requires db1.userXp == db.userXp
    ensures GuildRows(db1, g) == GuildRows(db, g)
    ensures forall u :: (g, u) in db.userXp ==> RowFor(db1, g, u) == RowFor(db, g, u)
  {
    assert GuildUsers(db1, g) == GuildUsers(db, g);
    forall x | x in GuildRows(db1, g)
      ensures x in GuildRows(db, g)
    {
      var u :| u in GuildUsers(db1, g) && x == RowFor(db1, g, u);
      assert RowFor(db1, g, u) == RowFor(db, g, u);
    }
    forall x | x in GuildRows(db, g)
      ensures x in GuildRows(db1, g)
    {
      var u :| u in GuildUsers(db, g) && x == RowFor(db, g, u);
      assert RowFor(db1, g, u) == RowFor(db, g, u);
    }
  }

  /**
   What the reward commands know of the rows they read: each is the row of a
   user with XP, and when the guild has no more than 10000 rows, every such
   user's row is among them.
   */
  ghost predicate ReadsBoard(db: Db, g: GuildId, rows: seq<LeaderRow>)
  {
    && (forall i :: 0 <= i < |rows| ==> (g, rows[i].user) in db.userXp && rows[i] == RowFor(db, g, rows[i].user))
    && (|GuildRows(db, g)| <= SYNC_LIMIT ==> forall u :: (g, u) in db.userXp ==> RowFor(db, g, u) in rows)
  }

  /** The `get_leaderboard(guild_id, limit=10000)` call of the reward commands. */
  method SyncRows(db: Db, g: GuildId) returns (rows: seq<LeaderRow>)
    ensures ReadsBoard(db, g, rows)
    ensures |rows| <= SYNC_LIMIT
  {
    rows := GetLeaderboard(db, g, SYNC_LIMIT);
  }

  /** Rows read after a reward-role write describe the XP table from before it. */
  lemma ReadsBoardSameXp(db: Db, db1: Db, g: GuildId, rows: seq<LeaderRow>)
    requires db1.userXp == db.userXp
    requires ReadsBoard(db1, g, rows)
    ensures ReadsBoard(db, g, rows)
  {
    SameRows(db, db1, g);
  }

  /**
   On the leaderboard rows only users with an XP row are targeted, and when
   the limit does not bite every member at or above the level is.
   */
  lemma LeaderboardTargets(db: Db, g: GuildId, rows: seq<LeaderRow>, level: int, members: set<UserId>)
    requires ReadsBoard(db, g, rows)
    ensures forall u :: u in members && (g, u) !in db.userXp ==> !Targeted(rows, level, members, u)
    ensures forall u :: u in members && (g, u) in db.userXp && db.userXp[(g, u)].level < level ==> !Targeted(rows, level, members, u)
    ensures |GuildRows(db, g)| <= SYNC_LIMIT ==>
      forall u :: u in members && (g, u) in db.userXp && db.userXp[(g, u)].level >= level ==> Targeted(rows, level, members, u)
  {
    forall u | u in members && (g, u) !in db.userXp
      ensures !Targeted(rows, level, members, u)
    {
      assert forall i :: 0 <= i < |rows| ==> rows[i].user != u;
    }
    forall u | u in members && (g, u) in db.userXp && db.userXp[(g, u)].level < level
      ensures !Targeted(rows, level, members, u)
    {
      assert forall i :: 0 <= i < |rows| && rows[i].user == u ==> rows[i].level < level;
    }
    if |GuildRows(db, g)| <= SYNC_LIMIT {
      forall u | u in members && (g, u) in db.userXp && db.userXp[(g, u)].level >= level
        ensures Targeted(rows, level, members, u)
      {
        var i :| 0 <= i < |rows| && rows[i] == RowFor(db, g, u);
        assert rows[i].user == u && Targets(rows[i], level, members);
      }
    }
  }

  /**
   The sync of `setrewardrole` over rows read from the leaderboard: nobody
   gains anything but the role, members without XP are untouched, and when
   the read was complete everyone at or above the level holds the role.
   */
  lemma NewRoleSynced(db: Db, g: GuildId, rows: seq<LeaderRow>, level: int, role: RoleId, members: Members)
    requires ReadsBoard(db, g, rows)
    ensures var s := SyncNewRole(rows, members, members, level, role);
      && s.members.Keys == members.Keys
      && (forall u :: u in members ==> members[u] <= s.members[u] <= members[u] + {role})
      && (forall u :: u in members && (g, u) !in db.userXp ==> s.members[u] == members[u])
      && (forall u :: u in members && (g, u) in db.userXp && db.userXp[(g, u)].level < level ==> s.members[u] == members[u])
      && (|GuildRows(db, g)| <= SYNC_LIMIT ==>
            forall u :: u in members && (g, u) in db.userXp && db.userXp[(g, u)].level >= level ==> role in s.members[u])
  {
    LeaderboardTargets(db, g, rows, level, members.Keys);
  }

  /**
   The sync of `editrewardrole` over rows read from the leaderboard: nobody
   gains anything but the new role, members without XP are untouched, and
   when the read was complete everyone at or above the level has swapped.
   */
  lemma EditedRoleSynced(db: Db, g: GuildId, rows: seq<LeaderRow>, level: int, oldRole: Option<RoleId>, newRole: RoleId, members: Members)
    requires ReadsBoard(db, g, rows)
    ensures var s := SyncEditedRole(rows, members, members, level, oldRole, newRole);
      && s.members.Keys == members.Keys
      && (forall u :: u in members ==> s.members[u] <= members[u] + {newRole})
      && (forall u :: u in members && (g, u) !in db.userXp ==> s.members[u] == members[u])
      && (forall u :: u in members && (g, u) in db.userXp && db.userXp[(g, u)].level < level ==> s.members[u] == members[u])
      && (|GuildRows(db, g)| <= SYNC_LIMIT ==>
            forall u :: u in members && (g, u) in db.userXp && db.userXp[(g, u)].level >= level ==>
              && s.members[u] == Swap(members[u], oldRole, newRole)
              && (newRole in s.members[u] || oldRole == Some(newRole))
              && (oldRole.Some? && oldRole.value != newRole ==> oldRole.value !in s.members[u]))
  {
    LeaderboardTargets(db, g, rows, level, members.Keys);
    var s := SyncEditedRole(rows, members, members, level, oldRole, newRole);
    forall u | u in members
      ensures s.members[u] <= members[u] + {newRole}
    {
      var swapped := Swap(members[u], oldRole, newRole);
      assert swapped - {newRole} <= members[u];
    }
  }

  datatype SetRewardDone = SetRewardDone(db: Db, members: Members, synced: nat, skipped: nat)

  /**
   `setrewardrole`: a level below 1 and a role above the bot's own are
   refused; otherwise the role is stored for the level and handed to every
   member whose level reaches it among the first 10000 leaderboard rows,
   which is every such member when the guild has no more rows than that.
   */
  method SetRewardRole(db: Db, g: GuildId, level: int, role: RoleId, manageable: bool, members: Members)
    returns (r: Result<SetRewardDone>)
    ensures level < 1 ==> r == Err(LevelTooLow)
    ensures level >= 1 && !manageable ==> r == Err(CannotManage)
    ensures level >= 1 && manageable ==> r.Ok?
    ensures r.Ok? ==>
      && GetCustomRoles(r.value.db, g) == GetCustomRoles(db, g)[level := role]
      && (forall h :: h != g ==> GetCustomRoles(r.value.db, h) == GetCustomRoles(db, h))
      && r.value.db.userXp == db.userXp && r.value.db.streaks == db.streaks && r.value.db.configs == db.configs
      && r.value.members.Keys == members.Keys
      && (forall u :: u in members ==> members[u] <= r.value.members[u] <= members[u] + {role})
      && (forall u :: u in members && (g, u) !in db.userXp ==> r.value.members[u] == members[u])
      && (forall u :: u in members && (g, u) in db.userXp && db.userXp[(g, u)].level < level ==> r.value.members[u] == members[u])
    ensures r.Ok? && |GuildRows(db, g)| <= SYNC_LIMIT ==>
      forall u :: u in members && (g, u) in db.userXp && db.userXp[(g, u)].level >= level ==>
        role in r.value.members[u]
  {
    if level < 1 {
      return Err(LevelTooLow);
    }
    if !manageable {
      return Err(CannotManage);
    }
    var db1 := AddCustomRole(db, g, level, role);
    forall h | h != g
      ensures GetCustomRoles(db1, h) == GetCustomRoles(db, h)
    {
      AddLeavesOtherGuilds(db, g, level, role, h);
    }
    var rows := SyncRows(db1, g);
    ReadsBoardSameXp(db, db1, g, rows);
    var s := SyncNewRole(rows, members, members, level, role);
    NewRoleSynced(db, g, rows, level, role, members);
    return Ok(SetRewardDone(db1, s.members, s.changed, s.skipped));
  }

  datatype EditRewardDone = EditRewardDone(db: Db, members: Members, updated: nat)

  /**
   `editrewardrole`: a level with no reward role and a role above the bot's
   own are refused; otherwise the level's role is replaced and the members on
   the first 10000 leaderboard rows at or above the level swap roles. The old
   role is only removed when it still resolves in the guild.
   */
  method EditRewardRole(db: Db, g: GuildId, level: int, newRole: RoleId, manageable: bool, guildRoles: set<RoleId>, members: Members)
    returns (r: Result<EditRewardDone>)
    ensures level !in GetCustomRoles(db, g) ==> r == Err(NoSuchLevel)
    ensures level in GetCustomRoles(db, g) && !manageable ==> r == Err(CannotManage)
    ensures level in GetCustomRoles(db, g) && manageable ==> r.Ok?
    ensures r.Ok? ==>
      var oldId := GetCustomRoles(db, g)[level];
      && GetCustomRoles(r.value.db, g) == GetCustomRoles(db, g)[level := newRole]
      && (forall h :: h != g ==> GetCustomRoles(r.value.db, h) == GetCustomRoles(db, h))
      && r.value.db.userXp == db.userXp && r.value.db.streaks == db.streaks && r.value.db.configs == db.configs
      && r.value.members.Keys == members.Keys
      && (forall u :: u in members ==> r.value.members[u] <= members[u] + {newRole})
      && (forall u :: u in members && (g, u) !in db.userXp ==> r.value.members[u] == members[u])
      && (forall u :: u in members && (g, u) in db.userXp && db.userXp[(g, u)].level < level ==> r.value.members[u] == members[u])
      && (oldId != newRole && |GuildRows(db, g)| <= SYNC_LIMIT ==>
            forall u :: u in members && (g, u) in db.userXp && db.userXp[(g, u)].level >= level ==>
              newRole in r.value.members[u] && (oldId in guildRoles ==> oldId !in r.value.members[u]))
  {
    var custom := GetCustomRoles(db, g);
    if level !in custom {
      return Err(NoSuchLevel);
    }
    if !manageable {
      return Err(CannotManage);
    }
    var oldId := custom[level];
    var oldRole := if oldId in guildRoles then Some(oldId) else None;
    var db1 := AddCustomRole(db, g, level, newRole);
    forall h | h != g
      ensures GetCustomRoles(db1, h) == GetCustomRoles(db, h)
    {
      AddLeavesOtherGuilds(db, g, level, newRole, h);
    }
    var rows := SyncRows(db1, g);
    ReadsBoardSameXp(db, db1, g, rows);
    var s := SyncEditedRole(rows, members, members, level, oldRole, newRole);
    EditedRoleSynced(db, g, rows, level, oldRole, newRole, members);
    return Ok(EditRewardDone(db1, s.members, s.changed));
  }

  /**
   Editing a level to the role it already has takes that role away from the
   targeted members who hold it, and counts none of them as updated.
   */
  lemma SameRoleEditStrips(rows: seq<LeaderRow>, members: Members, level: int, role: RoleId, u: UserId)
    requires Targeted(rows, level, members.Keys, u)
    requires role in members[u]
    ensures role !in SyncEditedRole(rows, members, members, level, Some(role), role).members[u]
  {
    SameRoleSwapStrips(members[u], role);
  }

  // ------------------------------------------------------------ setup

  /** The thresholds of every role theme (the themes differ only in names and colours). */
  const THEME_LEVELS: seq<int> := [1, 5, 10, 15, 20, 25, 30, 40, 50, 75, 100]

  /** The theme roles that were created, by level; a later entry for a level wins. */
  function Created(levels: seq<int>, created: seq<Option<RoleId>>): (r: RoleMap)
    requires |levels| == |created|
    ensures forall l :: l in r <==> exists i :: 0 <= i < |levels| && levels[i] == l && created[i].Some?
    decreases |levels|
  {
    if |levels| == 0 then map[]
    else
      var rest := Created(levels[1..], created[1..]);
      assert forall i :: 1 <= i < |levels| ==> levels[1..][i - 1] == levels[i] && created[1..][i - 1] == created[i];
      (if created[0].Some? then map[levels[0] := created[0].value] else map[]) + rest
  }

  /** No role was created for the level of entry `i` after it. */
  predicate LastCreated(levels: seq<int>, created: seq<Option<RoleId>>, i: int)
    requires |levels| == |created| && 0 <= i < |levels|
  {
    forall j :: i < j < |levels| && levels[j] == levels[i] ==> created[j].None?
  }

  /**
   Each level maps to the role of its last successful creation, and every
   role in the map was created for its level.
   */
  lemma {:induction false} CreatedLastWins(levels: seq<int>, created: seq<Option<RoleId>>)
    requires |levels| == |created|
    ensures forall i :: 0 <= i < |levels| && created[i].Some? && LastCreated(levels, created, i) ==>
      levels[i] in Created(levels, created) && Created(levels, created)[levels[i]] == created[i].value
    ensures forall l :: l in Created(levels, created) ==>
      exists i :: 0 <= i < |levels| && levels[i] == l && created[i] == Some(Created(levels, created)[l])
    decreases |levels|
  {
    if |levels| > 0 {
      var r := Created(levels, created);
      var rest := Created(levels[1..], created[1..]);
      CreatedLastWins(levels[1..], created[1..]);
      forall i | 0 <= i < |levels| && created[i].Some? && LastCreated(levels, created, i)
        ensures levels[i] in r && r[levels[i]] == created[i].value
      {
        if i > 0 {
          assert LastCreated(levels[1..], created[1..], i - 1) by {
            forall j | i - 1 < j < |levels| - 1 && levels[1..][j] == levels[1..][i - 1]
              ensures created[1..][j].None?
            {
              assert levels[j + 1] == levels[i];
            }
          }
          assert levels[1..][i - 1] == levels[i] && created[1..][i - 1] == created[i];
        }
      }
      forall l | l in r
        ensures exists i :: 0 <= i < |levels| && levels[i] == l && created[i] == Some(r[l])
      {
        if l in rest {
          var k :| 0 <= k < |levels| - 1 && levels[1..][k] == l && created[1..][k] == Some(rest[l]);
          assert levels[k + 1] == l && created[k + 1] == Some(r[l]);
        } else {
          assert levels[0] == l && created[0] == Some(r[l]);
        }
      }
    }
  }

  /** Stores the created role of each theme level; `None` is a role whose creation failed. */
  function AddThemeRoles(db: Db, g: GuildId, levels: seq<int>, created: seq<Option<RoleId>>): (r: Db)
    requires |levels| == |created|
    ensures r.userXp == db.userXp && r.streaks == db.streaks && r.configs == db.configs
    ensures GetCustomRoles(r, g) == GetCustomRoles(db, g) + Created(levels, created)
    decreases |levels|
  {
    if |levels| == 0 then db
    else
      var db1 := if created[0].Some? then AddCustomRole(db, g, levels[0], created[0].value) else db;
      var first: RoleMap := if created[0].Some? then map[levels[0] := created[0].value] else map[];
      assert GetCustomRoles(db1, g) == GetCustomRoles(db, g) + first by {
        if created[0].Some? {
          UpdateIsUnion(GetCustomRoles(db, g), levels[0], created[0].value);
        }
      }
      var r := AddThemeRoles(db1, g, levels[1..], created[1..]);
      MapUnionAssoc(GetCustomRoles(db, g), first, Created(levels[1..], created[1..]));
      r
  }

  lemma UpdateIsUnion(m: RoleMap, l: int, role: RoleId)
    ensures m[l := role] == m + map[l := role]
  {
  }

  lemma MapUnionAssoc(a: RoleMap, b: RoleMap, c: RoleMap)
    ensures (a + b) + c == a + (b + c)
  {
  }

  /**
   `setxpsystem`: turns tracking on for everyone with the given log channel,
   records whether roles were created, and stores the created theme roles.
   */
  function SetXpSystem(db: Db, g: GuildId, channel: ChannelId, createRoles: bool, created: seq<Option<RoleId>>): (r: Db)
    requires |created| == |THEME_LEVELS|
    ensures GetGuildConfig(r, g) == GuildConfig(true, Some(channel), None, createRoles)
    ensures forall h :: h != g ==> GetGuildConfig(r, h) == GetGuildConfig(db, h)
    ensures GetCustomRoles(r, g) == if createRoles then GetCustomRoles(db, g) + Created(THEME_LEVELS, created) else GetCustomRoles(db, g)
    ensures r.userXp == db.userXp && r.streaks == db.streaks
  {
    var db1 := UpdateGuildConfig(db, g, ConfigPatch(Some(true), Some(Some(channel)), Some(None), Some(createRoles)));
    if createRoles then AddThemeRoles(db1, g, THEME_LEVELS, created) else db1
  }
}

=== FILE: security.dfy ===
/**
 The security cog (backend/cogs/security_commands.py): per-guild settings
 created with defaults on first lookup, the admin setters, the bad-word
 list, the bad-word and anti-spam checks on each message, and the anti-alt
 and anti-raid checks on each join. The message tracker is keyed by user
 alone and the join tracker is a single list for all guilds, as in the source.
 */
module Security {
  import opened Common

  datatype RaidAction = Kick | Ban | Alert

  /** One guild's entry of `security_config.json`. */
  datatype SecConfig = SecConfig(
    antiSpam: bool,
    antiRaid: bool,
    antiAlt: bool,
    badWordsEnabled: bool,
    verificationEnabled: bool,
    loggingEnabled: bool,
    logChannel: Option<ChannelId>,
    verificationRole: Option<RoleId>,
    verificationChannel: Option<ChannelId>,
    maxMentions: int,
    maxMessages: int,
    messageInterval: int,
    badWords: seq<string>,
    raidMaxJoins: int,
    raidAction: RaidAction,
    lockdownMode: bool)

  /** The entry written the first time a guild is looked up. */
  const DEFAULT_SEC_CONFIG: SecConfig := SecConfig(
    true, true, true,
    false, false, false,
    None, None, None,
    5, 5, 5,
    [],
    10, Alert, false)

  /** The settings by guild, the per-user message times and the join times of all guilds. */
  datatype SecState = SecState(configs: map<GuildId, SecConfig>, messages: map<UserId, seq<Time>>, joins: seq<Time>)

  /**
   `get_guild_config`: the stored entry, or the defaults, which are stored
   as a side effect; the trackers are untouched.
   */
  function GetSecConfig(s: SecState, g: GuildId): (r: (SecState, SecConfig))
    ensures g in s.configs ==> r.1 == s.configs[g] && r.0 == s
    ensures g !in s.configs ==> r.1 == DEFAULT_SEC_CONFIG
    ensures r.0.configs == s.configs[g := r.1]
    ensures r.0.messages == s.messages && r.0.joins == s.joins
  {
    if g in s.configs then (s, s.configs[g])
    else (s.(configs := s.configs[g := DEFAULT_SEC_CONFIG]), DEFAULT_SEC_CONFIG)
  }

  /** A first lookup turns spam, raid and alt protection on and the filter, verification and logging off. */
  lemma FirstLookupDefaults(s: SecState, g: GuildId)
    requires g !in s.configs
    ensures var c := GetSecConfig(s, g).1;
      && c.antiSpam && c.antiRaid && c.antiAlt
      && !c.badWordsEnabled && !c.verificationEnabled && !c.loggingEnabled
      && c.maxMessages == 5 && c.messageInterval == 5 && c.raidMaxJoins == 10
      && c.badWords == [] && c.logChannel.None?
    ensures GetSecConfig(GetSecConfig(s, g).0, g) == GetSecConfig(s, g)
  {
  }

  /** Replaces guild `g`'s entry after looking it up. */
  function PutConfig(s: SecState, g: GuildId, c: SecConfig): SecState
  {
    s.(configs := s.configs[g := c])
  }

  // ------------------------------------------------------------ setters

  /** The features `/security` can switch. */
  datatype Feature = AntiSpam | AntiRaid | AntiAlt | BadWordsFilter | Verification | Logging

  function Flag(c: SecConfig, f: Feature): bool
  {
    match f
    case AntiSpam => c.antiSpam
    case AntiRaid => c.antiRaid
    case AntiAlt => c.antiAlt
    case BadWordsFilter => c.badWordsEnabled
    case Verification => c.verificationEnabled
    case Logging => c.loggingEnabled
  }

  /** The entry with every feature flag cleared: what `/security` never changes. */
  function Masked(c: SecConfig): SecConfig
  {
    c.(antiSpam := false, antiRaid := false, antiAlt := false,
       badWordsEnabled := false, verificationEnabled := false, loggingEnabled := false)
  }

  function SetFlag(c: SecConfig, f: Feature, on: bool): (r: SecConfig)
    ensures Flag(r, f) == on
    ensures forall f' :: f' != f ==> Flag(r, f') == Flag(c, f')
    ensures Masked(r) == Masked(c)
  {
    match f
    case AntiSpam => c.(antiSpam := on)
    case AntiRaid => c.(antiRaid := on)
    case AntiAlt => c.(antiAlt := on)
    case BadWordsFilter => c.(badWordsEnabled := on)
    case Verification => c.(verificationEnabled := on)
    case Logging => c.(loggingEnabled := on)
  }

  /** `/security`: sets one feature flag of the guild and nothing else. */
  function Toggle(s: SecState, g: GuildId, f: Feature, on: bool): (r: SecState)
    ensures g in r.configs && Flag(r.configs[g], f) == on
    ensures forall f' :: f' != f ==> Flag(r.configs[g], f') == Flag(GetSecConfig(s, g).1, f')
    ensures Masked(r.configs[g]) == Masked(GetSecConfig(s, g).1)
    ensures forall h :: h != g && h in s.configs ==> h in r.configs && r.configs[h] == s.configs[h]
    ensures r.messages == s.messages && r.joins == s.joins
  {
    var (s1, c) := GetSecConfig(s, g);
    PutConfig(s1, g, SetFlag(c, f, on))
  }

  /** `/setlog`: records the channel and switches logging on. */
  function SetLog(s: SecState, g: GuildId, channel: ChannelId): (r: SecState)
    ensures g in r.configs
    ensures r.configs[g] == GetSecConfig(s, g).1.(logChannel := Some(channel), loggingEnabled := true)
    ensures forall h :: h != g && h in s.configs ==> h in r.configs && r.configs[h] == s.configs[h]
    ensures r.messages == s.messages && r.joins == s.joins
  {
    var (s1, c) := GetSecConfig(s, g);
    PutConfig(s1, g, c.(logChannel := Some(channel), loggingEnabled := true))
  }

  /** `/setverify`: records the role, switches verification on, and records the channel when one is given. */
  function SetVerify(s: SecState, g: GuildId, role: RoleId, channel: Option<ChannelId>): (r: SecState)
    ensures g in r.configs
    ensures var before, after := GetSecConfig(s, g).1, r.configs[g];
      && after.verificationRole == Some(role)
      && after.verificationEnabled
      && after.verificationChannel == (if channel.Some? then channel else before.verificationChannel)
      && after.(verificationRole := None, verificationEnabled := false, verificationChannel := None)
         == before.(verificationRole := None, verificationEnabled := false, verificationChannel := None)
    ensures forall h :: h != g && h in s.configs ==> h in r.configs && r.configs[h] == s.configs[h]
    ensures r.messages == s.messages && r.joins == s.joins
  {
    var (s1, c) := GetSecConfig(s, g);
    PutConfig(s1, g, WithVerification(c, role, channel))
  }

  /** The configuration edit of `/setverify`. */
  function WithVerification(c: SecConfig, role: RoleId, channel: Option<ChannelId>): (r: SecConfig)
    ensures r.verificationRole == Some(role) && r.verificationEnabled
    ensures r.verificationChannel == (if channel.Some? then channel else c.verificationChannel)
    ensures r.(verificationRole := None, verificationEnabled := false, verificationChannel := None)
         == c.(verificationRole := None, verificationEnabled := false, verificationChannel := None)
  {
    var c1 := c.(verificationRole := Some(role), verificationEnabled := true);
    if channel.Some? then c1.(verificationChannel := channel) else c1
  }

  /** `/antiraid`: records the join threshold and the action. */
  function SetAntiRaid(s: SecState, g: GuildId, maxJoins: int, action: RaidAction): (r: SecState)
    ensures g in r.configs
    ensures r.configs[g] == GetSecConfig(s, g).1.(raidMaxJoins := maxJoins, raidAction := action)
    ensures forall h :: h != g && h in s.configs ==> h in r.configs && r.configs[h] == s.configs[h]
    ensures r.messages == s.messages && r.joins == s.joins
  {
    var (s1, c) := GetSecConfig(s, g);
    PutConfig(s1, g, c.(raidMaxJoins := maxJoins, raidAction := action))
  }

  // ------------------------------------------------------------ bad words

  predicate NoDuplicates<T(==)>(words: seq<T>)
  {
    forall i, j :: 0 <= i < j < |words| ==> words[i] != words[j]
  }

  /** The index of the first occurrence of `w`, as `list.index` finds it. */
  function FirstIndex<T(==)>(words: seq<T>, w: T): (i: nat)
    requires w in words
    ensures i < |words| && words[i] == w && w !in words[..i]
  {
    if words[0] == w then 0
    else
      var i := 1 + FirstIndex(words[1..], w);
      assert words[..i] == [words[0]] + words[1..][..i - 1];
      i
  }

  /** Python's `list.remove`: drops the first occurrence and keeps the order of the rest. */
  function RemoveFirst<T(==)>(words: seq<T>, w: T): (r: seq<T>)
    requires w in words
    ensures |r| == |words| - 1
    ensures multiset(r) == multiset(words) - multiset{w}
  {
    assert words == [words[0]] + words[1..];
    if words[0] == w then words[1..]
    else [words[0]] + RemoveFirst(words[1..], w)
  }

  /** `list.remove` cuts out exactly the first occurrence; the words before and after it stay in order. */
  lemma {:induction false} RemoveFirstAt<T>(words: seq<T>, w: T)
    requires w in words
    ensures var i := FirstIndex(words, w); RemoveFirst(words, w) == words[..i] + words[i + 1..]
  {
    if words[0] != w {
      var tail := words[1..];
      RemoveFirstAt(tail, w);
      var i := FirstIndex(tail, w);
      assert FirstIndex(words, w) == i + 1;
      assert RemoveFirst(words, w) == [words[0]] + RemoveFirst(tail, w);
      ConsCut(words, i);
    }
  }

  datatype BadWordsAction = ListWords | AddWord | RemoveWord

  datatype BadWordsReply =
    | Listed(words: seq<string>)
    | MissingWord
    | Added(word: string)
    | AlreadyFiltered(word: string)
    | Removed(word: string)
    | NotFiltered(word: string)

  /**
   The list edit of `/badwords`: given a non-empty word, lowercase it, then
   append it when absent or remove it when present; listing changes nothing.
   */
  function EditWords(words: seq<string>, action: BadWordsAction, word: Option<string>): (r: (seq<string>, BadWordsReply))
    ensures action == ListWords ==> r == (words, Listed(words))
    ensures action != ListWords && (word.None? || word.value == "") ==> r == (words, MissingWord)
    ensures action == AddWord && word.Some? && word.value != "" ==>
      var w := Lower(word.value);
      if w in words then r == (words, AlreadyFiltered(w)) else r == (words + [w], Added(w))
    ensures action == RemoveWord && word.Some? && word.value != "" ==>
      var w := Lower(word.value);
      if w in words then r == (RemoveFirst(words, w), Removed(w)) && (NoDuplicates(words) ==> w !in r.0)
      else r == (words, NotFiltered(w))
    ensures NoDuplicates(words) ==> NoDuplicates(r.0)
  {
    if action == ListWords then (words, Listed(words))
    else if word.None? || word.value == "" then (words, MissingWord)
    else
      var w := Lower(word.value);
      if action == AddWord then
        if w in words then (words, AlreadyFiltered(w)) else (words + [w], Added(w))
      else if w in words then
        assert NoDuplicates(words) ==> NoDuplicates(RemoveFirst(words, w)) && w !in RemoveFirst(words, w) by {
          if NoDuplicates(words) {
            RemoveFirstKeepsNoDuplicates(words, w);
          }
        }
        (RemoveFirst(words, w), Removed(w))
      else (words, NotFiltered(w))
  }

  /** `/badwords` on guild `g`: the list edit applied to the guild's entry, nothing else changed. */
  function BadWords(s: SecState, g: GuildId, action: BadWordsAction, word: Option<string>): (r: (SecState, BadWordsReply))
    ensures g in r.0.configs
    ensures var before := GetSecConfig(s, g).1;
      var (words, reply) := EditWords(before.badWords, action, word);
      r.0.configs[g] == before.(badWords := words) && r.1 == reply
    ensures forall h :: h != g && h in s.configs ==> h in r.0.configs && r.0.configs[h] == s.configs[h]
    ensures r.0.messages == s.messages && r.0.joins == s.joins
  {
    var (s1, c) := GetSecConfig(s, g);
    var (words, reply) := EditWords(c.badWords, action, word);
    (PutConfig(s1, g, c.(badWords := words)), reply)
  }

  lemma {:induction false} RemoveFirstKeepsNoDuplicates<T>(words: seq<T>, w: T)
    requires w in words
    requires NoDuplicates(words)
    ensures NoDuplicates(RemoveFirst(words, w))
    ensures w !in RemoveFirst(words, w)
  {
    var a := words[0];
    assert a !in words[1..] by {
      assert forall j :: 1 <= j < |words| ==> words[1..][j - 1] == words[j];
    }
    if a != w {
      assert NoDuplicates(words[1..]);
      RemoveFirstKeepsNoDuplicates(words[1..], w);
      var rest := RemoveFirst(words[1..], w);
      if a in rest {
        SubMultisetMember(a, rest, words[1..]);
      }
      assert RemoveFirst(words, w) == [a] + rest;
      ConsNoDuplicates(a, rest);
    }
  }

  lemma SubMultisetMember<T>(x: T, a: seq<T>, b: seq<T>)
    requires multiset(a) <= multiset(b) && x in a
    ensures x in b
  {
    assert x in multiset(a);
  }

  lemma ConsNoDuplicates<T>(a: T, rest: seq<T>)
    requires a !in rest && NoDuplicates(rest)
    ensures NoDuplicates([a] + rest)
  {
    forall i, j | 0 <= i < j < |[a] + rest|
      ensures ([a] + rest)[i] != ([a] + rest)[j]
    {
      if i > 0 {
        assert ([a] + rest)[i] == rest[i - 1];
      }
      assert ([a] + rest)[j] == rest[j - 1];
    }
  }

  /** Removing a word just added restores the list. */
  lemma AddThenRemove<T>(words: seq<T>, w: T)
    requires w !in words
    ensures RemoveFirst(words + [w], w) == words
  {
    if |words| > 0 {
      assert (words + [w])[1..] == words[1..] + [w];
      AddThenRemove(words[1..], w);
    }
  }

  // ------------------------------------------------------------ logging

  /** `log_security_event` sends only with logging on, a log channel set, and the channel still present. */
  predicate LogDelivered(c: SecConfig, channels: set<ChannelId>)
  {
    c.loggingEnabled && IsSet(c.logChannel) && c.logChannel.value in channels
  }

  /** After `/setlog` with an existing channel, events reach it. */
  lemma SetLogDelivers(s: SecState, g: GuildId, channel: ChannelId, channels: set<ChannelId>)
    requires channel != 0 && channel in channels
    ensures LogDelivered(SetLog(s, g, channel).configs[g], channels)
  {
  }

  // ------------------------------------------------------------ windows

  /** The times strictly less than `width` before `now`, in their order. */
  function Window(times: seq<Time>, now: Time, width: int): (r: seq<Time>)
    ensures |r| <= |times|
    ensures forall t :: t in r <==> t in times && now - t < width
    ensures forall t :: multiset(r)[t] == if now - t < width then multiset(times)[t] else 0
    ensures (forall i :: 0 <= i < |times| ==> now - times[i] < width) ==> r == times
  {
    if |times| == 0 then []
    else
      var rest := Window(times[1..], now, width);
      assert times == [times[0]] + times[1..];
      assert forall t :: t in times <==> t == times[0] || t in times[1..];
      if now - times[0] < width then [times[0]] + rest else rest
  }

  /** Cutting entry `i` out of the tail and putting the head back cuts entry `i + 1` out of the list. */
  lemma ConsCut<T>(words: seq<T>, i: nat)
    requires i + 1 < |words|
    ensures [words[0]] + (words[1..][..i] + words[1..][i + 1..]) == words[..i + 1] + words[i + 2..]
  {
    assert words[..i + 1] == [words[0]] + words[1..][..i];
    assert words[i + 2..] == words[1..][i + 1..];
  }

  /** Filtering a concatenation filters each part in place: the kept times keep their order. */
  lemma {:induction false} WindowAppend(a: seq<Time>, b: seq<Time>, now: Time, width: int)
    ensures Window(a + b, now, width) == Window(a, now, width) + Window(b, now, width)
  {
    if |a| > 0 {
      assert (a + b)[1..] == a[1..] + b;
      WindowAppend(a[1..], b, now, width);
    } else {
      assert a + b == b;
    }
  }

  /** Filtering twice at the same instant is filtering once. */
  lemma WindowIdempotent(times: seq<Time>, now: Time, width: int)
    ensures Window(Window(times, now, width), now, width) == Window(times, now, width)
  {
    var w := Window(times, now, width);
    assert forall i :: 0 <= i < |w| ==> w[i] in w;
  }

  // ------------------------------------------------------------ messages

  datatype Verdict = NotChecked | BadWord | Spam | Clean

  datatype MessageResult = MessageResult(state: SecState, verdict: Verdict, logged: bool)

  /** Some listed word occurs in the lowercased content. */
  predicate HasBadWord(words: seq<string>, content: string)
  {
    exists i :: 0 <= i < |words| && IsSubstring(words[i], Lower(content))
  }

  /**
   `on_message`. Bots and direct messages are not checked. A filtered word
   ends the check, before spam tracking. Otherwise, with anti-spam on, the
   author's message times within the interval (now included) are kept and
   more than `max_messages` of them is spam. `actionsOk` says whether the
   timeout, or the deletion, and the following warning went through: the
   tracker is cleared and the event logged only then.
   */
  function OnMessage(s: SecState, guild: Option<GuildId>, author: UserId, isBot: bool, content: string,
                     now: Time, actionsOk: bool, channels: set<ChannelId>): (r: MessageResult)
    ensures isBot || guild.None? ==> r == MessageResult(s, NotChecked, false)
    ensures !isBot && guild.Some? ==> r.verdict != NotChecked
    ensures !isBot && guild.Some? ==>
      var c := GetSecConfig(s, guild.value).1;
      var flagged := c.badWordsEnabled && |c.badWords| > 0 && HasBadWord(c.badWords, content);
      var prev := if author in s.messages then s.messages[author] else [];
      var recent := Window(prev + [now], now, c.messageInterval * SECOND);
      && r.state.configs == GetSecConfig(s, guild.value).0.configs
      && r.state.joins == s.joins
      && (r.verdict == BadWord <==> flagged)
      && (r.verdict == Spam <==> !flagged && c.antiSpam && |recent| > c.maxMessages)
      && (flagged || !c.antiSpam ==> r.state.messages == s.messages)
      && (!flagged && c.antiSpam ==>
            r.state.messages == s.messages[author := if r.verdict == Spam && actionsOk then [] else recent])
      && (r.logged <==> (r.verdict == BadWord || r.verdict == Spam) && actionsOk && LogDelivered(c, channels))
  {
    if isBot || guild.None? then MessageResult(s, NotChecked, false)
    else
      var (s1, c) := GetSecConfig(s, guild.value);
      if c.badWordsEnabled && |c.badWords| > 0 && HasBadWord(c.badWords, content) then
        MessageResult(s1, BadWord, actionsOk && LogDelivered(c, channels))
      else if !c.antiSpam then MessageResult(s1, Clean, false)
      else
        var prev := if author in s1.messages then s1.messages[author] else [];
        var recent := Window(prev + [now], now, c.messageInterval * SECOND);
        if |recent| > c.maxMessages then
          var kept := if actionsOk then [] else recent;
          MessageResult(s1.(messages := s1.messages[author := kept]), Spam, actionsOk && LogDelivered(c, channels))
        else MessageResult(s1.(messages := s1.messages[author := recent]), Clean, false)
  }

  /**
   The tracker is per user, not per guild: messages the author sent in
   another guild within the interval count towards spam here.
   */
  lemma SpamCountsOtherGuilds(s: SecState, g: GuildId, author: UserId, content: string, now: Time, channels: set<ChannelId>)
    requires g in s.configs
    requires var c := s.configs[g];
      c.antiSpam && !(c.badWordsEnabled && |c.badWords| > 0 && HasBadWord(c.badWords, content))
    requires author in s.messages
    requires forall i :: 0 <= i < |s.messages[author]| ==> now - s.messages[author][i] < s.configs[g].messageInterval * SECOND
    requires s.configs[g].messageInterval > 0
    requires |s.messages[author]| >= s.configs[g].maxMessages
    ensures OnMessage(s, Some(g), author, false, content, now, true, channels).verdict == Spam
  {
    var c := s.configs[g];
    var all := s.messages[author] + [now];
    assert forall i :: 0 <= i < |all| ==> now - all[i] < c.messageInterval * SECOND;
  }

  // ------------------------------------------------------------ joins

  datatype JoinResult = JoinResult(state: SecState, alt: bool, raid: bool, altLogged: bool, raidLogged: bool)

  /** An account whose computed age is under this is flagged as a possible alt. */
  const ALT_AGE: int := 7 * DAY

  /**
   `on_member_join`: with anti-alt on, an account is flagged when `now -
   createdAt` is under seven days, as the source computes it: `now` is the
   host's local clock and `createdAt` the account's UTC creation time with
   its zone dropped, so on a host away from UTC the test is shifted by the
   host's offset. With anti-raid on, the join is added to the tracker of all
   guilds, joins older than a minute are dropped, and more than
   `raid_max_joins` remaining is a raid. Each finding is logged when logging
   reaches a channel.
   */
  function OnMemberJoin(s: SecState, g: GuildId, createdAt: Time, now: Time, channels: set<ChannelId>): (r: JoinResult)
    ensures var c := GetSecConfig(s, g).1;
      var recent := Window(s.joins + [now], now, MINUTE);
      && r.state.configs == GetSecConfig(s, g).0.configs
      && r.state.messages == s.messages
      && (r.alt <==> c.antiAlt && now - createdAt < ALT_AGE)
      && (r.raid <==> c.antiRaid && |recent| > c.raidMaxJoins)
      && r.state.joins == (if c.antiRaid then recent else s.joins)
      && (r.altLogged <==> r.alt && LogDelivered(c, channels))
      && (r.raidLogged <==> r.raid && LogDelivered(c, channels))
  {
    var (s1, c) := GetSecConfig(s, g);
    var alt := c.antiAlt && now - createdAt < ALT_AGE;
    if c.antiRaid then
      var recent := Window(s1.joins + [now], now, MINUTE);
      var raid := |recent| > c.raidMaxJoins;
      JoinResult(s1.(joins := recent), alt, raid, alt && LogDelivered(c, channels), raid && LogDelivered(c, channels))
    else JoinResult(s1, alt, false, alt && LogDelivered(c, channels), false)
  }

  /**
   The join tracker is shared by every guild: joins to other guilds within
   the minute make a single join to `g` a raid once they reach its threshold.
   */
  lemma RaidCountsOtherGuilds(s: SecState, g: GuildId, createdAt: Time, now: Time, channels: set<ChannelId>)
    requires g in s.configs && s.configs[g].antiRaid
    requires forall i :: 0 <= i < |s.joins| ==> now - s.joins[i] < MINUTE
    requires |s.joins| >= s.configs[g].raidMaxJoins
    ensures OnMemberJoin(s, g, createdAt, now, channels).raid
  {
    var all := s.joins + [now];
    assert forall i :: 0 <= i < |all| ==> now - all[i] < MINUTE;
  }

  /** Joins more than a minute apart never add up: after a quiet minute only the new join counts. */
  lemma QuietMinuteResets(s: SecState, g: GuildId, createdAt: Time, now: Time, channels: set<ChannelId>)
    requires forall i :: 0 <= i < |s.joins| ==> now - s.joins[i] >= MINUTE
    ensures GetSecConfig(s, g).1.antiRaid ==> OnMemberJoin(s, g, createdAt, now, channels).state.joins == [now]
  {
    var w := Window(s.joins + [now], now, MINUTE);
    assert forall t :: t in s.joins ==> now - t >= MINUTE;
    assert forall t :: t in w ==> t == now;
    WindowOfFresh(s.joins, now);
  }

  lemma {:induction false} WindowOfFresh(earlier: seq<Time>, now: Time)
    requires forall i :: 0 <= i < |earlier| ==> now - earlier[i] >= MINUTE
    ensures Window(earlier + [now], now, MINUTE) == [now]
  {
    if |earlier| > 0 {
      assert (earlier + [now])[1..] == earlier[1..] + [now];
      WindowOfFresh(earlier[1..], now);
    } else {
      assert earlier + [now] == [now];
    }
  }
}

=== FILE: store.dfy ===
/**
 The SQLite store of the XP system (backend/database.py) as four maps: user
 XP and activity streaks keyed by (guild, user), per-guild configuration,
 and the level -> reward-role table keyed by (guild, level). Every write is
 an upsert or a delete on one key; every read falls back to the default row
 the source returns when no row exists.
 */
module Store {
  import opened Common
  import opened Ranking

  datatype XpRow = XpRow(xp: int, level: int, lastXpTime: Option<Time>)

  datatype StreakRow = StreakRow(activity: string, count: int, lastTime: Time)

  datatype GuildConfig = GuildConfig(
    enabled: bool,
    logChannel: Option<ChannelId>,
    targetRole: Option<RoleId>,
    autoRoles: bool)

  datatype Db = Db(
    userXp: map<Key, XpRow>,
    streaks: map<Key, StreakRow>,
    configs: map<GuildId, GuildConfig>,
    customRoles: map<(GuildId, int), RoleId>)

  const EmptyDb: Db := Db(map[], map[], map[], map[])

  const XP_PER_LEVEL: int := 100

  /** Python's `xp // 100`; Dafny's `/` agrees with floor division for a positive divisor. */
  function LevelOf(xp: int): int
  {
    xp / XP_PER_LEVEL
  }

  /** Every stored level is the level its XP implies. */
  ghost predicate LevelConsistent(db: Db)
  {
    forall k :: k in db.userXp ==> db.userXp[k].level == LevelOf(db.userXp[k].xp)
  }

  // ---------------------------------------------------------------- user XP

  /** The row for (g, u), or the zero row the source returns for an unknown user. */
  function GetUserXp(db: Db, g: GuildId, u: UserId): (r: XpRow)
    ensures (g, u) !in db.userXp ==> r == XpRow(0, 0, None)
    ensures LevelConsistent(db) ==> r.level == LevelOf(r.xp)
  {
    if (g, u) in db.userXp then db.userXp[(g, u)] else XpRow(0, 0, None)
  }

  datatype AddXpResult = AddXpResult(db: Db, leveledUp: bool, newLevel: int)

  /**
   Adds `amount` to the user's XP, stamps the award time and reports whether
   the derived level went up; only that user's row changes.
   */
  function AddXp(db: Db, g: GuildId, u: UserId, amount: int, now: Time): (r: AddXpResult)
    ensures GetUserXp(r.db, g, u).xp == GetUserXp(db, g, u).xp + amount
    ensures GetUserXp(r.db, g, u).level == r.newLevel == LevelOf(GetUserXp(db, g, u).xp + amount)
    ensures GetUserXp(r.db, g, u).lastXpTime == Some(now)
    ensures r.leveledUp <==> r.newLevel > GetUserXp(db, g, u).level
    ensures forall k :: k != (g, u) ==> (k in r.db.userXp <==> k in db.userXp)
    ensures forall k :: k != (g, u) && k in db.userXp ==> r.db.userXp[k] == db.userXp[k]
    ensures r.db.streaks == db.streaks && r.db.configs == db.configs && r.db.customRoles == db.customRoles
  {
    var current := GetUserXp(db, g, u);
    var newXp := current.xp + amount;
    var newLevel := newXp / 100;
    AddXpResult(
      db.(userXp := db.userXp[(g, u) := XpRow(newXp, newLevel, Some(now))]),
      newLevel > current.level,
      newLevel)
  }

  lemma AddXpKeepsLevelConsistent(db: Db, g: GuildId, u: UserId, amount: int, now: Time)
    requires LevelConsistent(db)
    ensures LevelConsistent(AddXp(db, g, u, amount, now).db)
  {
  }

  /** A non-negative award never lowers the level, and the level goes up exactly when a multiple of 100 is crossed. */
  lemma AddXpLevelMonotone(db: Db, g: GuildId, u: UserId, amount: int, now: Time)
    requires LevelConsistent(db)
    requires amount >= 0
    ensures var r := AddXp(db, g, u, amount, now);
      && r.newLevel >= GetUserXp(db, g, u).level
      && (r.leveledUp <==> (GetUserXp(db, g, u).xp % 100) + amount >= 100)
  {
    var x := GetUserXp(db, g, u).xp;
    assert x == (x / 100) * 100 + x % 100;
    assert x + amount == (x / 100) * 100 + (x % 100 + amount);
    if x % 100 + amount >= 100 {
      assert (x + amount) / 100 >= x / 100 + 1;
    } else {
      assert (x + amount) / 100 == x / 100;
    }
  }

  // ------------------------------------------------------------ leaderboard

  datatype LeaderRow = LeaderRow(user: UserId, xp: int, level: int)

  function RowXp(r: LeaderRow): int
  {
    r.xp
  }

  /** The users of guild `g` that have an XP row. */
  function GuildUsers(db: Db, g: GuildId): set<UserId>
  {
    set k | k in db.userXp && k.0 == g :: k.1
  }

  function RowFor(db: Db, g: GuildId, u: UserId): LeaderRow
    requires (g, u) in db.userXp
  {
    LeaderRow(u, db.userXp[(g, u)].xp, db.userXp[(g, u)].level)
  }

  /** `SELECT user_id, xp, level FROM user_xp WHERE guild_id = g` as a set. */
  function GuildRows(db: Db, g: GuildId): set<LeaderRow>
  {
    set u | u in GuildUsers(db, g) :: RowFor(db, g, u)
  }

  /**
   `get_leaderboard`: the guild's rows in non-increasing XP order, at most
   `limit` of them, each user once, and every row left out has no more XP
   than any row returned.
   */
  method GetLeaderboard(db: Db, g: GuildId, limit: int) returns (rows: seq<LeaderRow>)
    ensures forall i, j :: 0 <= i < j < |rows| ==> rows[i].xp >= rows[j].xp
    ensures forall i :: 0 <= i < |rows| ==>
      (g, rows[i].user) in db.userXp && rows[i] == RowFor(db, g, rows[i].user)
    ensures forall i, j :: 0 <= i < j < |rows| ==> rows[i].user != rows[j].user
    ensures |rows| == Capped(|GuildRows(db, g)|, limit)
    ensures forall y, i :: y in GuildRows(db, g) && y !in rows && 0 <= i < |rows| ==> y.xp <= rows[i].xp
    ensures limit < 0 || |GuildRows(db, g)| <= limit ==>
      forall u :: (g, u) in db.userXp ==> RowFor(db, g, u) in rows
  {
    rows := TopBy(GuildRows(db, g), RowXp, limit);
    if limit < 0 || |GuildRows(db, g)| <= limit {
      forall u | (g, u) in db.userXp
        ensures RowFor(db, g, u) in rows
      {
        assert u in GuildUsers(db, g);
        assert RowFor(db, g, u) in GuildRows(db, g);
      }
    }
    forall i, j | 0 <= i < j < |rows|
      ensures rows[i].xp >= rows[j].xp
    {
      assert RowXp(rows[i]) >= RowXp(rows[j]);
    }
    forall i | 0 <= i < |rows|
      ensures (g, rows[i].user) in db.userXp && rows[i] == RowFor(db, g, rows[i].user)
    {
      assert rows[i] in GuildRows(db, g);
    }
  }

  /**
   `get_user_rank`: one more than the number of users of the guild with
   strictly more XP. A user with no row compares against SQL NULL, which no
   row exceeds, so the rank is 1.
   */
  function UserRank(db: Db, g: GuildId, u: UserId): (r: int)
    ensures r >= 1
    ensures (g, u) !in db.userXp ==> r == 1
  {
    if (g, u) in db.userXp then 1 + |Above(db, g, db.userXp[(g, u)].xp)| else 1
  }

  /** The keys of guild `g` holding strictly more than `xp`. */
  function Above(db: Db, g: GuildId, xp: int): set<Key>
  {
    set k | k in db.userXp && k.0 == g && db.userXp[k].xp > xp
  }

  /** Strictly more XP means a strictly better (smaller) rank. */
  lemma RankOrder(db: Db, g: GuildId, u: UserId, v: UserId)
    requires (g, u) in db.userXp && (g, v) in db.userXp
    requires db.userXp[(g, u)].xp > db.userXp[(g, v)].xp
    ensures UserRank(db, g, u) < UserRank(db, g, v)
  {
    var au := Above(db, g, db.userXp[(g, u)].xp);
    var av := Above(db, g, db.userXp[(g, v)].xp);
    assert au <= av;
    assert (g, u) in av - au;
    SubsetCard(au, av);
    assert av == au + (av - au);
  }

  /** Rank 1 exactly when nobody in the guild has more XP; never beyond the number of users. */
  lemma RankBounds(db: Db, g: GuildId, u: UserId)
    requires (g, u) in db.userXp
    ensures UserRank(db, g, u) == 1 <==> forall k :: k in db.userXp && k.0 == g ==> db.userXp[k].xp <= db.userXp[(g, u)].xp
    ensures UserRank(db, g, u) <= |GuildKeys(db, g)|
  {
    var a := Above(db, g, db.userXp[(g, u)].xp);
    if UserRank(db, g, u) != 1 {
      assert a != {};
      if forall k :: k !in a {
        assert false;
      }
      var k :| k in a;
      assert db.userXp[k].xp > db.userXp[(g, u)].xp;
    }
    if exists k :: k in db.userXp && k.0 == g && db.userXp[k].xp > db.userXp[(g, u)].xp {
      var k :| k in db.userXp && k.0 == g && db.userXp[k].xp > db.userXp[(g, u)].xp;
      assert k in a;
    }
    assert a <= GuildKeys(db, g) - {(g, u)};
    SubsetCard(a, GuildKeys(db, g) - {(g, u)});
    assert |GuildKeys(db, g) - {(g, u)}| == |GuildKeys(db, g)| - 1;
  }

  function GuildKeys(db: Db, g: GuildId): set<Key>
  {
    set k | k in db.userXp && k.0 == g
  }

  // ----------------------------------------------------------------- streaks

  datatype StreakInfo = StreakInfo(activity: Option<string>, count: int, lastTime: Option<Time>)

  /** The stored streak, or the empty streak the source returns when there is no row. */
  function GetStreak(db: Db, g: GuildId, u: UserId): (r: StreakInfo)
    ensures (g, u) !in db.streaks ==> r == StreakInfo(None, 0, None)
    ensures (g, u) in db.streaks ==> r.activity == Some(db.streaks[(g, u)].activity)
  {
    if (g, u) in db.streaks then
      var row := db.streaks[(g, u)];
      StreakInfo(Some(row.activity), row.count, Some(row.lastTime))
    else StreakInfo(None, 0, None)
  }

  /** `update_streak` overwrites activity and count of one key; reading it back gives what was written. */
  function UpdateStreak(db: Db, g: GuildId, u: UserId, activity: string, count: int, now: Time): (r: Db)
    ensures GetStreak(r, g, u) == StreakInfo(Some(activity), count, Some(now))
    ensures forall k :: k != (g, u) ==> (k in r.streaks <==> k in db.streaks)
    ensures forall k :: k != (g, u) && k in db.streaks ==> r.streaks[k] == db.streaks[k]
    ensures r.userXp == db.userXp && r.configs == db.configs && r.customRoles == db.customRoles
  {
    db.(streaks := db.streaks[(g, u) := StreakRow(activity, count, now)])
  }

  datatype StreakEntry = StreakEntry(user: UserId, activity: string, count: int)

  function EntryCount(e: StreakEntry): int
  {
    e.count
  }

  /** The guild's streak rows with a positive count. */
  function ActiveStreaks(db: Db, g: GuildId): set<StreakEntry>
  {
    set k | k in db.streaks && k.0 == g && db.streaks[k].count > 0 ::
      StreakEntry(k.1, db.streaks[k].activity, db.streaks[k].count)
  }

  /**
   `get_top_streaks`: only the guild's rows with a positive count, in
   non-increasing count order, at most `limit`, none left out above any kept.
   */
  method GetTopStreaks(db: Db, g: GuildId, limit: int) returns (rows: seq<StreakEntry>)
    ensures forall i :: 0 <= i < |rows| ==>
      && rows[i].count > 0
      && (g, rows[i].user) in db.streaks
      && db.streaks[(g, rows[i].user)].count == rows[i].count
      && db.streaks[(g, rows[i].user)].activity == rows[i].activity
    ensures forall i, j :: 0 <= i < j < |rows| ==> rows[i].count >= rows[j].count
    ensures forall i, j :: 0 <= i < j < |rows| ==> rows[i].user != rows[j].user
    ensures |rows| == Capped(|ActiveStreaks(db, g)|, limit)
    ensures forall y, i :: y in ActiveStreaks(db, g) && y !in rows && 0 <= i < |rows| ==> y.count <= rows[i].count
    ensures limit < 0 || |ActiveStreaks(db, g)| <= limit ==> forall y :: y in ActiveStreaks(db, g) ==> y in rows
  {
    rows := TopBy(ActiveStreaks(db, g), EntryCount, limit);
    forall i, j | 0 <= i < j < |rows|
      ensures rows[i].count >= rows[j].count && rows[i].user != rows[j].user
    {
      assert EntryCount(rows[i]) >= EntryCount(rows[j]);
      assert rows[i] in ActiveStreaks(db, g) && rows[j] in ActiveStreaks(db, g);
    }
    forall i | 0 <= i < |rows|
      ensures rows[i].count > 0 && (g, rows[i].user) in db.streaks
      ensures db.streaks[(g, rows[i].user)].count == rows[i].count
      ensures db.streaks[(g, rows[i].user)].activity == rows[i].activity
    {
      assert rows[i] in ActiveStreaks(db, g);
    }
  }

  // ------------------------------------------------------------ guild config

  const DefaultGuildConfig: GuildConfig := GuildConfig(false, None, None, false)

  /** The stored configuration, or the disabled default for an unknown guild. */
  function GetGuildConfig(db: Db, g: GuildId): (r: GuildConfig)
    ensures g !in db.configs ==> !r.enabled && r.logChannel == None && r.targetRole == None && !r.autoRoles
  {
    if g in db.configs then db.configs[g] else DefaultGuildConfig
  }

  /** The whitelisted keyword arguments of `update_guild_config`; `None` means not supplied. */
  datatype ConfigPatch = ConfigPatch(
    enabled: Option<bool>,
    logChannel: Option<Option<ChannelId>>,
    targetRole: Option<Option<RoleId>>,
    autoRoles: Option<bool>)

  predicate IsEmptyPatch(p: ConfigPatch)
  {
    p.enabled.None? && p.logChannel.None? && p.targetRole.None? && p.autoRoles.None?
  }

  function ApplyPatch(c: GuildConfig, p: ConfigPatch): GuildConfig
  {
    GuildConfig(
      if p.enabled.Some? then p.enabled.value else c.enabled,
      if p.logChannel.Some? then p.logChannel.value else c.logChannel,
      if p.targetRole.Some? then p.targetRole.value else c.targetRole,
      if p.autoRoles.Some? then p.autoRoles.value else c.autoRoles)
  }

  /**
   `update_guild_config`: nothing happens when no key is supplied; otherwise
   the supplied fields are written (inserting a row with the column defaults
   for a new guild) and every other field and guild keeps its value.
   */
  function UpdateGuildConfig(db: Db, g: GuildId, p: ConfigPatch): (r: Db)
    ensures IsEmptyPatch(p) ==> r == db
    ensures !IsEmptyPatch(p) ==> g in r.configs
    ensures var before, after := GetGuildConfig(db, g), GetGuildConfig(r, g);
      && after.enabled == (if p.enabled.Some? then p.enabled.value else before.enabled)
      && after.logChannel == (if p.logChannel.Some? then p.logChannel.value else before.logChannel)
      && after.targetRole == (if p.targetRole.Some? then p.targetRole.value else before.targetRole)
      && after.autoRoles == (if p.autoRoles.Some? then p.autoRoles.value else before.autoRoles)
    ensures forall h :: h != g ==> GetGuildConfig(r, h) == GetGuildConfig(db, h)
    ensures r.userXp == db.userXp && r.streaks == db.streaks && r.customRoles == db.customRoles
  {
    if IsEmptyPatch(p) then db
    else db.(configs := db.configs[g := ApplyPatch(GetGuildConfig(db, g), p)])
  }

  // ------------------------------------------------------------ reward roles

  /** `get_custom_roles`: the guild's level -> role map (the source keys it by `str(level)`). */
  function GetCustomRoles(db: Db, g: GuildId): (r: map<int, RoleId>)
    ensures forall l :: l in r <==> (g, l) in db.customRoles
    ensures forall l :: l in r ==> r[l] == db.customRoles[(g, l)]
  {
    map k | k in db.customRoles && k.0 == g :: k.1 := db.customRoles[k]
  }

  /** `add_custom_role` upserts one (guild, level) entry and leaves every other entry alone. */
  function AddCustomRole(db: Db, g: GuildId, level: int, role: RoleId): (r: Db)
    ensures GetCustomRoles(r, g) == GetCustomRoles(db, g)[level := role]
    ensures forall k :: k != (g, level) ==> (k in r.customRoles <==> k in db.customRoles)
    ensures forall k :: k != (g, level) && k in db.customRoles ==> r.customRoles[k] == db.customRoles[k]
    ensures r.userXp == db.userXp && r.streaks == db.streaks && r.configs == db.configs
  {
    var r := db.(customRoles := db.customRoles[(g, level) := role]);
    SameEntries(GetCustomRoles(r, g), GetCustomRoles(db, g)[level := role]);
    r
  }

  /** `remove_custom_role` deletes only the (guild, level) entry. */
  function RemoveCustomRole(db: Db, g: GuildId, level: int): (r: Db)
    ensures GetCustomRoles(r, g) == GetCustomRoles(db, g) - {level}
    ensures forall k :: k != (g, level) ==> (k in r.customRoles <==> k in db.customRoles)
    ensures forall k :: k != (g, level) && k in db.customRoles ==> r.customRoles[k] == db.customRoles[k]
    ensures (g, level) !in r.customRoles
    ensures r.userXp == db.userXp && r.streaks == db.streaks && r.configs == db.configs
  {
    var r := db.(customRoles := db.customRoles - {(g, level)});
    SameEntries(GetCustomRoles(r, g), GetCustomRoles(db, g) - {level});
    r
  }

  /** Deleting one guild's reward role leaves every other guild's map as it was. */
  lemma RemoveLeavesOtherGuilds(db: Db, g: GuildId, level: int, h: GuildId)
    requires h != g
    ensures GetCustomRoles(RemoveCustomRole(db, g, level), h) == GetCustomRoles(db, h)
  {
    SameEntries(GetCustomRoles(RemoveCustomRole(db, g, level), h), GetCustomRoles(db, h));
  }

  /** Writing one guild's reward role leaves every other guild's map unchanged. */
  lemma AddLeavesOtherGuilds(db: Db, g: GuildId, level: int, role: RoleId, h: GuildId)
    requires h != g
    ensures GetCustomRoles(AddCustomRole(db, g, level, role), h) == GetCustomRoles(db, h)
  {
    SameEntries(GetCustomRoles(AddCustomRole(db, g, level, role), h), GetCustomRoles(db, h));
  }

  /** Writing a reward role and deleting it again leaves the guild's map as it was without that level. */
  lemma AddThenRemoveCustomRole(db: Db, g: GuildId, level: int, role: RoleId)
    ensures GetCustomRoles(RemoveCustomRole(AddCustomRole(db, g, level, role), g, level), g)
         == GetCustomRoles(db, g) - {level}
  {
  }
}
